=== FILE: README.md ===
# MyLearnApp front end — a Dafny model

MyLearnApp is a quiz platform. Students take multiple-choice quizzes and professors write them. This project models the decision logic of its React front end as pure Dafny functions over immutable datatypes, and proves properties of them:

- **The quiz wizard** (`quiz-app.jsx` and its split-out views). It is a state machine over the chosen quiz, the current question, the selections map, completion, score, clock and active tab. It also covers scoring, the result tier, the confetti threshold, the `m:ss` clock and the review.
- **The catalog** (`ExplorerTab`, `FilterPanel`): the filter record, the filtered list, the lists of distinct values and the badge count.
- **The authoring editors**:
  - the question editor: load normalisation, bounded option lists, serialisation and submit;
  - the quiz creator: question numbering, validation and the request mapping;
  - a quiz's detail page: correct index, fetch-once guard, delete-by-id and colours;
  - a professor's quiz list: fetch guard, focus-refetch throttle, delete and colour fallback.
- **The helpers**: difficulty classes, colour-base extraction, initials and role labels.
- **The pages' routing decisions**, from the sign-in state and the stored role.

Everything becomes a value:

- React state is a datatype.
- Every handler is a function from state to state.
- HTTP answers and the identity provider's state (`Users.Auth`) are parameters.
- `router.push` targets are returned values.

Quizzes come from built-in sample data (src/components/quiz-app.jsx:162-163), and the score is computed in the browser (src/components/quiz-app.jsx:221-224). The model follows the code.

Files:

| file | modules |
|---|---|
| `wrappers.dfy`, `text.dfy`, `seqs.dfy` | `Option`; digits, trimming, splitting and prefix parsing; find, filter, count, map and dedup on sequences |
| `quiz_model.dfy`, `scoring.dfy`, `clock.dfy` | quiz records; the two correctness rules; `formatTime` |
| `quiz_app.dfy` | `QuizApp`, the wizard's state machine |
| `quiz_card.dfy`, `quiz_tab.dfy`, `options.dfy`, `results.dfy` | the quiz views |
| `catalog.dfy` | `ExplorerTab`, `FilterPanel` |
| `quiz_utils.dfy` | both copies of the helper file |
| `question_form.dfy`, `create_quiz_form.dfy`, `quiz_detail.dfy`, `quiz_list.dfy` | the authoring pages |
| `users.dfy`, `navbar.dfy`, `profile.dfy`, `routing.dfy` | the user, the navigation bar, the profile page and the routed pages |

## Model

| member | source | states |
|---|---|---|
| Scoring.Score | src/components/quiz-app.jsx:222-225 | The score counts the questions whose selection equals `correctOptionId`. It lies between 0 and n, equals n exactly when every question is answered with its key, and is 0 exactly when none is. |
| Scoring.SelectedChoice | src/components/quiz/ReviewOptionItem.jsx:11 | The selected option exists exactly when the selection names the id of an option. It is then the first option carrying that id, as `find` returns. |
| Scoring.FlagAgreesWithKey | src/components/quiz/ReviewOptionItem.jsx:12 | Take a question where exactly the option with the key's id is flagged `correct`. On it, the flag verdict and the key verdict agree on every selection. |
| Scoring.ScoresAgree | src/components/quiz/ReviewOptionItem.jsx:11-12 | When every question's flags follow its key, the number of questions the flag rule marks right equals the wizard's score. |
| Scoring.UnflaggedNeverCorrect | src/components/quiz/ReviewOptionItem.jsx:12 | A question without any `correct` flag is judged wrong by the review item, whatever was selected. |
| Scoring.RulesDisagreeWithoutFlags | src/components/quiz-app.jsx:30-36 | An unflagged question answered with its key, like those of the built-in samples, is right for the wizard and wrong for the review item. |
| Scoring.AnswerText | src/components/quiz-app.jsx:547-548 | "Your answer" is "Aucune réponse" when no option has the selected id, the selected option's text when that text is non-empty, and "Aucune réponse" again when the selected option's text is empty. It is always the placeholder or the text of an option. |
| Scoring.KeyAnswerText | src/components/quiz-app.jsx:553 | The wizard's correct-answer text exists exactly when some option has the key's id. It is then the text of the first such option. |
| Scoring.FlagAnswerText | src/components/quiz/ReviewOptionItem.jsx:13 | The review item's correct answer is the first flagged option's text, and empty when nothing is flagged. |
| Scoring.AnswerTextsAgree | src/components/quiz/ReviewOptionItem.jsx:13 | Where the flags follow the key, both reviews name the same correct answer. |
| Clock.TwoDigits | src/components/quiz-app.jsx:246-247 | For seconds below 60, the field is exactly two decimal digits whose value is the seconds, so single digits get a leading zero. |
| Clock.ParseFormatTime | src/components/quiz-app.jsx:244-248 | Reading `formatTime(s)` back as minutes times 60 plus the two-digit seconds gives s. |
| Clock.FormatTimeInjective | src/components/quiz-app.jsx:244-248 | Two different durations never display alike. |
| QuizApp.InitialValid | src/components/quiz-app.jsx:144-151 | The initial state satisfies the wizard invariant `Valid`. |
| QuizApp.StartValid | src/components/quiz-app.jsx:196-205 | Starting a quiz yields a valid state. |
| QuizApp.SelectValid | src/components/quiz-app.jsx:207-212 | Selecting an option on the question shown keeps the state valid. In particular, every recorded answer still belongs to a question of the quiz. |
| QuizApp.NextValid | src/components/quiz-app.jsx:214-228 | Next keeps the state valid. After completion the stored score is the key score. |
| QuizApp.StepValid | src/components/quiz-app.jsx:276-296 | Every event keeps `Valid`. This includes tab switches through the enabled tab triggers and the catalog-tab reset effect. |
| QuizApp.RunValid | src/components/quiz-app.jsx:189-194 | Every sequence of events from a valid state ends in a valid state. |
| QuizApp.StartBeginsAttempt | src/components/quiz-app.jsx:196-205 | From the catalog, start sets question 0, no answers, not completed, score 0, the clock at 0 and running, and the quiz tab. |
| QuizApp.SelectRecords | src/components/quiz-app.jsx:207-212 | Selecting records the option for the current question's id. Every other entry and every other field is unchanged. |
| QuizApp.ReselectOverwrites | src/components/quiz-app.jsx:207-212 | Selecting a then b gives the same state as selecting b alone. |
| QuizApp.NextAdvances | src/components/quiz-app.jsx:215-216 | Next before the last question increments the index by exactly one, changes nothing else and does not score. |
| QuizApp.NextFinishes | src/components/quiz-app.jsx:222-234 | Next on the last question sets the score to the key score, which is at most n. It also sets completed, stops the clock and shows the results tab. Confetti is shown exactly when 10·score ≥ 7·n or it was already shown. |
| QuizApp.CompletesOnlyOnLastNext | src/components/quiz-app.jsx:214-228 | The attempt becomes completed only through Next on the last question. |
| QuizApp.AbandonKeepsClockRunning | src/components/quiz-app.jsx:250-254 | `resetQuiz` returns to the catalog with no quiz and not completed. It leaves the clock running, so the next second still counts. |
| QuizApp.BackToQuizzesForgets | src/components/quiz-app.jsx:566 | "Retour aux Quiz" on the results returns to the catalog, with no quiz and not completed. |
| QuizApp.SecondAdvancesRunningClock | src/components/quiz-app.jsx:176-186 | One tick adds a second exactly while the clock runs. |
| QuizApp.NextDisabledIffUnanswered | src/components/quiz-app.jsx:450 | When no option id is 0, Next is disabled exactly while the current question has no selection. |
| QuizApp.ZeroOptionIdBlocksNext | src/components/quiz-app.jsx:450 | A stored selection of option id 0 still disables Next. |
| QuizApp.TierMonotone | src/components/quiz-app.jsx:497-501 | A higher score never earns a lower tier among "Continuez", "Bon travail" and "Parfait". |
| QuizApp.PerfectIffAllKeys | src/components/quiz-app.jsx:497-498 | "Parfait" is shown exactly when every question was answered with its key. |
| QuizApp.ConfettiTiers | src/components/quiz-app.jsx:231 | Confetti implies at least the "Bon travail" tier, and a perfect score always earns confetti. |
| QuizApp.ReviewCountsScore | src/components/quiz-app.jsx:522-523 | The inline review marks exactly as many questions right as the score counts. |
| QuizApp.UnansweredIsWrong | src/components/quiz-app.jsx:547-553 | An unanswered question is reviewed as wrong, shows "Aucune réponse", and shows the correct-answer line. |
| QuizApp.DifficultyColorAgrees | src/components/quiz-app.jsx:256-267 | The wizard's own difficulty classes equal the shared helper's on every input. |
| QuizUtils.DifficultyColor | src/utils/quiz-utils.js:26-37 | The classes are emerald iff "Débutant", amber iff "Intermédiaire", rose iff "Avancé", and blue iff any other string. |
| QuizUtils.ExtractColorBase | src/utils/quiz-utils.js:44-48 | The result contains no "-". It is "purple" for an absent or empty scheme, or one without "-". |
| QuizUtils.ExtractColorBaseOfJoin | src/utils/quiz-utils.js:47-48 | For a scheme joined from two or more "-"-free pieces, the result is the second piece. |
| QuizUtils.ExtractCanBeEmpty | src/utils/quiz-utils.js:47-48 | "a--b" gives the empty string. |
| QuizUtilsCopy.CopyAgrees | src/components/quiz/quiz-utils.js:16-27 | The older copy maps every difficulty to the same classes as the shared helper. |
| QuizCardView.TimeText | src/components/quiz/QuizCard.jsx:57-59 | With a time limit, the card text is `formatTime` of it. The padding with `padStart` gives the same two-digit field. |
| QuizCardView.TimeLimitReadsBack | src/components/quiz/QuizCard.jsx:57-58 | A card with a time limit t displays a clock that reads back as t. |
| QuizCardView.EstimateReadsBack | src/components/quiz/QuizCard.jsx:59 | Without a time limit the text is "~" followed by a number that reads back as 30 × the number of questions. |
| QuizCardView.ProfessorLine | src/components/quiz/QuizCard.jsx:40-47 | The professor line is rendered iff the quiz has a professor, and names that professor in full. |
| QuizCardView.StartStartsThisQuiz | src/components/quiz/QuizCard.jsx:67 | The card's button starts that card's quiz. |
| QuizTabView.NextLabel | src/components/quiz/QuizTab.jsx:65 | The label is "Question Suivante" iff current < n−1, and "Terminer le Quiz" otherwise. |
| QuizTabView.CounterReadsBack | src/components/quiz/QuizTab.jsx:44 | The counter starts "Question " followed by a number that reads back as current+1. |
| QuizTabView.ProgressBounds | src/components/quiz/QuizTab.jsx:39-42 | For a valid index the progress fraction lies in (0, 100]. It is full exactly on the last question. |
| QuizTabView.ProgressGrows | src/components/quiz/QuizTab.jsx:40 | Progress strictly grows from one question to the next. |
| QuizTabView.NextButtonMatchesStep | src/components/quiz/QuizTab.jsx:60-66 | The button is disabled exactly when pressing Next would do nothing. When enabled, it reads "Terminer le Quiz" exactly when pressing it completes the attempt. |
| QuizTabView.AbandonResets | src/components/quiz/QuizTab.jsx:57 | "Abandonner" performs `resetQuiz` and returns to the catalog. |
| OptionItemView.ColorBase | src/components/quiz/OptionItem.jsx:14 | The item's colour base is never empty and never contains "-". |
| OptionItemView.ColorBaseVersusExtract | src/components/quiz/OptionItem.jsx:14 | The item's rule and `extractColorBase` differ exactly when the second "-" piece exists and is empty. |
| OptionItemView.Render | src/components/quiz/OptionItem.jsx:21-40 | The check mark shows iff the item is selected. The item is dimmed iff disabled, and animated iff not disabled. |
| OptionItemView.Click | src/components/quiz/OptionItem.jsx:28 | A click reports the option's id iff the item is not disabled. |
| OptionsListView.Items | src/components/quiz/OptionsList.jsx:16-25 | The list renders one item per option, in order. Each item is selected iff the selected id is its option's id. It carries the forwarded handler, and the colour scheme and disabled flag with their defaults. |
| OptionsListView.AtMostOneSelected | src/components/quiz/OptionsList.jsx:20 | With distinct option ids, at most one item is selected. One is selected iff the selected id belongs to an option. |
| OptionsListView.ClickReportsOption | src/components/quiz/OptionsList.jsx:21 | Clicking item i reports option i's id, or nothing when the list is disabled. |
| ReviewOptionItemView.Render | src/components/quiz/ReviewOptionItem.jsx:11-49 | The item is numbered index+1. It is right iff the selected option exists and is flagged. The answer shown is the selected option's text or "Aucune réponse". The correct-answer line shows iff it is wrong, and then holds the first flagged option's text, empty when none is flagged. An unanswered item is wrong with "Aucune réponse". |
| ReviewOptionListView.BlocksLayout | src/components/quiz/ReviewOptionList.jsx:9-17 | The heading comes once, first. Then there is one item per question, in order, keyed by its id, indexed by its position and given its own selection. |
| ReviewOptionListView.RenderedCountsFlagScore | src/components/quiz/ReviewOptionList.jsx:10-17 | The number of items shown right is the flag score. It is the wizard's score when every question's flags follow its key. |
| ResultsTabView.ScoreTextReadsBack | src/components/quiz/ResultsTab.jsx:42 | "score/n" splits at "/" back into the score and the number of questions. |
| ResultsTabView.ViewOf | src/components/quiz/ResultsTab.jsx:42-77 | The score text is "score/n". The tier is "Parfait" iff score = n, "Bon travail" iff score ≠ n and 2·score ≥ n, and "Continuez" iff 2·score < n. The time text reads back as the timer, and the review receives the quiz's questions and the selections unchanged. |
| ResultsTabView.BackReturnsToCatalog | src/components/quiz/ResultsTab.jsx:82 | The return button goes back to the catalog and forgets the quiz. |
| ExplorerTab.HandleFilterChange | src/components/quiz/ExplorerTab.jsx:30-35 | The key gets "" for "all" and the value otherwise. Every other key is unchanged. |
| ExplorerTab.SearchTextAllIsCleared | src/components/quiz/FilterPanel.jsx:26 | The search box goes through the same rule, so typing "all" empties it. |
| ExplorerTab.ClearFilters | src/components/quiz/ExplorerTab.jsx:37-44 | All four filters become "". |
| ExplorerTab.MatchesIffPassesEach | src/components/quiz/ExplorerTab.jsx:46-75 | A quiz passes the chain of early rejections iff it passes each filter on its own. Search is a substring test on the lower-cased title or description. Difficulty and category need equality, and the professor filter needs "first last" to equal the filter. |
| ExplorerTab.MatchesAfterSetting | src/components/quiz/ExplorerTab.jsx:46-75 | Setting an unset filter adds exactly that filter's test. |
| ExplorerTab.FilteredQuizzes | src/components/quiz/ExplorerTab.jsx:46-75 | Every listed quiz is in the catalog and matches. Every matching quiz of the catalog is listed. |
| ExplorerTab.FilteredIsSubsequence | src/components/quiz/ExplorerTab.jsx:46 | The filtered list keeps the catalog's order. |
| ExplorerTab.NoFiltersListsAll | src/components/quiz/ExplorerTab.jsx:46-75 | With all filters empty the list is the whole catalog. |
| ExplorerTab.NarrowingFiltersTheList | src/components/quiz/ExplorerTab.jsx:46-75 | Setting an unset filter filters the current list by that filter alone. |
| ExplorerTab.ProfessorNames | src/components/quiz/ExplorerTab.jsx:24-26 | The names come exactly from the quizzes that have a professor. |
| ExplorerTab.UniqueDifficulties | src/components/quiz/ExplorerTab.jsx:20 | The list has no duplicates, every entry is some quiz's difficulty, and every quiz's difficulty is listed. |
| ExplorerTab.UniqueCategories | src/components/quiz/ExplorerTab.jsx:21 | The same holds for categories. |
| ExplorerTab.UniqueProfessors | src/components/quiz/ExplorerTab.jsx:22-28 | The list has no duplicates and holds exactly the full names of the quizzes' professors. Quizzes without a professor are skipped. |
| ExplorerTab.ProfessorChoiceIsNeverEmpty | src/components/quiz/ExplorerTab.jsx:22-28 | Every offered professor selects at least one quiz once the other filters are cleared. |
| ExplorerTab.PanelEventsBehave | src/components/quiz/FilterPanel.jsx:32 | Toggling twice restores the panel. Clearing lists the whole catalog. |
| FilterPanel.BadgeCountsSelects | src/components/quiz/FilterPanel.jsx:37-42 | The badge count is the number of non-empty values among difficulty, category and professor. The badge shows iff that count is positive. |
| FilterPanel.ChoosingAnEntry | src/components/quiz/FilterPanel.jsx:72-76 | A select offers "all" first, then the values. Choosing the first entry clears the filter. Any other entry sets it to its value, unless that value is itself "all". |
| FilterPanel.ButtonsDoTheirJob | src/components/quiz/FilterPanel.jsx:32-56 | "Filtres" flips the panel only. The clear button resets the filters only. |
| QuestionForm.IsEditMode | src/components/pages/question-form.jsx:23 | Edit mode holds iff the question id is neither absent nor "create". |
| QuestionForm.PadOptions | src/components/pages/question-form.jsx:84-86 | The options are padded with "" to at least two, and the given ones are kept. |
| QuestionForm.Load | src/components/pages/question-form.jsx:69-93 | A loaded draft keeps the text and has at least two options. Its points are the question's, or 1 when 0. |
| QuestionForm.LoadObjects | src/components/pages/question-form.jsx:69-86 | Object options become their texts in order, padded with "". The correct index is the first flagged one, or 0 when none is flagged. |
| QuestionForm.LoadStrings | src/components/pages/question-form.jsx:76-80 | String options are copied, and the correct index is the numeric `correctOption`, else 0. |
| QuestionForm.LoadValid | src/components/pages/question-form.jsx:69-93 | One to six object options and non-negative points load into a draft of the editor's shape. |
| QuestionForm.OptionChange | src/components/pages/question-form.jsx:126-133 | Only the option at the index changes. |
| QuestionForm.CorrectOptionChange | src/components/pages/question-form.jsx:135-146 | A value is accepted iff it is in [0, number of options). Otherwise the draft is unchanged. |
| QuestionForm.PointsChange | src/components/pages/question-form.jsx:148-157 | A value is accepted iff its parsed integer prefix is positive. Leading white space is skipped as `parseInt` skips it, Unicode space separators included. Otherwise the draft is unchanged. |
| QuestionForm.PointsChangeReadsNumber | src/components/pages/question-form.jsx:148-157 | Digits of n > 0 followed by a non-digit set the points to n. "0" changes nothing. |
| QuestionForm.PointsChangeRefuses | src/components/pages/question-form.jsx:148-157 | An empty or negative entry changes nothing. |
| QuestionForm.PointsChangeSkipsIdeographicSpace | src/components/pages/question-form.jsx:148-157 | "\u3000" followed by "5" sets the points to 5, as `parseInt` skips the ideographic space. |
| QuestionForm.AddOption | src/components/pages/question-form.jsx:159-166 | "" is appended only when there are fewer than six options. Otherwise the draft is unchanged. |
| QuestionForm.RemoveOptionKeepsRight | src/components/pages/question-form.jsx:168-186 | Removal acts only above two options and drops exactly one. The correct index stays in range. It resets to 0 when its own option is removed, decrements for an earlier one and stays for a later one, so the same text stays marked. |
| QuestionForm.InitialValid | src/components/pages/question-form.jsx:28-33 | The initial draft has the editor's shape. |
| QuestionForm.ApplyValid | src/components/pages/question-form.jsx:119-186 | Every edit the form offers keeps 2..6 options, the correct index in range and positive points. |
| QuestionForm.ApplyAllValid | src/components/pages/question-form.jsx:119-186 | The same holds for every sequence of edits. |
| QuestionForm.Serialise | src/components/pages/question-form.jsx:200-213 | The order, texts and points are kept. `correct` is true exactly at the correct index. |
| QuestionForm.SerialiseFlagsOne | src/components/pages/question-form.jsx:200-213 | Exactly one option is flagged when the index is in range, and none otherwise. |
| QuestionForm.ReloadAfterSave | src/components/pages/question-form.jsx:200-213 | Loading a saved valid draft back gives the same draft. |
| QuestionForm.NotFoundMessageLost | src/components/pages/question-form.jsx:101-107 | As written, a received quiz never leaves an error. An edit route naming no question shows a blank draft with no message. |
| QuestionForm.FetchReports | src/components/pages/question-form.jsx:40-110 | Corrected: nothing happens before the user is loaded. A failure reports the load error. "Not found" is reported iff an edit route names no question, and otherwise the first question with the route's id is loaded. |
| QuestionForm.Submit | src/components/pages/question-form.jsx:191-261 | Without a user only the sign-in message appears. Otherwise the serialised draft is sent, by PUT iff editing. Navigation to the quiz happens iff the save succeeds, and a failure shows the save error. |
| QuestionForm.SavedQuestionReloads | src/components/pages/question-form.jsx:200-258 | What a successful save sends loads back as the same draft. |
| CreateQuizForm.NewQuestion | src/components/create-quiz-form.jsx:104-114 | A new question has the given id, empty text, four empty options numbered 1..4 and correct option 1. |
| CreateQuizForm.InitialWellFormed | src/components/create-quiz-form.jsx:40-61 | The initial draft is well formed: questions numbered 1..n, each with its correct id among its options. |
| CreateQuizForm.QuizDataChange | src/components/create-quiz-form.jsx:64-69 | A quiz field change leaves the questions unchanged. |
| CreateQuizForm.QuestionChangeIsLocal | src/components/create-quiz-form.jsx:71-81 | Only the named field of the named question changes. Other questions and the quiz fields are unchanged. |
| CreateQuizForm.OptionChange | src/components/create-quiz-form.jsx:83-90 | Only the named option's text changes. Its id, the other options, the other questions and the quiz fields are kept. |
| CreateQuizForm.CorrectOptionChange | src/components/create-quiz-form.jsx:92-99 | Only the named question's correct id changes. Everything else is kept. |
| CreateQuizForm.AddQuestion | src/components/create-quiz-form.jsx:101-117 | A new question numbered length+1 is appended, and nothing else changes. |
| CreateQuizForm.Renumber | src/components/create-quiz-form.jsx:122-125 | Question i gets id i+1, and nothing else about it changes. |
| CreateQuizForm.RemoveQuestionDropsOne | src/components/create-quiz-form.jsx:119-131 | Removal acts only above one question. It drops exactly the indexed question and renumbers the rest in order. |
| CreateQuizForm.NumberingKept | src/components/create-quiz-form.jsx:101-131 | Ids 1..n before add or remove are 1..n afterwards. |
| CreateQuizForm.ApplyWellFormed | src/components/create-quiz-form.jsx:64-131 | Every change the form offers keeps the draft well formed. |
| CreateQuizForm.OptionProblem | src/components/create-quiz-form.jsx:155-160 | An option problem is reported iff some option text is blank after trimming. |
| CreateQuizForm.QuestionAlert | src/components/create-quiz-form.jsx:150-159 | One question raises no alert iff neither its text nor any option text is blank after trimming; a blank question text gives the "question text required" alert before any option is looked at. |
| CreateQuizForm.QuestionProblem | src/components/create-quiz-form.jsx:149-161 | A question problem is reported iff some question or option text is blank after trimming. |
| CreateQuizForm.Validate | src/components/create-quiz-form.jsx:133-147 | A blank title, a missing category or a missing difficulty are reported in that order, each with its message. Blank means empty after `trim`, which drops every JavaScript white-space character, Unicode space separators included. |
| CreateQuizForm.ValidateIff | src/components/create-quiz-form.jsx:133-164 | Validation passes iff the title is not blank, a category and a difficulty are set, and no question or option text is blank. |
| CreateQuizForm.IdeographicSpaceTitleIsBlank | src/components/create-quiz-form.jsx:134-136 | A title made of one ideographic space is rejected as blank. |
| CreateQuizForm.InitialDraftFails | src/components/create-quiz-form.jsx:134-136 | The initial draft fails on its empty title. |
| CreateQuizForm.QuestionRequestOf | src/components/create-quiz-form.jsx:185-187 | The option texts are sent trimmed, in order. |
| CreateQuizForm.RequestOf | src/components/create-quiz-form.jsx:177-190 | The title and description are trimmed, and each question is sent in order with its trimmed text and all its option texts trimmed, in order. The other fields are copied, and correct option k becomes index k−1. |
| CreateQuizForm.RequestPointsAtChosenOption | src/components/create-quiz-form.jsx:188 | In a well-formed draft, the 0-based index is in range and points at the option whose id was chosen. |
| CreateQuizForm.ValidRequestHasNoEmptyText | src/components/create-quiz-form.jsx:177-190 | A request from a draft that passes validation has no empty title, question or option text. |
| CreateQuizForm.Submit | src/components/create-quiz-form.jsx:166-236 | A failing draft sends nothing and shows its message. A passing one sends its request. On success the draft resets to the initial one and the id is announced; on failure the draft is kept with the error alert. |
| CreateQuizForm.SubmitKeepsShape | src/components/create-quiz-form.jsx:211-231 | The draft after a submit is well formed. A request is sent iff validation passes. |
| QuizDetail.OrZero | src/components/pages/quiz-detail.jsx:65 | `k \|\| 0` on a `findIndex` result is k itself, so the fallback never fires on −1. |
| QuizDetail.CorrectIndexIsFirstFlag | src/components/pages/quiz-detail.jsx:65 | The correct index is the first flagged option. It is −1 iff none is flagged. The `|| 0` fallback fires only without options; index 0 also arises when the first option is flagged. |
| QuizDetail.Prepare | src/components/pages/quiz-detail.jsx:63-75 | A question is prepared iff it has options. The prepared question and its copy of the options are the fetched ones. |
| QuizDetail.PrepareAll | src/components/pages/quiz-detail.jsx:60-76 | Preparation succeeds iff every question has options. The result matches the questions one to one, in order. |
| QuizDetail.Process | src/components/pages/quiz-detail.jsx:60-80 | A quiz without questions gets the empty list. |
| QuizDetail.ProcessKeepsQuestions | src/components/pages/quiz-detail.jsx:60-80 | When every question has options, they map one to one, in order, each with a copy of its options. |
| QuizDetail.Fetch | src/components/pages/quiz-detail.jsx:40-93 | The fetch runs only when ready and not yet fetched. It sets the fetched flag and clears loading, and the flag is never cleared. |
| QuizDetail.FetchesAtMostOnce | src/components/pages/quiz-detail.jsx:97-101 | Over any run of effect firings at most one fetch happens, and none once fetched. |
| QuizDetail.ConfirmDelete | src/components/pages/quiz-detail.jsx:115-118 | The dialog opens for the chosen question. |
| QuizDetail.DeleteQuestion | src/components/pages/quiz-detail.jsx:120-125 | Without a chosen question or a user, nothing happens. |
| QuizDetail.DeleteRemovesThatQuestion | src/components/pages/quiz-detail.jsx:134-137 | A successful delete keeps, in order, exactly the questions with another id and closes the dialog. A failed one keeps the quiz and shows the error. |
| QuizDetail.SubjectColor | src/components/pages/quiz-detail.jsx:160-172 | The colour is gray iff the subject is not one of the seven mapped ones. |
| QuizDetail.SubjectColorsDistinct | src/components/pages/quiz-detail.jsx:160-172 | The seven subjects have seven different gradients. |
| QuizDetail.PointsLabelDefault | src/components/pages/quiz-detail.jsx:299 | Missing points read "1 point". |
| QuizDetail.PointsLabelReads | src/components/pages/quiz-detail.jsx:299 | For positive points, the label reads back as the number and is plural iff the points exceed 1. |
| QuizList.FinishFetch | src/components/pages/quiz-list.jsx:114-133 | Whatever the answer, loading and the in-progress flag are cleared. |
| QuizList.BeginFetchGuards | src/components/pages/quiz-list.jsx:88-96 | A request goes out iff none is in progress and there is a user. While one is in progress nothing changes. |
| QuizList.FinishFetchRecords | src/components/pages/quiz-list.jsx:114-129 | The last-fetch time moves only on success, to the time of the answer. On success the list becomes exactly the answer; a failure keeps the list and sets the error. |
| QuizList.FocusThrottled | src/components/pages/quiz-list.jsx:53-63 | A focus refetches iff there is a user, the page is mounted, more than 30000 ms have passed since the last success, and no fetch is running. |
| QuizList.ConfirmDelete | src/components/pages/quiz-list.jsx:144-147 | The dialog opens for the chosen quiz. |
| QuizList.DeleteQuiz | src/components/pages/quiz-list.jsx:150-160 | Without a chosen quiz or a user, nothing happens. |
| QuizList.DeleteRemovesThatQuiz | src/components/pages/quiz-list.jsx:150-197 | A success keeps, in order, exactly the quizzes with another id. A failure keeps the list and shows the prefixed reason. |
| QuizList.DeleteShortensByOne | src/components/pages/quiz-list.jsx:176 | With distinct ids, deleting a listed quiz shortens the list by exactly one. |
| QuizList.QuizColor | src/components/pages/quiz-list.jsx:204-222 | The colour is never empty, and the quiz's own colour wins when present. |
| QuizList.QuizColorFallsBackToSubject | src/components/pages/quiz-list.jsx:204-222 | Without its own colour a quiz gets the detail page's colour of its category, or of its subject when the category is empty. |
| QuizList.EmptyStateShows | src/components/pages/quiz-list.jsx:278-294 | The spinner and the empty state never show together. An empty successful answer shows the empty state; a failure or a non-empty list does not. |
| Users.RoleOr | src/components/navbar.jsx:31-37 | A missing or empty stored role gives the fallback. Any other role is kept. |
| Users.Initials | src/components/navbar.jsx:65-68 | The initials are one or two characters. |
| Users.InitialsSpec | src/app/profile/page.js:16-19 | "U" without a user or without both names. Otherwise one upper-cased first letter per name present, the first name's first. The navbar computes the same thing. |
| Navbar.RoleEffect | src/components/navbar.jsx:31-37 | With a user the role is the stored one or "user". Without one it is unchanged. |
| Navbar.IsActiveCases | src/components/navbar.jsx:71-78 | Home is active iff the path is exactly home. Any other link is active iff the path starts with it. |
| Navbar.QuizLinkActiveOnQuizzes | src/components/navbar.jsx:77 | "/quiz" is active on every "/quizzes" page too. |
| Navbar.LinksByRole | src/components/navbar.jsx:155-161 | A student sees home, /quiz and /stats. Anyone else sees home, /quizzes and /create-quiz. No role links show before the role is known. |
| Navbar.LinksAfterSignIn | src/components/navbar.jsx:155-161 | After the role effect with a user the role links show, the student ones iff the stored role is "student". |
| Navbar.NewQuizBeforeRole | src/components/navbar.jsx:203 | While the role is unknown, "Nouveau Quiz" is already offered though no /create-quiz link shows. |
| ProfilePage.Capitalise | src/app/profile/page.js:24 | Only the first character is raised. The length and the rest are kept. |
| ProfilePage.RoleLabel | src/app/profile/page.js:22-25 | The label is never empty. |
| ProfilePage.RoleLabelCases | src/app/profile/page.js:22-25 | The label is "User" without a role, and "Student" and "Professeur" for the two roles. Capitalising it again changes nothing. |
| ProfilePage.DisplayName | src/app/profile/page.js:51 | The full name, or "Utilisateur" when it is missing or empty. |
| ProfilePage.Email | src/app/profile/page.js:90 | The first address, or "email@example.com" when it is missing or empty. |
| LandingPage.Redirect | src/app/page.js:32-46 | A redirect happens iff signed in. |
| LandingPage.RedirectByRole | src/app/page.js:35-43 | "student" and "professeur" go to /accueil. Any other or missing role goes to "/". |
| DashboardPage.DecidesAtMostOnce | src/app/dashboard/page.js:13-38 | Over any run of firings at most one redirect decision is made, and none once redirecting. |
| DashboardPage.DecisionByRole | src/app/dashboard/page.js:20-36 | The decision marks the page redirecting. It goes to /accueil iff the role is "student" or "professeur", and causes no navigation otherwise. |
| CreateQuizPage.FormOnlyForProfessors | src/app/create-quiz/page.js:15-48 | A spinner shows while loading, and a signed-out visitor goes to /sign-in. After the effect the form renders iff signed in as "professeur", and anyone else signed in goes to /unauthorized. |
| AccueilPage.EffectShowsContent | src/app/accueil/page.js:18-41 | A signed-out visitor goes to "/" and the spinner shows while loading. With a user the content shows, as a student iff the stored role is "student", missing or empty. |
| AccueilPage.ButtonsByRole | src/app/accueil/page.js:123-168 | The primary button goes to /quiz for students and /create-quiz otherwise. The secondary goes to /stats or /quizzes. |
| AccueilPage.RoleDefaultsDisagree | src/app/accueil/page.js:27 | A user without a role is a student here, but not in the navbar, which offers /create-quiz. |
| SignInGate.Redirect | src/app/quiz/page.js:13-17 | The redirect to /sign-in happens iff loaded and signed out. |
| SignInGate.GateCases | src/app/quiz/page.js:19-46 | A spinner shows iff not loaded. The content renders iff signed in. Otherwise the fallback shows, while the redirect goes where its button leads. The statistics route (src/app/stats/page.js:15-56) uses the same gate and hands the signed-in user to the statistics. |
| RoleOnboarding.Effect | src/app/onboarding/role/page.js:14-18 | A stored non-empty role replaces the selection. Otherwise the form is unchanged. |
| RoleOnboarding.UpdatedMetadata | src/app/onboarding/role/page.js:27-32 | The metadata sent has `role` set to the choice. |
| RoleOnboarding.UpdateKeepsOtherKeys | src/app/onboarding/role/page.js:27-32 | Every other metadata entry is kept unchanged and none is added. |
| RoleOnboarding.BeginSubmit | src/app/onboarding/role/page.js:20-23 | Submitting disables the button and clears the error. The choice is kept. |
| RoleOnboarding.SubmitOutcome | src/app/onboarding/role/page.js:20-40 | The button is disabled while saving and enabled after. Navigation to /quiz happens iff there is a user and the update succeeds; otherwise the error message is set. |

## Left out

- Network, identity provider and router. `fetch`, `useUser`, `user.update` and `router.push` are not modelled as effects. Answers and the sign-in state are parameters, and targets are returned values. `Users.Auth` assumes that, once loaded, a user is present exactly when signed in.
- Timers. The one-second interval is the `Second` event. The 500 ms delay of the dashboard is folded into one firing of its effect, and the 5 s confetti timeout is the `ConfettiOver` event. `Date.now()` is the parameter `now`.
- React scheduling. The catalog-tab effect of the wizard (`QuizApp.Settle`) is applied after every event, as one render per event.
- Floating point. The progress bar is kept as a fraction, and the 0.7 confetti ratio is written as 10·score ≥ 7·n.
- `toLowerCase` is a parameter of the catalog filter, and `toUpperCase` maps ASCII letters only.
- Users.Initials: the bound of one or two characters depends on `toUpperCase` mapping ASCII letters only. In JavaScript a letter such as 'ß' upper-cases to "SS", so the real initials can reach four characters.
- `Number(...)` and `parseInt` on fractions or exponents are not modelled. Points parse as an integer prefix, and the radio value arrives as an optional integer.
- Timers and time limits are natural numbers. A negative or fractional `timeLimit` is not modelled.
- Markup, styling, icons, animation and confetti rendering are not modelled, except the colour-base rule and the booleans an item renders.
- Not modelled because they hold no computation to prove anything about:
  - `stats-display.jsx` shows fixed sample numbers;
  - `quiz-form.jsx` is a one-record load and save form;
  - `ai-quiz-generator.jsx` wraps an external endpoint;
  - `use-toast.js` uses random ids and logging;
  - layout, middleware, sign-out, unauthorized, alert, the empty state and the route wrappers are wiring.
- `QuizTab.jsx` renders `OptionsList` without importing it and with props it does not take. Only the tab's gating is modelled, not that composition.
- `QuestionForm.OptionChange` requires an index in range, since the form renders one input per existing option.
- `QuizDetail.Prepare` covers options that are arrays of objects. String options on the detail page are not modelled.
- `QuizList.Focus`: the focus handler captures `isMounted` when the listener is installed. The model takes `mounted` as a parameter and does not model the stale capture.
- The subject-colour maps are written as finite matches. Keys inherited from `Object.prototype`, such as "toString", are not modelled.
- Stored metadata values are taken to be strings.
- The saving and loading flags of the editors are not modelled (`saving`, `isSubmitting` of the quiz creator, the detail page's `loading` during delete), apart from where a lemma states them.
- The quiz creator's handlers copy the question list shallowly and then update it. The model treats each update as a fresh value.
- QuizApp.StepValid: a quiz with no questions is not modelled as the wizard renders it. The page reads `selectedQuiz.questions[0].text` (src/components/quiz-app.jsx:409) and fails to render. The model instead enters an inert quiz tab with the clock running, where Next, Select, Abandon and the tab switches change nothing. The built-in sample quizzes all have questions.
- QuizDetail.FetchesAtMostOnce: each firing of the fetch effect is modelled as finishing in one step. The page sets `hasFetched` in `finally`, after the request is awaited (src/components/pages/quiz-detail.jsx:90-92). If `user` or another dependency changes while the request is outstanding, a second fetch starts, and the bound does not cover that window.
- DashboardPage.DecidesAtMostOnce: the 500 ms `setTimeout` is folded into the firing that schedules it. The page sets `isRedirecting` only inside the timeout, which has no cleanup (src/app/dashboard/page.js:20-25). If a dependency changes during the delay, a second decision and a second `router.push` are scheduled, and the bound does not cover that window.

## Findings

| source | as written | input that shows it | evidently intended | confidence | as-written member | corrected member |
|---|---|---|---|---|---|---|
| src/components/pages/question-form.jsx:101-107 | When the edited question is not among the quiz's questions, the effect sets "Question non trouvée dans le quiz.". The `setError(null)` that follows at line 107 then clears it. | Edit route with question id "7", quiz answered with an empty question list | the not-found message stays on the page | not executed | QuestionForm.NotFoundMessageLost | QuestionForm.FetchReports |

=== FILE: catalog.dfy ===
/** The catalog with its filters (src/components/quiz/ExplorerTab.jsx): a
    free-text search and three selects (difficulty, category, professor),
    and the quizzes that pass all four.

    `toLowerCase` is locale- and Unicode-dependent; the model takes it as
    the parameter `lower`. */
module ExplorerTab {
  import opened Wrappers
  import opened Seqs
  import opened Text
  import opened QuizModel

  /** The filter record; "" means "not filtering on this". */
  datatype Filters = Filters(search: string, difficulty: string, category: string, professor: string)

  datatype FilterKey = SearchKey | DifficultyKey | CategoryKey | ProfessorKey

  const NoFilters: Filters := Filters("", "", "", "")

  function Get(f: Filters, k: FilterKey): string {
    match k
    case SearchKey => f.search
    case DifficultyKey => f.difficulty
    case CategoryKey => f.category
    case ProfessorKey => f.professor
  }

  /** The "all" entry of a select stands for "no filter". */
  const All: string := "all"

  /** `handleFilterChange(key, value)`: stores "" for "all", the value
      otherwise, and leaves the other keys alone. */
  function HandleFilterChange(f: Filters, k: FilterKey, value: string): (r: Filters)
    ensures Get(r, k) == (if value == All then "" else value)
    ensures forall k' :: k' != k ==> Get(r, k') == Get(f, k')
  {
    var v := if value == All then "" else value;
    match k
    case SearchKey => f.(search := v)
    case DifficultyKey => f.(difficulty := v)
    case CategoryKey => f.(category := v)
    case ProfessorKey => f.(professor := v)
  }

  /** The search box shares the rule, so typing exactly "all" empties it. */
  lemma SearchTextAllIsCleared(f: Filters)
    ensures HandleFilterChange(f, SearchKey, "all").search == ""
  {
  }

  /** `clearFilters`. */
  function ClearFilters(f: Filters): (r: Filters)
    ensures forall k :: Get(r, k) == ""
  {
    NoFilters
  }

  /** The test of `filteredQuizzes`, written as the source's sequence of
      early rejections. */
  predicate Matches(q: Quiz, f: Filters, lower: string -> string) {
    if f.search != "" && !Contains(lower(q.title), lower(f.search))
                      && !Contains(lower(q.description), lower(f.search)) then false
    else if f.difficulty != "" && q.difficulty != f.difficulty then false
    else if f.category != "" && q.category != f.category then false
    else if f.professor != "" && (q.professor.None? || FullName(q.professor.value) != f.professor) then false
    else true
  }

  /** What one filter key on its own demands of a quiz. */
  predicate Passes(q: Quiz, k: FilterKey, value: string, lower: string -> string) {
    value == "" ||
    match k
    case SearchKey => Contains(lower(q.title), lower(value)) || Contains(lower(q.description), lower(value))
    case DifficultyKey => q.difficulty == value
    case CategoryKey => q.category == value
    case ProfessorKey => q.professor.Some? && FullName(q.professor.value) == value
  }

  /** A quiz is listed exactly when it passes each of the four filters. */
  lemma MatchesIffPassesEach(q: Quiz, f: Filters, lower: string -> string)
    ensures Matches(q, f, lower) <==> forall k :: Passes(q, k, Get(f, k), lower)
  {
    if Matches(q, f, lower) {
      forall k ensures Passes(q, k, Get(f, k), lower) {
        match k
        case SearchKey =>
        case DifficultyKey =>
        case CategoryKey =>
        case ProfessorKey =>
      }
    } else if !Passes(q, SearchKey, f.search, lower) {
      assert !Passes(q, SearchKey, Get(f, SearchKey), lower);
    } else if !Passes(q, DifficultyKey, f.difficulty, lower) {
      assert !Passes(q, DifficultyKey, Get(f, DifficultyKey), lower);
    } else if !Passes(q, CategoryKey, f.category, lower) {
      assert !Passes(q, CategoryKey, Get(f, CategoryKey), lower);
    } else {
      assert !Passes(q, ProfessorKey, Get(f, ProfessorKey), lower);
    }
  }

  /** Setting an unset filter adds exactly that filter's test. */
  lemma MatchesAfterSetting(q: Quiz, f: Filters, k: FilterKey, value: string, lower: string -> string)
    requires Get(f, k) == ""
    ensures var v := if value == All then "" else value;
      Matches(q, HandleFilterChange(f, k, value), lower) == (Matches(q, f, lower) && Passes(q, k, v, lower))
  {
    var g := HandleFilterChange(f, k, value);
    MatchesIffPassesEach(q, g, lower);
    MatchesIffPassesEach(q, f, lower);
    assert Passes(q, k, Get(f, k), lower);
  }

  /** `filteredQuizzes`. */
  function FilteredQuizzes(qs: seq<Quiz>, f: Filters, lower: string -> string): (r: seq<Quiz>)
    ensures forall i :: 0 <= i < |r| ==> r[i] in qs && Matches(r[i], f, lower)
    ensures forall i :: 0 <= i < |qs| && Matches(qs[i], f, lower) ==> qs[i] in r
  {
    Filter(qs, q => Matches(q, f, lower))
  }

  /** The list keeps the catalog's order. */
  lemma FilteredIsSubsequence(qs: seq<Quiz>, f: Filters, lower: string -> string)
    ensures IsSubsequence(FilteredQuizzes(qs, f, lower), qs)
  {
    FilterIsSubsequence(qs, q => Matches(q, f, lower));
  }

  /** With no filter set the whole catalog is listed. */
  lemma NoFiltersListsAll(qs: seq<Quiz>, lower: string -> string)
    ensures FilteredQuizzes(qs, NoFilters, lower) == qs
  {
    FilterKeepsAll(qs, q => Matches(q, NoFilters, lower));
  }

  /** Setting a filter that was unset narrows the current list by that
      filter alone. */
  lemma NarrowingFiltersTheList(qs: seq<Quiz>, f: Filters, k: FilterKey, value: string, lower: string -> string)
    requires Get(f, k) == ""
    ensures var v := if value == All then "" else value;
      FilteredQuizzes(qs, HandleFilterChange(f, k, value), lower)
      == Filter(FilteredQuizzes(qs, f, lower), (q: Quiz) => Passes(q, k, v, lower))
  {
    var g := HandleFilterChange(f, k, value);
    var v := if value == All then "" else value;
    var p := (q: Quiz) => Matches(q, f, lower);
    var t := (q: Quiz) => Passes(q, k, v, lower);
    forall i | 0 <= i < |qs|
      ensures Matches(qs[i], g, lower) == (p(qs[i]) && t(qs[i]))
    {
      MatchesAfterSetting(qs[i], f, k, value, lower);
    }
    FilterFilter(qs, p, t, (q: Quiz) => Matches(q, g, lower));
  }

  /** The professor name of a quiz that has one. */
  function NameOf(q: Quiz): string {
    if q.professor.Some? then FullName(q.professor.value) else ""
  }

  /** The professor names of the quizzes that have one, in catalog order
      (`.map(...).filter(Boolean)`: a name is never the empty string, so
      only the quizzes without a professor drop out). */
  function ProfessorNames(qs: seq<Quiz>): (r: seq<string>)
    ensures forall i :: 0 <= i < |r| ==> exists j :: 0 <= j < |qs| && qs[j].professor.Some? && FullName(qs[j].professor.value) == r[i]
    ensures forall j :: 0 <= j < |qs| && qs[j].professor.Some? ==> FullName(qs[j].professor.value) in r
  {
    var withProfessor := Filter(qs, (q: Quiz) => q.professor.Some?);
    var r := Map(withProfessor, NameOf);
    assert forall i :: 0 <= i < |r| ==> withProfessor[i] in qs && withProfessor[i].professor.Some?;
    assert forall j :: 0 <= j < |qs| && qs[j].professor.Some? ==> exists i :: 0 <= i < |withProfessor| && withProfessor[i] == qs[j];
    r
  }

  /** `uniqueDifficulties`: each level once, every one taken from a quiz. */
  function UniqueDifficulties(qs: seq<Quiz>): (r: seq<string>)
    ensures NoDuplicates(r)
    ensures forall i :: 0 <= i < |r| ==> exists j :: 0 <= j < |qs| && qs[j].difficulty == r[i]
    ensures forall j :: 0 <= j < |qs| ==> qs[j].difficulty in r
  {
    var ds := Map(qs, (q: Quiz) => q.difficulty);
    var r := Dedup(ds);
    assert forall i :: 0 <= i < |r| ==> exists j :: 0 <= j < |ds| && ds[j] == r[i];
    r
  }

  /** `uniqueCategories`. */
  function UniqueCategories(qs: seq<Quiz>): (r: seq<string>)
    ensures NoDuplicates(r)
    ensures forall i :: 0 <= i < |r| ==> exists j :: 0 <= j < |qs| && qs[j].category == r[i]
    ensures forall j :: 0 <= j < |qs| ==> qs[j].category in r
  {
    var cs := Map(qs, (q: Quiz) => q.category);
    var r := Dedup(cs);
    assert forall i :: 0 <= i < |r| ==> exists j :: 0 <= j < |cs| && cs[j] == r[i];
    r
  }

  /** `uniqueProfessors`: each name once, only from quizzes that have a
      professor. */
  function UniqueProfessors(qs: seq<Quiz>): (r: seq<string>)
    ensures NoDuplicates(r)
    ensures forall i :: 0 <= i < |r| ==> exists j :: 0 <= j < |qs| && qs[j].professor.Some? && FullName(qs[j].professor.value) == r[i]
    ensures forall j :: 0 <= j < |qs| && qs[j].professor.Some? ==> FullName(qs[j].professor.value) in r
  {
    var ns := ProfessorNames(qs);
    var r := Dedup(ns);
    assert forall i :: 0 <= i < |r| ==> r[i] in ns;
    r
  }

  /** Every professor a select can offer picks out at least one quiz once
      the other filters are cleared. */
  lemma ProfessorChoiceIsNeverEmpty(qs: seq<Quiz>, i: nat, lower: string -> string)
    requires i < |UniqueProfessors(qs)|
    ensures |FilteredQuizzes(qs, HandleFilterChange(NoFilters, ProfessorKey, UniqueProfessors(qs)[i]), lower)| > 0
  {
    var name := UniqueProfessors(qs)[i];
    var j :| 0 <= j < |qs| && qs[j].professor.Some? && FullName(qs[j].professor.value) == name;
    assert FullName(qs[j].professor.value) != All by {
      assert |FullName(qs[j].professor.value)| >= 1;
      assert ' ' in FullName(qs[j].professor.value);
    }
    var g := HandleFilterChange(NoFilters, ProfessorKey, name);
    assert Matches(qs[j], g, lower);
  }

  /** The explorer's own state: the filters and whether the panel is open. */
  datatype Explorer = Explorer(filters: Filters, showFilters: bool)

  const InitialExplorer: Explorer := Explorer(NoFilters, false)

  datatype PanelEvent =
    | Typed(text: string)               // the search input
    | Chose(key: FilterKey, value: string) // one of the three selects
    | ToggledPanel                      // "Filtres"
    | Cleared                           // "Effacer les filtres" or the empty state

  function Handle(e: Explorer, ev: PanelEvent): Explorer {
    match ev
    case Typed(t) => e.(filters := HandleFilterChange(e.filters, SearchKey, t))
    case Chose(k, v) => e.(filters := HandleFilterChange(e.filters, k, v))
    case ToggledPanel => e.(showFilters := !e.showFilters)
    case Cleared => e.(filters := ClearFilters(e.filters))
  }

  /** Toggling twice leaves the panel as it was; clearing lists the whole
      catalog again whatever was set. */
  lemma PanelEventsBehave(e: Explorer, qs: seq<Quiz>, lower: string -> string)
    ensures Handle(Handle(e, ToggledPanel), ToggledPanel) == e
    ensures FilteredQuizzes(qs, Handle(e, Cleared).filters, lower) == qs
  {
    NoFiltersListsAll(qs, lower);
  }
}

/** The filter controls (src/components/quiz/FilterPanel.jsx): the badge on
    the "Filtres" button and the entries of the three selects. */
module FilterPanel {
  import opened Seqs
  import opened ExplorerTab

  /** The badge shows while one of the three selects is set. */
  predicate BadgeShown(f: Filters) {
    f.difficulty != "" || f.category != "" || f.professor != ""
  }

  /** `Object.values(filters).filter(Boolean).length - (filters.search ? 1 : 0)`. */
  function BadgeCount(f: Filters): int {
    Count([f.search, f.difficulty, f.category, f.professor], (v: string) => v != "")
      - (if f.search != "" then 1 else 0)
  }

  function Set(v: string): nat {
    if v != "" then 1 else 0
  }

  /** The badge counts the selects that are set, so it shows exactly when its
      count is positive. */
  lemma BadgeCountsSelects(f: Filters)
    ensures BadgeCount(f) == Set(f.difficulty) + Set(f.category) + Set(f.professor)
    ensures BadgeShown(f) <==> BadgeCount(f) > 0
  {
    var vs := [f.search, f.difficulty, f.category, f.professor];
    var p := (v: string) => v != "";
    CountSplit(vs, p);
    CountSplit(vs[1..], p);
    CountSplit(vs[2..], p);
    CountSplit(vs[3..], p);
    assert vs[1..][1..] == vs[2..];
    assert vs[2..][1..] == vs[3..];
    assert vs[3..][1..] == [];
  }

  /** The entries of a select: "all" first, then the distinct values. */
  function SelectOptions(values: seq<string>): (r: seq<string>)
    ensures |r| == |values| + 1 && r[0] == All && r[1..] == values
  {
    [All] + values
  }

  /** Choosing the first entry clears that filter; choosing any other sets
      it to the value shown, unless that value is itself "all". */
  lemma ChoosingAnEntry(f: Filters, k: FilterKey, values: seq<string>, i: nat)
    requires i < |SelectOptions(values)|
    ensures var v := SelectOptions(values)[i];
      Get(HandleFilterChange(f, k, v), k) == if i == 0 || v == All then "" else v
  {
  }

  /** The "Filtres" button flips the panel, the clear button clears. */
  function ToggleEvent(): PanelEvent { ToggledPanel }
  function ClearEvent(): PanelEvent { Cleared }

  lemma ButtonsDoTheirJob(e: Explorer)
    ensures Handle(e, ToggleEvent()).showFilters == !e.showFilters
    ensures Handle(e, ToggleEvent()).filters == e.filters
    ensures Handle(e, ClearEvent()).filters == NoFilters
    ensures Handle(e, ClearEvent()).showFilters == e.showFilters
  {
  }
}

=== FILE: clock.dfy ===
/** The elapsed-time display of the quiz wizard, `formatTime`
    (src/components/quiz-app.jsx:244-248): whole minutes, a colon, and the
    remaining seconds on two digits. */
module Clock {
  import opened Wrappers
  import opened Text

  /** The seconds field: `secs < 10 ? "0" : ""` followed by `secs`. */
  function TwoDigits(secs: nat): (s: string)
    requires secs < 60
    ensures |s| == 2 && AllDigits(s)
    ensures ValueOf(s) == secs
  {
    var d := Digits(secs);
    ValueOfDigits(secs);
    if secs < 10 then
      assert ValueOf("0" + d) == ValueOf(d) by {
        assert ("0" + d)[..1] == "0";
      }
      "0" + d
    else d
  }

  /** `formatTime(seconds)`. */
  function FormatTime(seconds: nat): (s: string)
    ensures ':' in s
  {
    assert (Digits(seconds / 60) + ":" + TwoDigits(seconds % 60))[|Digits(seconds / 60)|] == ':';
    Digits(seconds / 60) + ":" + TwoDigits(seconds % 60)
  }

  /** Reads an `m:ss` text back: a run of minute digits, a colon, exactly two
      second digits below 60. */
  function ParseClock(s: string): (r: Option<nat>)
  {
    var parts := Split(s, ':');
    if |parts| != 2 then None
    else
      var m := ParseNat(parts[0]);
      var sec := ParseNat(parts[1]);
      if m.None? || sec.None? || |parts[1]| != 2 || sec.value >= 60 then None
      else Some(60 * m.value + sec.value)
  }

  /** The display reads back as the number of seconds it shows, so two
      different durations never look alike. */
  lemma ParseFormatTime(seconds: nat)
    ensures ParseClock(FormatTime(seconds)) == Some(seconds)
  {
    var m, sec := Digits(seconds / 60), TwoDigits(seconds % 60);
    DigitsExclude(m, ':');
    DigitsExclude(sec, ':');
    SplitAtSep(m, sec, ':');
    SplitWithoutSep(sec, ':');
    assert m + ":" + sec == m + [':'] + sec;
    ValueOfDigits(seconds / 60);
  }

  lemma FormatTimeInjective(a: nat, b: nat)
    requires FormatTime(a) == FormatTime(b)
    ensures a == b
  {
    ParseFormatTime(a);
    ParseFormatTime(b);
  }
}

=== FILE: create_quiz_form.dfy ===
/** The quiz-creation form (src/components/create-quiz-form.jsx): a draft
    quiz with numbered questions of four numbered options, the handlers that
    edit it, the validator, and the request a submit sends. */
module CreateQuizForm {
  import opened Wrappers
  import opened Text
  import opened Seqs

  datatype DraftOption = DraftOption(id: int, text: string)

  /** A question of the draft; `correctOptionId` is the id of the right
      option, counted from one. */
  datatype DraftQuestion = DraftQuestion(id: int, text: string, options: seq<DraftOption>, correctOptionId: int)

  /** `quizData`. `scorePerQuestion` is `None` once `parseInt` has read NaN. */
  datatype QuizDraft = QuizDraft(title: string, description: string, category: string, difficulty: string,
                                 icon: string, color: string, scorePerQuestion: Option<int>,
                                 questions: seq<DraftQuestion>)

  const OptionsPerQuestion: nat := 4

  /** A fresh question numbered `id`: four empty options numbered 1..4, the
      first one right. */
  function NewQuestion(id: int): (q: DraftQuestion)
    ensures q.id == id && q.text == "" && q.correctOptionId == 1
    ensures |q.options| == OptionsPerQuestion
    ensures forall k :: 0 <= k < |q.options| ==> q.options[k] == DraftOption(k + 1, "")
  {
    DraftQuestion(id, "", [DraftOption(1, ""), DraftOption(2, ""), DraftOption(3, ""), DraftOption(4, "")], 1)
  }

  /** The form as first shown and as reset after a successful submit. */
  function InitialDraft(): QuizDraft {
    QuizDraft("", "", "", "", "Brain", "from-emerald-500 to-teal-600", Some(1), [NewQuestion(1)])
  }

  /** Questions numbered 1..n in order. */
  predicate NumberedInOrder(qs: seq<DraftQuestion>) {
    forall i :: 0 <= i < |qs| ==> qs[i].id == i + 1
  }

  /** A question keeps options numbered 1..k in order, and its right option
      is one of them. */
  predicate WellFormedQuestion(q: DraftQuestion) {
    && (forall k :: 0 <= k < |q.options| ==> q.options[k].id == k + 1)
    && 1 <= q.correctOptionId <= |q.options|
  }

  /** The shape every reachable draft has. */
  predicate WellFormed(d: QuizDraft) {
    && |d.questions| >= 1
    && NumberedInOrder(d.questions)
    && forall i :: 0 <= i < |d.questions| ==> WellFormedQuestion(d.questions[i])
  }

  // ---------------------------------------------------------------------
  // Editing

  /** The fields `handleQuizDataChange` sets. */
  datatype QuizField =
    | Title(title: string)
    | Description(description: string)
    | Category(category: string)
    | Difficulty(difficulty: string)
    | Icon(icon: string)
    | Color(color: string)
    | ScorePerQuestion(score: Option<int>)

  function QuizDataChange(d: QuizDraft, f: QuizField): (r: QuizDraft)
    ensures r.questions == d.questions
  {
    match f
    case Title(v) => d.(title := v)
    case Description(v) => d.(description := v)
    case Category(v) => d.(category := v)
    case Difficulty(v) => d.(difficulty := v)
    case Icon(v) => d.(icon := v)
    case Color(v) => d.(color := v)
    case ScorePerQuestion(v) => d.(scorePerQuestion := v)
  }

  /** The fields `handleQuestionChange` can set on a question; the form
      itself only ever passes the text. */
  datatype QuestionField = QuestionText(text: string) | QuestionCorrect(optionId: int)

  function SetField(q: DraftQuestion, f: QuestionField): DraftQuestion {
    match f
    case QuestionText(t) => q.(text := t)
    case QuestionCorrect(k) => q.(correctOptionId := k)
  }

  /** Replaces question `i` by `q` and leaves the others. */
  function UpdateQuestion(d: QuizDraft, i: nat, q: DraftQuestion): (r: QuizDraft)
    requires i < |d.questions|
    ensures |r.questions| == |d.questions| && r.questions[i] == q
    ensures forall j :: 0 <= j < |d.questions| && j != i ==> r.questions[j] == d.questions[j]
    ensures r == d.(questions := r.questions)
  {
    d.(questions := d.questions[i := q])
  }

  /** `handleQuestionChange(questionIndex, field, value)`. */
  function QuestionChange(d: QuizDraft, i: nat, f: QuestionField): QuizDraft
    requires i < |d.questions|
  {
    UpdateQuestion(d, i, SetField(d.questions[i], f))
  }

  /** Only the named field of the named question changes. */
  lemma QuestionChangeIsLocal(d: QuizDraft, i: nat, f: QuestionField)
    requires i < |d.questions|
    ensures var r := QuestionChange(d, i, f); var q := r.questions[i]; var p := d.questions[i];
      && |r.questions| == |d.questions|
      && (forall j :: 0 <= j < |d.questions| && j != i ==> r.questions[j] == d.questions[j])
      && q.id == p.id && q.options == p.options
      && (f.QuestionText? ==> q.text == f.text && q.correctOptionId == p.correctOptionId)
      && (f.QuestionCorrect? ==> q.correctOptionId == f.optionId && q.text == p.text)
      && r.title == d.title && r.category == d.category && r.difficulty == d.difficulty
  {
  }

  /** `handleOptionChange(questionIndex, optionIndex, value)`: the text of one
      option of one question. */
  function OptionChange(d: QuizDraft, i: nat, k: nat, value: string): (r: QuizDraft)
    requires i < |d.questions| && k < |d.questions[i].options|
    ensures |r.questions| == |d.questions| && |r.questions[i].options| == |d.questions[i].options|
    ensures r.questions[i].options[k] == d.questions[i].options[k].(text := value)
    ensures forall m :: 0 <= m < |d.questions[i].options| && m != k ==> r.questions[i].options[m] == d.questions[i].options[m]
    ensures r.questions[i] == d.questions[i].(options := r.questions[i].options)
    ensures forall j :: 0 <= j < |d.questions| && j != i ==> r.questions[j] == d.questions[j]
    ensures r == d.(questions := r.questions)
  {
    var q := d.questions[i];
    UpdateQuestion(d, i, q.(options := q.options[k := q.options[k].(text := value)]))
  }

  /** `handleCorrectOptionChange(questionIndex, optionId)`. */
  function CorrectOptionChange(d: QuizDraft, i: nat, optionId: int): (r: QuizDraft)
    requires i < |d.questions|
    ensures |r.questions| == |d.questions| && r.questions[i] == d.questions[i].(correctOptionId := optionId)
    ensures forall j :: 0 <= j < |d.questions| && j != i ==> r.questions[j] == d.questions[j]
    ensures r == d.(questions := r.questions)
  {
    UpdateQuestion(d, i, d.questions[i].(correctOptionId := optionId))
  }

  /** Appends a fresh question numbered one past the current count. */
  function AddQuestion(d: QuizDraft): (r: QuizDraft)
    ensures r.questions == d.questions + [NewQuestion(|d.questions| + 1)]
    ensures r == d.(questions := r.questions)
  {
    d.(questions := d.questions + [NewQuestion(|d.questions| + 1)])
  }

  /** Gives the questions the ids 1..n in their order. */
  function Renumber(qs: seq<DraftQuestion>): (r: seq<DraftQuestion>)
    ensures |r| == |qs|
    ensures forall i :: 0 <= i < |qs| ==> r[i] == qs[i].(id := i + 1)
  {
    seq(|qs|, i requires 0 <= i < |qs| => qs[i].(id := i + 1))
  }

  /** Drops a question while there are more than one, and renumbers the
      rest. */
  function RemoveQuestion(d: QuizDraft, index: nat): QuizDraft {
    if |d.questions| > 1 then d.(questions := Renumber(Without(d.questions, index))) else d
  }

  /** Removal keeps at least one question; it drops exactly the question at
      `index`, keeping the others in order with their contents. */
  lemma RemoveQuestionDropsOne(d: QuizDraft, index: nat)
    requires index < |d.questions|
    ensures var r := RemoveQuestion(d, index);
      && (|d.questions| >= 1 ==> |r.questions| >= 1)
      && (|d.questions| == 1 ==> r == d)
      && (|d.questions| > 1 ==>
            |r.questions| == |d.questions| - 1
            && forall i :: 0 <= i < |r.questions| ==>
                 var src := if i < index then i else i + 1;
                 r.questions[i] == d.questions[src].(id := i + 1))
  {
  }

  /** Numbering 1..n survives adding and removing a question. */
  lemma NumberingKept(d: QuizDraft, index: nat)
    requires NumberedInOrder(d.questions)
    ensures NumberedInOrder(AddQuestion(d).questions)
    ensures NumberedInOrder(RemoveQuestion(d, index).questions)
  {
    var qs := AddQuestion(d).questions;
    assert qs[|d.questions|].id == |d.questions| + 1;
  }

  /** Every change the form offers. The question and option indexes are
      those of rendered inputs, and a picked right option is one of the
      question's own option ids. */
  datatype Change =
    | SetQuizField(field: QuizField)
    | SetQuestionText(question: nat, text: string)
    | SetOptionText(question: nat, option: nat, text: string)
    | PickCorrect(question: nat, optionId: int)
    | Add
    | Remove(question: nat)

  predicate Offered(d: QuizDraft, c: Change) {
    match c
    case SetQuizField(_) => true
    case SetQuestionText(i, _) => i < |d.questions|
    case SetOptionText(i, k, _) => i < |d.questions| && k < |d.questions[i].options|
    case PickCorrect(i, id) =>
      i < |d.questions| && exists k :: 0 <= k < |d.questions[i].options| && d.questions[i].options[k].id == id
    case Add => true
    case Remove(i) => i < |d.questions|
  }

  function Apply(d: QuizDraft, c: Change): QuizDraft
    requires Offered(d, c)
  {
    match c
    case SetQuizField(f) => QuizDataChange(d, f)
    case SetQuestionText(i, t) => QuestionChange(d, i, QuestionText(t))
    case SetOptionText(i, k, t) => OptionChange(d, i, k, t)
    case PickCorrect(i, id) => CorrectOptionChange(d, i, id)
    case Add => AddQuestion(d)
    case Remove(i) => RemoveQuestion(d, i)
  }

  lemma InitialWellFormed()
    ensures WellFormed(InitialDraft())
  {
  }

  /** Every offered change keeps the draft's shape: at least one question,
      ids 1..n, options numbered 1..k, and the right option among them. */
  lemma ApplyWellFormed(d: QuizDraft, c: Change)
    requires WellFormed(d) && Offered(d, c)
    ensures WellFormed(Apply(d, c))
  {
    match c {
      case Add =>
        NumberingKept(d, 0);
      case Remove(i) =>
        NumberingKept(d, i);
        RemoveQuestionDropsOne(d, i);
        var r := RemoveQuestion(d, i).questions;
        forall j | 0 <= j < |r| ensures WellFormedQuestion(r[j]) {
          if |d.questions| > 1 {
            var src := if j < i then j else j + 1;
            assert WellFormedQuestion(d.questions[src]);
          }
        }
      case PickCorrect(i, id) =>
        var k :| 0 <= k < |d.questions[i].options| && d.questions[i].options[k].id == id;
        assert WellFormedQuestion(d.questions[i]);
      case SetOptionText(i, k, t) =>
        var r := Apply(d, c);
        assert WellFormedQuestion(d.questions[i]);
        assert forall j :: 0 <= j < |r.questions| && j != i ==> r.questions[j] == d.questions[j];
      case _ =>
    }
  }

  // ---------------------------------------------------------------------
  // Validation

  const TitleRequired := "Le titre du quiz est requis"
  const CategoryRequired := "Veuillez sélectionner une catégorie"
  const DifficultyRequired := "Veuillez sélectionner un niveau de difficulté"

  function QuestionTextRequired(questionId: int): string {
    "Le texte de la question " + IntToString(questionId) + " est requis"
  }

  function OptionEmpty(optionId: int, questionId: int): string {
    "L'option " + IntToString(optionId) + " de la question " + IntToString(questionId) + " est vide"
  }

  /** No option text of the question is blank. */
  predicate OptionsFilled(os: seq<DraftOption>) {
    forall k :: 0 <= k < |os| ==> !IsBlank(os[k].text)
  }

  /** Neither the question's text nor any of its option texts is blank. */
  predicate QuestionFilled(q: DraftQuestion) {
    !IsBlank(q.text) && OptionsFilled(q.options)
  }

  /** The alert for the first blank option of question `q`, if any. */
  function OptionProblem(q: DraftQuestion, os: seq<DraftOption>): (r: Option<string>)
    ensures r.None? <==> OptionsFilled(os)
    decreases |os|
  {
    if |os| == 0 then None
    else if IsBlank(os[0].text) then Some(OptionEmpty(os[0].id, q.id))
    else
      assert forall k :: 1 <= k < |os| ==> os[1..][k - 1] == os[k];
      OptionProblem(q, os[1..])
  }

  /** The alert for one question: its blank text first, then its first
      blank option. */
  function QuestionAlert(q: DraftQuestion): (r: Option<string>)
    ensures r.None? <==> QuestionFilled(q)
    ensures IsBlank(q.text) ==> r == Some(QuestionTextRequired(q.id))
  {
    if IsBlank(q.text) then Some(QuestionTextRequired(q.id))
    else OptionProblem(q, q.options)
  }

  /** The alert for the first question with a blank text or a blank option,
      in order. */
  function QuestionProblem(qs: seq<DraftQuestion>): (r: Option<string>)
    ensures r.None? <==> forall i :: 0 <= i < |qs| ==> QuestionFilled(qs[i])
    decreases |qs|
  {
    if |qs| == 0 then None
    else
      AllFilledCons(qs);
      match QuestionAlert(qs[0])
      case Some(m) => Some(m)
      case None => QuestionProblem(qs[1..])
  }

  lemma AllFilledCons(qs: seq<DraftQuestion>)
    requires |qs| > 0
    ensures (forall i :: 0 <= i < |qs| ==> QuestionFilled(qs[i])) <==>
            QuestionFilled(qs[0]) && forall i :: 0 <= i < |qs[1..]| ==> QuestionFilled(qs[1..][i])
  {
    AllCons(qs, QuestionFilled);
  }

  /** `validateQuiz`: `None` when the quiz may be sent, otherwise the alert
      of the first failed check. */
  function Validate(d: QuizDraft): (r: Option<string>)
    ensures IsBlank(d.title) ==> r == Some(TitleRequired)
    ensures !IsBlank(d.title) && d.category == "" ==> r == Some(CategoryRequired)
    ensures !IsBlank(d.title) && d.category != "" && d.difficulty == "" ==> r == Some(DifficultyRequired)
  {
    if IsBlank(d.title) then Some(TitleRequired)
    else if d.category == "" then Some(CategoryRequired)
    else if d.difficulty == "" then Some(DifficultyRequired)
    else QuestionProblem(d.questions)
  }

  /** A draft passes exactly when its title is not blank, a category and a
      difficulty are chosen, and no question or option text is blank. */
  lemma ValidateIff(d: QuizDraft)
    ensures Validate(d).None? <==>
      && !IsBlank(d.title) && d.category != "" && d.difficulty != ""
      && forall i :: 0 <= i < |d.questions| ==>
           !IsBlank(d.questions[i].text)
           && forall k :: 0 <= k < |d.questions[i].options| ==> !IsBlank(d.questions[i].options[k].text)
  {
  }

  /** `trim` also drops the Unicode space separators: a title of one
      ideographic space is blank. */
  lemma IdeographicSpaceTitleIsBlank(d: QuizDraft)
    requires d.title == "\U{3000}"
    ensures Validate(d) == Some(TitleRequired)
  {
    assert TrimStart(d.title) == TrimStart(d.title[1..]);
  }

  /** The initial draft never passes: its title is empty. */
  lemma InitialDraftFails()
    ensures Validate(InitialDraft()) == Some(TitleRequired)
  {
  }

  // ---------------------------------------------------------------------
  // Submitting

  datatype QuestionRequest = QuestionRequest(questionText: string, options: seq<string>, correctOption: int)

  /** `requestData`; icon and colour are not sent. */
  datatype QuizRequest = QuizRequest(title: string, description: string, category: string, difficulty: string,
                                     scorePerQuestion: Option<int>, questions: seq<QuestionRequest>)

  function QuestionRequestOf(q: DraftQuestion): (r: QuestionRequest)
    ensures |r.options| == |q.options|
    ensures forall k :: 0 <= k < |q.options| ==> r.options[k] == Trim(q.options[k].text)
  {
    QuestionRequest(Trim(q.text), Map(q.options, (o: DraftOption) => Trim(o.text)), q.correctOptionId - 1)
  }

  /** The trimmed texts, the chosen category and difficulty, and each right
      option turned from a 1-based id into a 0-based index. */
  function RequestOf(d: QuizDraft): (r: QuizRequest)
    ensures r.title == Trim(d.title) && r.description == Trim(d.description)
    ensures r.category == d.category && r.difficulty == d.difficulty && r.scorePerQuestion == d.scorePerQuestion
    ensures |r.questions| == |d.questions|
    ensures forall i :: 0 <= i < |d.questions| ==>
      r.questions[i].questionText == Trim(d.questions[i].text)
      && r.questions[i].correctOption == d.questions[i].correctOptionId - 1
      && |r.questions[i].options| == |d.questions[i].options|
      && forall k :: 0 <= k < |d.questions[i].options| ==>
           r.questions[i].options[k] == Trim(d.questions[i].options[k].text)
  {
    QuizRequest(Trim(d.title), Trim(d.description), d.category, d.difficulty, d.scorePerQuestion,
                Map(d.questions, QuestionRequestOf))
  }

  /** In a well-formed draft the 0-based index points at the option whose id
      was chosen, and in a draft that passes validation no text sent is
      empty. */
  lemma RequestPointsAtChosenOption(d: QuizDraft)
    requires WellFormed(d)
    ensures var r := RequestOf(d);
      forall i :: 0 <= i < |d.questions| ==>
        var c := r.questions[i].correctOption;
        0 <= c < |r.questions[i].options|
        && d.questions[i].options[c].id == d.questions[i].correctOptionId
        && r.questions[i].options[c] == Trim(d.questions[i].options[c].text)
  {
    var r := RequestOf(d);
    forall i | 0 <= i < |d.questions|
      ensures 0 <= r.questions[i].correctOption < |r.questions[i].options|
      ensures d.questions[i].options[r.questions[i].correctOption].id == d.questions[i].correctOptionId
      ensures r.questions[i].options[r.questions[i].correctOption]
              == Trim(d.questions[i].options[r.questions[i].correctOption].text)
    {
      assert WellFormedQuestion(d.questions[i]);
      assert r.questions[i] == QuestionRequestOf(d.questions[i]);
      QuestionRequestPointsAtChosen(d.questions[i]);
    }
  }

  /** One question's share of `RequestPointsAtChosenOption`. */
  lemma QuestionRequestPointsAtChosen(q: DraftQuestion)
    requires WellFormedQuestion(q)
    ensures var r := QuestionRequestOf(q); var c := r.correctOption;
      && 0 <= c < |r.options|
      && q.options[c].id == q.correctOptionId
      && r.options[c] == Trim(q.options[c].text)
  {
  }

  lemma ValidRequestHasNoEmptyText(d: QuizDraft)
    requires Validate(d).None?
    ensures var r := RequestOf(d);
      && r.title != ""
      && forall i :: 0 <= i < |r.questions| ==>
           r.questions[i].questionText != ""
           && forall k :: 0 <= k < |r.questions[i].options| ==> r.questions[i].options[k] != ""
  {
    ValidateIff(d);
  }

  /** What a submit does: the request sent, if any, the alert shown and
      the draft afterwards. */
  datatype Submitted = Submitted(sent: Option<QuizRequest>, alert: string, after: QuizDraft)

  const SubmitFailed := "Error creating quiz. Please check console for details."

  function CreatedMessage(id: int): string {
    "Quiz created successfully! ID: " + IntToString(id)
  }

  /** `handleSubmit`. `response` is the created quiz's id, or `None` when the
      request failed. */
  function Submit(d: QuizDraft, response: Option<int>): (r: Submitted)
    ensures Validate(d).Some? ==> r == Submitted(None, Validate(d).value, d)
    ensures Validate(d).None? ==> r.sent == Some(RequestOf(d))
    ensures Validate(d).None? && response.Some? ==> r.after == InitialDraft() && r.alert == CreatedMessage(response.value)
    ensures Validate(d).None? && response.None? ==> r.after == d && r.alert == SubmitFailed
  {
    match Validate(d)
    case Some(m) => Submitted(None, m, d)
    case None =>
      match response
      case Some(id) => Submitted(Some(RequestOf(d)), CreatedMessage(id), InitialDraft())
      case None => Submitted(Some(RequestOf(d)), SubmitFailed, d)
  }

  /** A submit leaves a well-formed draft well formed, whatever the
      server answers, and only a passing draft is sent. */
  lemma SubmitKeepsShape(d: QuizDraft, response: Option<int>)
    requires WellFormed(d)
    ensures WellFormed(Submit(d, response).after)
    ensures Submit(d, response).sent.Some? <==> Validate(d).None?
  {
    InitialWellFormed();
  }
}

=== FILE: navbar.dfy ===
/** The navigation bar (src/components/navbar.jsx): the role it reads, which
    links it shows, which link is highlighted, and the avatar's initials. */
module Navbar {
  import opened Wrappers
  import opened Text
  import opened Users

  const Home := "/accueil"

  /** `userRole`: `None` until the role effect has run with a user. */
  datatype NavState = NavState(userRole: Option<string>)

  function InitialNav(): NavState {
    NavState(None)
  }

  /** The role effect: once loaded with a user, the role read from the
      metadata, "user" by default. Signing out does not reset it. */
  function RoleEffect(s: NavState, auth: Auth): (r: NavState)
    ensures auth.SignedIn? ==> r.userRole == Some(RoleOr(auth.user, "user"))
    ensures !auth.SignedIn? ==> r == s
  {
    match auth
    case SignedIn(u) => NavState(Some(RoleOr(u, "user")))
    case _ => s
  }

  predicate IsStudent(role: Option<string>) {
    role == Some(Student)
  }

  /** `isActive(path)`: the home link only on the home page itself; any
      other link on every path that starts with it. */
  predicate IsActive(path: string, pathname: string) {
    (path == Home && pathname == Home) || (path != Home && StartsWith(pathname, path))
  }

  lemma IsActiveCases(path: string, pathname: string)
    ensures IsActive(Home, pathname) <==> pathname == Home
    ensures path != Home ==> (IsActive(path, pathname) <==> |path| <= |pathname| && pathname[..|path|] == path)
    ensures path != Home ==> IsActive(path, path + pathname)
  {
    if path != Home {
      assert (path + pathname)[..|path|] == path;
    }
  }

  /** The prefix test highlights the student "Quiz" link on the
      professor's "/quizzes" pages too. */
  lemma QuizLinkActiveOnQuizzes(rest: string)
    ensures IsActive("/quiz", "/quizzes" + rest)
  {
    assert ("/quizzes" + rest)[..5] == "/quiz";
  }

  /** `isLoaded && userRole`: the role links appear only then. */
  predicate RoleLinksShown(auth: Auth, role: Option<string>) {
    IsLoaded(auth) && role.Some? && role.value != ""
  }

  /** The links of the bar, left to right. */
  function Links(auth: Auth, role: Option<string>): seq<string> {
    [Home]
    + (if RoleLinksShown(auth, role) && !IsStudent(role) then ["/quizzes"] else [])
    + (if RoleLinksShown(auth, role) && IsStudent(role) then ["/quiz"] else [])
    + (if RoleLinksShown(auth, role) && !IsStudent(role) then ["/create-quiz"] else [])
    + (if RoleLinksShown(auth, role) && IsStudent(role) then ["/stats"] else [])
  }

  /** Students get the quiz app and their statistics, everyone else their
      quizzes and the quiz creator, and nobody gets role links before the
      role is known. */
  lemma LinksByRole(auth: Auth, role: Option<string>)
    ensures !RoleLinksShown(auth, role) ==> Links(auth, role) == [Home]
    ensures RoleLinksShown(auth, role) && IsStudent(role) ==> Links(auth, role) == [Home, "/quiz", "/stats"]
    ensures RoleLinksShown(auth, role) && !IsStudent(role) ==> Links(auth, role) == [Home, "/quizzes", "/create-quiz"]
    ensures "/create-quiz" in Links(auth, role) <==> RoleLinksShown(auth, role) && !IsStudent(role)
    ensures "/stats" in Links(auth, role) <==> RoleLinksShown(auth, role) && IsStudent(role)
  {
  }

  /** After the role effect with a user the links show: the quiz app for a
      student, the authoring pages for any other or missing role. */
  lemma LinksAfterSignIn(s: NavState, u: User)
    ensures var r := RoleEffect(s, SignedIn(u));
      && RoleLinksShown(SignedIn(u), r.userRole)
      && (IsStudent(r.userRole) <==> RoleField(u) == Some(Student))
  {
  }

  /** The "Nouveau Quiz" menu item: hidden only from students. */
  predicate NewQuizShown(role: Option<string>) {
    !IsStudent(role)
  }

  /** While the role is unknown the menu already offers "Nouveau Quiz"
      although the bar shows no "/create-quiz" link. */
  lemma NewQuizBeforeRole(auth: Auth)
    ensures NewQuizShown(None) && "/create-quiz" !in Links(auth, None)
  {
  }
}

=== FILE: options.dfy ===
/** One answer option on screen (src/components/quiz/OptionItem.jsx): its
    colour, whether it shows the check mark, whether it reacts to the
    pointer, and what a click reports. */
module OptionItemView {
  import opened Wrappers
  import opened Text
  import opened QuizModel
  import QuizUtils

  /** `colorScheme.split("-")[1] || "purple"`: the second piece, unless it
      is missing or empty. */
  function ColorBase(colorScheme: string): (r: string)
    ensures '-' !in r
    ensures r != ""
  {
    var parts := Split(colorScheme, '-');
    if |parts| > 1 && parts[1] != "" then parts[1] else QuizUtils.DefaultColor
  }

  /** The item's own rule and the shared `extractColorBase` differ exactly on
      schemes whose second piece is empty, like "a--b", where the item falls
      back to "purple" and the helper returns "". */
  lemma ColorBaseVersusExtract(colorScheme: string)
    ensures var parts := Split(colorScheme, '-');
      ColorBase(colorScheme) != QuizUtils.ExtractColorBase(Some(colorScheme))
      <==> |parts| > 1 && parts[1] == ""
  {
    if colorScheme == "" {
      assert Split(colorScheme, '-') == [""];
    }
  }

  /** What the item renders and how it reacts. */
  datatype ItemView = ItemView(colorBase: string, checkMark: bool, dimmed: bool, animated: bool)

  function Render(isSelected: bool, colorScheme: string, disabled: bool): (v: ItemView)
    ensures v.checkMark <==> isSelected
    ensures v.animated <==> !disabled
    ensures v.dimmed <==> disabled
  {
    ItemView(ColorBase(colorScheme), isSelected, disabled, !disabled)
  }

  /** `onClick={() => !disabled && onSelect(option.id)}`: the id handed to
      the handler, or nothing for a disabled item. */
  function Click(option: Choice, disabled: bool): (r: Option<int>)
    ensures r.Some? <==> !disabled
    ensures r.Some? ==> r.value == option.id
  {
    if disabled then None else Some(option.id)
  }
}

/** The list of options of one question
    (src/components/quiz/OptionsList.jsx). `H` is the type of the selection
    handler, which the list forwards untouched. */
module OptionsListView {
  import opened Wrappers
  import opened QuizModel
  import OptionItemView

  /** The props one `OptionItem` receives. */
  datatype ItemProps<H> = ItemProps(option: Choice, isSelected: bool, onSelect: H, colorScheme: string, disabled: bool)

  /** One item per option, in order. `colorScheme` and `disabled` are the
      optional props; absent, they default to "purple" and `false`. */
  function Items<H>(options: seq<Choice>, selectedOptionId: Option<int>, onOptionSelect: H,
                        colorScheme: Option<string>, disabled: Option<bool>): (r: seq<ItemProps<H>>)
    ensures |r| == |options|
    ensures forall i :: 0 <= i < |r| ==>
      && r[i].option == options[i]
      && (r[i].isSelected <==> selectedOptionId == Some(options[i].id))
      && r[i].onSelect == onOptionSelect
      && r[i].colorScheme == colorScheme.GetOr("purple")
      && r[i].disabled == disabled.GetOr(false)
  {
    seq(|options|, i requires 0 <= i < |options| =>
      ItemProps(options[i], selectedOptionId == Some(options[i].id), onOptionSelect,
                colorScheme.GetOr("purple"), disabled.GetOr(false)))
  }

  /** With distinct option ids at most one item is selected, and one is
      exactly when the selected id belongs to an option. */
  lemma AtMostOneSelected<H>(q: Question, selectedOptionId: Option<int>, h: H,
                                 colorScheme: Option<string>, disabled: Option<bool>)
    requires UniqueOptionIds(q)
    ensures var r := Items(q.options, selectedOptionId, h, colorScheme, disabled);
      && (forall i, j :: 0 <= i < |r| && 0 <= j < |r| && r[i].isSelected && r[j].isSelected ==> i == j)
      && ((exists i :: 0 <= i < |r| && r[i].isSelected) <==> selectedOptionId.Some? && HasOptionId(q, selectedOptionId.value))
  {
  }

  /** Clicking an enabled item reports the id of the option it shows, the id
      a selection of it stores; a disabled list reports nothing. */
  lemma ClickReportsOption<H>(options: seq<Choice>, selectedOptionId: Option<int>, h: H,
                                  colorScheme: Option<string>, disabled: Option<bool>, i: nat)
    requires i < |options|
    ensures var r := Items(options, selectedOptionId, h, colorScheme, disabled);
      OptionItemView.Click(r[i].option, r[i].disabled) == if disabled == Some(true) then None else Some(options[i].id)
  {
  }
}

=== FILE: profile.dfy ===
/** The profile page (src/app/profile/page.js): the role label and the
    fallbacks for a missing name or e-mail. Its initials are the navbar's
    (`Users.Initials`). */
module ProfilePage {
  import opened Wrappers
  import opened Text
  import opened Users

  /** `role.charAt(0).toUpperCase() + role.slice(1)`. */
  function Capitalise(s: string): (r: string)
    ensures |r| == |s|
    ensures |s| > 0 ==> r[0] == UpperChar(s[0]) && r[1..] == s[1..]
  {
    Upper(FirstChar(s)) + (if |s| > 0 then s[1..] else "")
  }

  /** `getUserRole`: the metadata role, "user" by default, capitalised. */
  function RoleLabel(user: Option<User>): (r: string)
    ensures |r| > 0
  {
    var role := match user case Some(u) => RoleOr(u, "user") case None => "user";
    Capitalise(role)
  }

  /** The label is the role with only its first letter raised; without a
      role it reads "User", and the two roles read "Student" and
      "Professeur". Capitalising it again changes nothing. */
  lemma RoleLabelCases(u: User)
    ensures RoleLabel(None) == "User"
    ensures RoleField(u).None? ==> RoleLabel(Some(u)) == "User"
    ensures RoleField(u) == Some(Student) ==> RoleLabel(Some(u)) == "Student"
    ensures RoleField(u) == Some(Professor) ==> RoleLabel(Some(u)) == "Professeur"
    ensures Capitalise(RoleLabel(Some(u))) == RoleLabel(Some(u))
  {
    var r := RoleLabel(Some(u));
    assert UpperChar(UpperChar(r[0])) == UpperChar(r[0]);
    assert Capitalise(r)[1..] == r[1..];
  }

  /** `user?.fullName || "Utilisateur"`. */
  function DisplayName(user: Option<User>): (r: string)
    ensures user.Some? && user.value.fullName != "" ==> r == user.value.fullName
    ensures user.None? || user.value.fullName == "" ==> r == "Utilisateur"
  {
    match user
    case Some(u) => OrElse(u.fullName, "Utilisateur")
    case None => "Utilisateur"
  }

  /** `user?.emailAddresses[0]?.emailAddress || "email@example.com"`. */
  function Email(user: Option<User>): (r: string)
    ensures r != ""
    ensures user.Some? && |user.value.emails| > 0 && user.value.emails[0] != "" ==> r == user.value.emails[0]
    ensures user.None? || |user.value.emails| == 0 || user.value.emails[0] == "" ==> r == "email@example.com"
  {
    match user
    case Some(u) => OrElse(if |u.emails| > 0 then u.emails[0] else "", "email@example.com")
    case None => "email@example.com"
  }
}

=== FILE: question_form.dfy ===
/** The professor's question editor (src/components/pages/question-form.jsx):
    the draft being edited, how a fetched question is normalised into it,
    the option-list handlers with their 2..6 bounds, the payload sent to the
    server, and what loading and saving do to the page. */
module QuestionForm {
  import opened Wrappers
  import opened Text
  import opened Seqs

  /** `questionData`: the text, the option texts, the index of the right
      option and the points. */
  datatype Draft = Draft(text: string, options: seq<string>, correctOption: int, points: int)

  function InitialDraft(): Draft {
    Draft("", ["", "", "", ""], 0, 1)
  }

  const MinOptions: nat := 2
  const MaxOptions: nat := 6

  /** The shape the editor keeps: two to six options, the right one among
      them, and a positive number of points. */
  predicate Valid(d: Draft) {
    && MinOptions <= |d.options| <= MaxOptions
    && 0 <= d.correctOption < |d.options|
    && d.points > 0
  }

  /** `questionId !== "create" && questionId !== undefined`; `None` is the
      missing route parameter. */
  function IsEditMode(questionId: Option<string>): (r: bool)
    ensures r <==> questionId != None && questionId != Some("create")
  {
    match questionId
    case None => false
    case Some(id) => id != "create"
  }

  // ---------------------------------------------------------------------
  // Loading

  /** An option as the server sends it, `{id, text, correct}`; a missing
      text is "" and `correct` is whether the flag is `=== true`. */
  datatype RawChoice = RawChoice(text: string, correct: bool)

  /** `question.options`: not an array, an array of option objects, or an
      array of plain strings. An empty array takes the strings branch
      whichever constructor carries it. */
  datatype RawOptions = NotAnArray | ObjectOptions(choices: seq<RawChoice>) | StringOptions(texts: seq<string>)

  /** A fetched question. A missing `text` is ""; `correctOption` is `None`
      unless it is a number; `points` is 0 when missing, both being falsy. */
  datatype RawQuestion = RawQuestion(id: int, text: string, options: RawOptions, correctOption: Option<int>, points: int)

  /** The `while (length < 2) push("")` loop. */
  function PadOptions(xs: seq<string>): (r: seq<string>)
    ensures |r| == if |xs| < MinOptions then MinOptions else |xs|
    ensures r[..|xs|] == xs
    ensures forall i :: |xs| <= i < |r| ==> r[i] == ""
  {
    if |xs| < MinOptions then xs + seq(MinOptions - |xs|, _ => "") else xs
  }

  function FlaggedIndex(cs: seq<RawChoice>): int {
    FindIndex(cs, (c: RawChoice) => c.correct)
  }

  function ChoiceTexts(cs: seq<RawChoice>): seq<string> {
    Map(cs, (c: RawChoice) => c.text)
  }

  /** The right index of the strings branch: `correctOption` if numeric. */
  function NumericCorrect(q: RawQuestion): int {
    q.correctOption.GetOr(0)
  }

  /** The option texts and the right index before padding. */
  function ProcessOptions(q: RawQuestion): (seq<string>, int) {
    match q.options
    case NotAnArray => ([], 0)
    case ObjectOptions(cs) =>
      if |cs| > 0 then
        var k := FlaggedIndex(cs);
        (ChoiceTexts(cs), if k == -1 then 0 else k)
      else ([], NumericCorrect(q))
    case StringOptions(ts) => (ts, NumericCorrect(q))
  }

  /** The draft an edited question is loaded into. */
  function Load(q: RawQuestion): (d: Draft)
    ensures d.text == q.text
    ensures |d.options| >= MinOptions
    ensures q.points != 0 ==> d.points == q.points
    ensures q.points == 0 ==> d.points == 1
  {
    var (texts, correct) := ProcessOptions(q);
    Draft(q.text, PadOptions(texts), correct, if q.points != 0 then q.points else 1)
  }

  /** Object options become their texts in order, padded to two, and the
      right index is the first flagged option, or 0 when none is flagged. */
  lemma LoadObjects(q: RawQuestion)
    requires q.options.ObjectOptions? && |q.options.choices| > 0
    ensures var d := Load(q); var cs := q.options.choices;
      && d.options[..|cs|] == ChoiceTexts(cs)
      && (forall i :: 0 <= i < |cs| ==> d.options[i] == cs[i].text)
      && (forall i :: |cs| <= i < |d.options| ==> d.options[i] == "")
      && 0 <= d.correctOption < |cs|
      && ((exists i :: 0 <= i < |cs| && cs[i].correct) ==>
            cs[d.correctOption].correct && forall j :: 0 <= j < d.correctOption ==> !cs[j].correct)
      && ((forall i :: 0 <= i < |cs| ==> !cs[i].correct) ==> d.correctOption == 0)
  {
    var d := Load(q);
    var cs := q.options.choices;
    forall i | 0 <= i < |cs| ensures d.options[i] == cs[i].text {
      assert d.options[i] == d.options[..|cs|][i];
    }
  }

  /** String options are copied, padded to two, and the right index is the
      question's numeric `correctOption`, else 0, whatever its range. */
  lemma LoadStrings(q: RawQuestion)
    requires q.options.StringOptions?
    ensures var d := Load(q); var ts := q.options.texts;
      && d.options[..|ts|] == ts
      && d.correctOption == (if q.correctOption.Some? then q.correctOption.value else 0)
  {
  }

  /** A question with two to six object options and non-negative points
      loads into a draft of the editor's shape. */
  lemma LoadValid(q: RawQuestion)
    requires q.options.ObjectOptions? && 0 < |q.options.choices| <= MaxOptions
    requires q.points >= 0
    ensures Valid(Load(q))
  {
    LoadObjects(q);
  }

  // ---------------------------------------------------------------------
  // Editing

  function TextChange(d: Draft, value: string): Draft {
    d.(text := value)
  }

  /** `newOptions[index] = value` for an index the form renders. */
  function OptionChange(d: Draft, index: nat, value: string): (r: Draft)
    requires index < |d.options|
    ensures |r.options| == |d.options| && r.options[index] == value
    ensures forall i :: 0 <= i < |d.options| && i != index ==> r.options[i] == d.options[i]
    ensures r.text == d.text && r.correctOption == d.correctOption && r.points == d.points
  {
    d.(options := d.options[index := value])
  }

  /** `Number(value)` is `None` for NaN. A value in range is taken; any
      other leaves the draft as it was. */
  function CorrectOptionChange(d: Draft, value: Option<int>): (r: Draft)
    ensures value.Some? && 0 <= value.value < |d.options| ==> r == d.(correctOption := value.value)
    ensures !(value.Some? && 0 <= value.value < |d.options|) ==> r == d
  {
    match value
    case Some(n) => if 0 <= n < |d.options| then d.(correctOption := n) else d
    case None => d
  }

  /** `parseInt(value, 10)` must give a positive number; otherwise nothing
      changes. */
  function PointsChange(d: Draft, value: string): (r: Draft)
    ensures r.text == d.text && r.options == d.options && r.correctOption == d.correctOption
    ensures ParseIntPrefix(value).Some? && ParseIntPrefix(value).value > 0 ==> r.points == ParseIntPrefix(value).value
    ensures !(ParseIntPrefix(value).Some? && ParseIntPrefix(value).value > 0) ==> r == d
  {
    match ParseIntPrefix(value)
    case Some(n) => if n > 0 then d.(points := n) else d
    case None => d
  }

  /** A typed number is read back as the points, whatever non-digit text
      follows it; zero is refused. */
  lemma PointsChangeReadsNumber(d: Draft, n: nat, rest: string)
    requires |rest| == 0 || !IsDigit(rest[0])
    ensures n > 0 ==> PointsChange(d, Digits(n) + rest).points == n
    ensures n == 0 ==> PointsChange(d, Digits(n) + rest) == d
  {
    ParseIntPrefixDigits(n, rest);
  }

  /** `parseInt` skips leading Unicode space separators too. */
  lemma PointsChangeSkipsIdeographicSpace(d: Draft)
    ensures PointsChange(d, "\U{3000}5").points == 5
  {
    ParseIntPrefixDigits(5, "");
    assert Digits(5) + "" == "5";
    ParseIntPrefixSkipsSpace('\U{3000}', "5");
    assert ['\U{3000}'] + "5" == "\U{3000}5";
  }

  /** An empty field and a negative number are refused. */
  lemma PointsChangeRefuses(d: Draft, n: nat)
    ensures PointsChange(d, "") == d
    ensures PointsChange(d, "-" + Digits(n)) == d
  {
    var t := "-" + Digits(n);
    assert TrimStart(t) == t;
    assert t[1..] == Digits(n) + "";
    LeadingDigitsOfNumeral(Digits(n), "");
    ValueOfDigits(n);
    assert ParseIntPrefix(t) == Some(-(n as int));
  }

  /** Appends an empty option while there are fewer than six. */
  function AddOption(d: Draft): (r: Draft)
    ensures |d.options| < MaxOptions ==> r.options == d.options + [""]
    ensures |d.options| >= MaxOptions ==> r == d
    ensures r.text == d.text && r.correctOption == d.correctOption && r.points == d.points
  {
    if |d.options| < MaxOptions then d.(options := d.options + [""]) else d
  }

  /** Drops an option while there are more than two, moving the right index
      with it: back to 0 when the right option itself goes, one down when an
      earlier one goes. */
  function RemoveOption(d: Draft, index: nat): Draft {
    if |d.options| > MinOptions then
      var c := if d.correctOption == index then 0
               else if d.correctOption > index then d.correctOption - 1
               else d.correctOption;
      d.(options := Without(d.options, index), correctOption := c)
    else d
  }

  /** With more than two options, removing one shortens the list by one and
      keeps the right index in range; unless the right option itself was
      removed, the same text is still marked right. */
  lemma RemoveOptionKeepsRight(d: Draft, index: nat)
    requires 0 <= d.correctOption < |d.options|
    requires index < |d.options|
    ensures var r := RemoveOption(d, index);
      && (|d.options| > MinOptions ==> |r.options| == |d.options| - 1)
      && (|d.options| <= MinOptions ==> r == d)
      && 0 <= r.correctOption < |r.options|
      && (index == d.correctOption ==> r.correctOption == 0 || |d.options| <= MinOptions)
      && (index < d.correctOption && |d.options| > MinOptions ==> r.correctOption == d.correctOption - 1)
      && (index > d.correctOption ==> r.correctOption == d.correctOption)
      && (index != d.correctOption ==> r.options[r.correctOption] == d.options[d.correctOption])
  {
  }

  /** Every edit the form offers. */
  datatype Edit =
    | TypeText(text: string)
    | TypeOption(index: nat, value: string)
    | PickCorrect(choice: Option<int>)
    | TypePoints(points: string)
    | Add
    | Remove(index: nat)

  /** The edits the rendered form can raise: one input and one remove button
      per option. */
  predicate Offered(d: Draft, e: Edit) {
    match e
    case TypeOption(i, _) => i < |d.options|
    case Remove(i) => i < |d.options|
    case _ => true
  }

  function Apply(d: Draft, e: Edit): Draft
    requires Offered(d, e)
  {
    match e
    case TypeText(t) => TextChange(d, t)
    case TypeOption(i, v) => OptionChange(d, i, v)
    case PickCorrect(v) => CorrectOptionChange(d, v)
    case TypePoints(p) => PointsChange(d, p)
    case Add => AddOption(d)
    case Remove(i) => RemoveOption(d, i)
  }

  /** The editor's shape holds from the start and survives every edit, so
      the option list stays within 2..6 and the right index within it. */
  lemma InitialValid()
    ensures Valid(InitialDraft())
  {
  }

  lemma ApplyValid(d: Draft, e: Edit)
    requires Valid(d) && Offered(d, e)
    ensures Valid(Apply(d, e))
    ensures e.TypeText? ==> Apply(d, e) == d.(text := e.text)
  {
    match e {
      case Remove(i) => RemoveOptionKeepsRight(d, i);
      case _ =>
    }
  }

  lemma {:induction false} ApplyAllValid(d: Draft, es: seq<Edit>)
    requires Valid(d)
    ensures Valid(ApplyAll(d, es))
    decreases |es|
  {
    if |es| > 0 && Offered(d, es[0]) {
      ApplyValid(d, es[0]);
      ApplyAllValid(Apply(d, es[0]), es[1..]);
    }
  }

  /** A run of edits; one the form does not offer ends the run. */
  function ApplyAll(d: Draft, es: seq<Edit>): Draft
    decreases |es|
  {
    if |es| == 0 || !Offered(d, es[0]) then d else ApplyAll(Apply(d, es[0]), es[1..])
  }

  // ---------------------------------------------------------------------
  // Saving

  datatype ApiOption = ApiOption(text: string, correct: bool)
  datatype ApiQuestion = ApiQuestion(text: string, points: int, options: seq<ApiOption>)

  /** `apiData`: every option in order with its text, flagged exactly at the
      right index. */
  function Serialise(d: Draft): (a: ApiQuestion)
    ensures a.text == d.text && a.points == d.points
    ensures |a.options| == |d.options|
    ensures forall i :: 0 <= i < |a.options| ==> a.options[i].text == d.options[i]
    ensures forall i :: 0 <= i < |a.options| ==> (a.options[i].correct <==> i == d.correctOption)
  {
    ApiQuestion(d.text, d.points,
      seq(|d.options|, i requires 0 <= i < |d.options| => ApiOption(d.options[i], i == d.correctOption)))
  }

  /** The number of flagged options: one when the index is in range, none
      otherwise. */
  lemma SerialiseFlagsOne(d: Draft)
    ensures Count(Serialise(d).options, (o: ApiOption) => o.correct) ==
            if 0 <= d.correctOption < |d.options| then 1 else 0
  {
    CountAt(Serialise(d).options, (o: ApiOption) => o.correct, d.correctOption);
  }

  /** The saved question as a later fetch returns it: object options with
      their texts and flags. */
  function AsFetched(id: int, a: ApiQuestion): RawQuestion {
    RawQuestion(id, a.text, ObjectOptions(Map(a.options, (o: ApiOption) => RawChoice(o.text, o.correct))), None, a.points)
  }

  /** Saving a draft of the editor's shape and loading it back gives the
      same draft. */
  lemma ReloadAfterSave(d: Draft, id: int)
    requires Valid(d)
    ensures Load(AsFetched(id, Serialise(d))) == d
  {
    var q := AsFetched(id, Serialise(d));
    var cs := q.options.choices;
    assert |cs| == |d.options|;
    assert forall i :: 0 <= i < |cs| ==> cs[i].text == d.options[i] && (cs[i].correct <==> i == d.correctOption);
    var k := FlaggedIndex(cs);
    assert cs[d.correctOption].correct;
    assert k == d.correctOption;
    assert ChoiceTexts(cs) == d.options;
  }

  // ---------------------------------------------------------------------
  // The page

  const NotFoundMessage := "Question non trouvée dans le quiz."
  const LoadFailedMessage := "Impossible de charger les données. Veuillez réessayer plus tard."
  const SignInMessage := "Vous devez être connecté pour effectuer cette action."
  const SaveFailedMessage := "Erreur lors de l'enregistrement de la question."

  /** The fetch of the quiz: a failure (a network error or a non-ok status),
      or the quiz with its `questions` field, if it has one. */
  datatype Response = Failed | Received(questions: Option<seq<RawQuestion>>)

  datatype Page = Page(draft: Draft, error: Option<string>, loading: bool)

  function InitialPage(): Page {
    Page(InitialDraft(), None, true)
  }

  /** `String(q.id) === String(questionId)`. */
  function HasRouteId(questionId: string): RawQuestion -> bool {
    (q: RawQuestion) => IntToString(q.id) == questionId
  }

  /** The draft after the lookup of the question the route names, and
      whether the lookup set the "not found" error. */
  function Lookup(editMode: bool, questionId: string, p: Page, questions: Option<seq<RawQuestion>>): (Draft, bool) {
    if editMode && questions.Some? then
      match Find(questions.value, HasRouteId(questionId))
      case Some(q) => (Load(q), false)
      case None => (p.draft, true)
    else (p.draft, false)
  }

  /** The load effect as written. `ready` is `quizId && isLoaded && user`;
      without it the effect returns at once. After a successful fetch the
      error is cleared unconditionally, so the "not found" message set by
      the lookup never survives. */
  function FetchAsWritten(p: Page, ready: bool, editMode: bool, questionId: string, resp: Response): Page {
    if !ready then p
    else match resp
      case Failed => p.(error := Some(LoadFailedMessage), loading := false)
      case Received(questions) =>
        var (draft, _) := Lookup(editMode, questionId, p, questions);
        Page(draft, None, false)
  }

  /** The load effect with the lookup's error kept. */
  function Fetch(p: Page, ready: bool, editMode: bool, questionId: string, resp: Response): Page {
    if !ready then p
    else match resp
      case Failed => p.(error := Some(LoadFailedMessage), loading := false)
      case Received(questions) =>
        var (draft, notFound) := Lookup(editMode, questionId, p, questions);
        Page(draft, if notFound then Some(NotFoundMessage) else None, false)
  }

  /** As written, a successful fetch never leaves an error on the page: an
      edit route naming no question of the quiz shows the blank draft and no
      message, where the corrected effect reports the missing question. */
  lemma NotFoundMessageLost()
    ensures forall p, editMode, questionId, questions ::
      FetchAsWritten(p, true, editMode, questionId, Received(questions)).error == None
    ensures var page := FetchAsWritten(InitialPage(), true, true, "7", Received(Some([])));
      page.error == None && page.draft == InitialDraft()
    ensures Fetch(InitialPage(), true, true, "7", Received(Some([]))).error == Some(NotFoundMessage)
  {
  }

  /** The corrected effect: a failed fetch reports the failure; a received
      quiz reports "not found" exactly when an edit route names none of its
      questions, and otherwise loads the named question, with no error. */
  lemma FetchReports(p: Page, ready: bool, editMode: bool, questionId: string, resp: Response)
    ensures !ready ==> Fetch(p, ready, editMode, questionId, resp) == p
    ensures var r := Fetch(p, ready, editMode, questionId, resp);
      ready ==> (!r.loading
      && (resp.Failed? ==> r.error == Some(LoadFailedMessage) && r.draft == p.draft)
      && (resp.Received? ==>
            (r.error == Some(NotFoundMessage) <==>
               editMode && resp.questions.Some? &&
               forall i :: 0 <= i < |resp.questions.value| ==> IntToString(resp.questions.value[i].id) != questionId)
            && (r.error.Some? ==> r.error == Some(NotFoundMessage))))
    ensures ready && resp.Received? && editMode && resp.questions.Some? ==>
      forall i :: 0 <= i < |resp.questions.value| && IntToString(resp.questions.value[i].id) == questionId
                  && (forall j :: 0 <= j < i ==> IntToString(resp.questions.value[j].id) != questionId) ==>
        Fetch(p, ready, editMode, questionId, resp).draft == Load(resp.questions.value[i])
  {
    if ready && resp.Received? && editMode && resp.questions.Some? {
      var qs := resp.questions.value;
      var k := FindIndex(qs, HasRouteId(questionId));
      assert forall i :: 0 <= i < |qs| ==> HasRouteId(questionId)(qs[i]) == (IntToString(qs[i].id) == questionId);
      forall i | 0 <= i < |qs| && IntToString(qs[i].id) == questionId
                 && (forall j :: 0 <= j < i ==> IntToString(qs[j].id) != questionId)
        ensures k == i
      {
        assert HasRouteId(questionId)(qs[i]);
      }
    }
  }

  datatype Method = Put | Post

  /** A request relative to the API base URL. */
  datatype Request = Request(verb: Method, path: string, body: ApiQuestion)

  /** What a submit does: the request sent, if any, the error shown and the
      route navigated to. */
  datatype Submitted = Submitted(sent: Option<Request>, error: Option<string>, navigateTo: Option<string>)

  /** `handleSubmit`. `signedIn` is `isLoaded && user`; `serverOk` is
      whether the request succeeded. An edit puts the question by its own
      id, a creation posts it under the quiz; both go back to the quiz
      page. Only the handler is modelled: the browser's check of the
      form's `required` inputs, which blocks an empty submit before the
      handler runs, is not. */
  function Submit(signedIn: bool, userId: string, editMode: bool, quizId: string, questionId: string,
                  d: Draft, serverOk: bool): (r: Submitted)
    ensures !signedIn ==> r == Submitted(None, Some(SignInMessage), None)
    ensures signedIn ==> r.sent.Some? && r.sent.value.body == Serialise(d)
    ensures signedIn ==> (r.sent.value.verb == Put <==> editMode)
    ensures r.navigateTo.Some? <==> signedIn && serverOk
    ensures r.navigateTo.Some? ==> r.navigateTo.value == "/quizzes/" + quizId && r.error.None?
    ensures signedIn && !serverOk ==> r.error == Some(SaveFailedMessage)
  {
    if !signedIn then Submitted(None, Some(SignInMessage), None)
    else
      var request :=
        if editMode then Request(Put, "/professeur/" + userId + "/questions/" + questionId, Serialise(d))
        else Request(Post, "/professeur/" + userId + "/quizzes/" + quizId + "/questions", Serialise(d));
      if serverOk then Submitted(Some(request), None, Some("/quizzes/" + quizId))
      else Submitted(Some(request), Some(SaveFailedMessage), None)
  }

  /** What a successful save sends is what an edit of the same question
      loads back. */
  lemma SavedQuestionReloads(userId: string, editMode: bool, quizId: string, questionId: string, d: Draft, id: int)
    requires Valid(d)
    ensures var r := Submit(true, userId, editMode, quizId, questionId, d, true);
      Load(AsFetched(id, r.sent.value.body)) == d
  {
    ReloadAfterSave(d, id);
  }
}

=== FILE: quiz_app.dfy ===
/** The quiz wizard (src/components/quiz-app.jsx): a catalog tab, a tab that
    walks through the questions of the chosen quiz one at a time, and a
    results tab with the score, a tier message and a per-question review.

    The component's `useState` hooks become the fields of `AppState`; every
    handler becomes a function from state to state. The effect that clears
    the chosen quiz once the catalog tab shows with the clock stopped
    (lines 189-194) runs after every event (`Settle`). The one-second
    interval (lines 176-186) is the `Second` event. */
module QuizApp {
  import opened Wrappers
  import opened Seqs
  import opened QuizModel
  import opened Scoring
  import QuizUtils

  /** `activeTab`: "explorer", "quiz" or "resultats". */
  datatype Tab = Explorer | QuizTab | Results

  datatype AppState = AppState(
    quiz: Option<Quiz>,      // selectedQuiz
    current: nat,            // currentQuestion
    selections: Selections,  // selectedOptions
    completed: bool,         // quizCompleted
    score: nat,
    timer: nat,              // seconds on the clock
    timerActive: bool,
    tab: Tab,                // activeTab
    confetti: bool)          // showConfetti

  const Initial: AppState := AppState(None, 0, map[], false, 0, 0, false, Explorer, false)

  function Questions(s: AppState): seq<Question>
    requires s.quiz.Some?
  {
    s.quiz.value.questions
  }

  /** `startQuiz(quiz)`: a fresh attempt at `quiz` on the quiz tab, clock at
      zero and running. */
  function StartQuiz(s: AppState, q: Quiz): AppState {
    AppState(Some(q), 0, map[], false, 0, 0, true, QuizTab, s.confetti)
  }

  /** `handleOptionSelect(questionId, optionId)`. */
  function SelectOption(s: AppState, questionId: int, optionId: int): AppState {
    s.(selections := s.selections[questionId := optionId])
  }

  /** `result.correctAnswers >= questions.length * 0.7`, over integers. */
  predicate Confetti(score: nat, n: nat) {
    10 * score >= 7 * n
  }

  /** `handleNextQuestion`: the next question, or, on the last one, the
      score, the results tab, the clock stopped, and confetti for a good
      score. The handler needs a chosen quiz. */
  function NextQuestion(s: AppState): AppState
    requires s.quiz.Some?
  {
    var qs := Questions(s);
    if (s.current as int) < |qs| - 1 then s.(current := s.current + 1)
    else
      var n := Score(qs, s.selections);
      s.(score := n, completed := true, timerActive := false, tab := Results,
         confetti := s.confetti || Confetti(n, |qs|))
  }

  /** `resetQuiz`: back to the catalog with no quiz. The clock is left as it
      is, so an abandoned attempt keeps counting. */
  function ResetQuiz(s: AppState): AppState {
    s.(tab := Explorer, quiz := None, completed := false)
  }

  /** One second of the interval. */
  function Tick(s: AppState): AppState {
    if s.timerActive then s.(timer := s.timer + 1) else s
  }

  /** The catalog-tab effect. */
  function Settle(s: AppState): AppState {
    if s.tab == Explorer && !s.timerActive then s.(quiz := None, completed := false) else s
  }

  /** The `disabled` props of the three tab triggers (lines 280, 288, 296). */
  predicate TabDisabled(s: AppState, t: Tab) {
    match t
    case Explorer => s.timerActive && !s.completed
    case QuizTab => s.quiz.None?
    case Results => !s.completed || s.quiz.None?
  }

  /** `onValueChange={setActiveTab}`: a disabled trigger cannot be chosen. */
  function SwitchTab(s: AppState, t: Tab): AppState {
    if TabDisabled(s, t) then s else s.(tab := t)
  }

  /** `!selectedOptions[question.id]`: missing, but also an option id of 0,
      is falsy and disables the Next button. */
  predicate NextDisabled(sel: Selections, questionId: int) {
    questionId !in sel || sel[questionId] == 0
  }

  /** With option ids other than 0, Next is disabled exactly while the
      current question has no answer. */
  lemma NextDisabledIffUnanswered(sel: Selections, q: Question)
    requires forall k :: k in sel ==> sel[k] != 0
    ensures NextDisabled(sel, q.id) <==> Lookup(sel, q.id).None?
  {
  }

  /** An answer with option id 0 is stored but leaves Next disabled. */
  lemma ZeroOptionIdBlocksNext()
    ensures var sel := map[7 := 0]; Lookup(sel, 7) == Some(0) && NextDisabled(sel, 7)
  {
  }

  /** The question card shows (line 379) and its index is in range. */
  predicate QuestionShown(s: AppState) {
    s.tab == QuizTab && s.quiz.Some? && !s.completed && s.current < |Questions(s)|
  }

  function CurrentQuestion(s: AppState): Question
    requires QuestionShown(s)
  {
    Questions(s)[s.current]
  }

  /** What the student can do, each action tied to the control that
      triggers it. */
  datatype Event =
    | Start(q: Quiz)            // "Commencer le Quiz" on a catalog card
    | Select(optionId: int)     // a click on an option of the question shown
    | Next                      // "Question Suivante" / "Terminer le Quiz"
    | Abandon                   // "Abandonner"
    | BackToQuizzes             // "Retour aux Quiz"
    | Second                    // the interval fires
    | ChangeTab(t: Tab)         // a click on a tab trigger
    | ConfettiOver              // the 5-second confetti timeout

  /** The effect of one event, when its control is on screen and enabled;
      otherwise nothing happens. */
  function Step(s: AppState, e: Event): AppState {
    match e
    case Start(q) => if s.tab == Explorer then Settle(StartQuiz(s, q)) else s
    case Select(oid) =>
      if QuestionShown(s) && HasOptionId(CurrentQuestion(s), oid)
      then Settle(SelectOption(s, CurrentQuestion(s).id, oid)) else s
    case Next =>
      if QuestionShown(s) && !NextDisabled(s.selections, CurrentQuestion(s).id)
      then Settle(NextQuestion(s)) else s
    case Abandon => if QuestionShown(s) then Settle(ResetQuiz(s)) else s
    case BackToQuizzes =>
      if s.tab == Results && s.completed && s.quiz.Some? then Settle(ResetQuiz(s)) else s
    case Second => Settle(Tick(s))
    case ChangeTab(t) => Settle(SwitchTab(s, t))
    case ConfettiOver => s.(confetti := false)
  }

  function Run(s: AppState, es: seq<Event>): AppState
    decreases |es|
  {
    if |es| == 0 then s else Run(Step(s, es[0]), es[1..])
  }

  /** Every answer recorded belongs to some question of the chosen quiz. */
  predicate AnswersBelong(s: AppState)
    requires s.quiz.Some?
  {
    forall k :: k in s.selections ==> HasQuestionId(Questions(s), k)
  }

  /** What holds in every state the wizard can reach. */
  predicate Valid(s: AppState) {
    && (s.tab == QuizTab ==> s.quiz.Some?)
    && (s.tab == Results ==> s.quiz.Some? && s.completed)
    && (s.tab == Explorer && !s.timerActive ==> s.quiz.None? && !s.completed)
    && (s.completed ==> s.quiz.Some? && !s.timerActive)
    && (s.quiz.Some? ==>
          && (s.current < |Questions(s)| || (s.current == 0 && |Questions(s)| == 0))
          && AnswersBelong(s)
          && (s.completed ==> s.score == Score(Questions(s), s.selections))
          && (!s.completed ==> s.score == 0 && s.timerActive))
  }

  lemma InitialValid()
    ensures Valid(Initial)
  {
  }

  lemma StartValid(s: AppState, q: Quiz)
    ensures Valid(Settle(StartQuiz(s, q)))
  {
  }

  lemma SelectValid(s: AppState, oid: int)
    requires Valid(s) && QuestionShown(s)
    ensures Valid(Settle(SelectOption(s, CurrentQuestion(s).id, oid)))
  {
    var r := SelectOption(s, CurrentQuestion(s).id, oid);
    assert Settle(r) == r;
    forall k | k in r.selections ensures HasQuestionId(Questions(r), k) {
      if k != CurrentQuestion(s).id {
        assert k in s.selections;
      }
    }
  }

  lemma NextValid(s: AppState)
    requires Valid(s) && QuestionShown(s)
    ensures Valid(Settle(NextQuestion(s)))
  {
    var r := NextQuestion(s);
    assert Settle(r) == r;
  }

  /** Every event keeps the wizard in a reachable-looking state. */
  lemma StepValid(s: AppState, e: Event)
    requires Valid(s)
    ensures Valid(Step(s, e))
  {
    match e
    case Start(q) => StartValid(s, q);
    case Select(oid) =>
      if QuestionShown(s) && HasOptionId(CurrentQuestion(s), oid) {
        SelectValid(s, oid);
      }
    case Next =>
      if QuestionShown(s) && !NextDisabled(s.selections, CurrentQuestion(s).id) {
        NextValid(s);
      }
    case Abandon =>
    case BackToQuizzes =>
    case Second =>
    case ChangeTab(t) =>
    case ConfettiOver =>
  }

  lemma {:induction false} RunValid(s: AppState, es: seq<Event>)
    requires Valid(s)
    ensures Valid(Run(s, es))
    decreases |es|
  {
    if |es| > 0 {
      StepValid(s, es[0]);
      RunValid(Step(s, es[0]), es[1..]);
    }
  }

  /** Whatever happened before, starting a quiz from the catalog begins a
      fresh attempt: first question, nothing answered, no score, the clock
      at zero and running, the quiz tab. */
  lemma StartBeginsAttempt(s: AppState, q: Quiz)
    requires s.tab == Explorer
    ensures var r := Step(s, Start(q));
      && r.quiz == Some(q) && r.current == 0 && !r.completed && r.score == 0
      && r.timer == 0 && r.timerActive && r.tab == QuizTab
      && forall i :: 0 <= i < |q.questions| ==> Lookup(r.selections, q.questions[i].id).None?
  {
  }

  /** Selecting records the option for the question shown, and nothing else
      changes: the other answers and the rest of the state stay. */
  lemma SelectRecords(s: AppState, oid: int)
    requires Valid(s) && QuestionShown(s) && HasOptionId(CurrentQuestion(s), oid)
    ensures var r := Step(s, Select(oid));
      && Lookup(r.selections, CurrentQuestion(s).id) == Some(oid)
      && (forall k :: k != CurrentQuestion(s).id ==> Lookup(r.selections, k) == Lookup(s.selections, k))
      && r == s.(selections := r.selections)
  {
    assert Settle(SelectOption(s, CurrentQuestion(s).id, oid)) == SelectOption(s, CurrentQuestion(s).id, oid);
  }

  /** Selecting again overwrites: only the last choice counts. */
  lemma ReselectOverwrites(s: AppState, a: int, b: int)
    requires Valid(s) && QuestionShown(s)
    requires HasOptionId(CurrentQuestion(s), a) && HasOptionId(CurrentQuestion(s), b)
    ensures Step(Step(s, Select(a)), Select(b)) == Step(s, Select(b))
  {
    var qid := CurrentQuestion(s).id;
    SelectRecords(s, a);
    var s1 := Step(s, Select(a));
    StepValid(s, Select(a));
    SelectRecords(s1, b);
    SelectRecords(s, b);
    assert s1.selections[qid := b] == s.selections[qid := b];
  }

  /** Next on a question before the last moves on by exactly one and scores
      nothing. */
  lemma NextAdvances(s: AppState)
    requires Valid(s) && QuestionShown(s) && !NextDisabled(s.selections, CurrentQuestion(s).id)
    requires (s.current as int) < |Questions(s)| - 1
    ensures var r := Step(s, Next);
      r == s.(current := s.current + 1) && r.score == 0 && !r.completed
  {
    assert Settle(NextQuestion(s)) == NextQuestion(s);
  }

  /** Next on the last question completes the attempt: the score is the
      number of questions answered with their key, the clock stops, the
      results tab shows, and confetti starts for 70 % or more. */
  lemma NextFinishes(s: AppState)
    requires Valid(s) && QuestionShown(s) && !NextDisabled(s.selections, CurrentQuestion(s).id)
    requires s.current as int == |Questions(s)| - 1
    ensures var r := Step(s, Next);
      && r.completed && !r.timerActive && r.tab == Results
      && r.score == Score(Questions(s), s.selections) <= |Questions(s)|
      && r.selections == s.selections && r.timer == s.timer
      && (r.confetti <==> s.confetti || 10 * r.score >= 7 * |Questions(s)|)
  {
    assert Settle(NextQuestion(s)) == NextQuestion(s);
  }

  /** The attempt completes only through Next on the last question. */
  lemma CompletesOnlyOnLastNext(s: AppState, e: Event)
    requires Valid(s) && !s.completed && Step(s, e).completed
    ensures e == Next && QuestionShown(s) && s.current as int == |Questions(s)| - 1
  {
    if e.Next? && QuestionShown(s) && !NextDisabled(s.selections, CurrentQuestion(s).id) {
      if (s.current as int) < |Questions(s)| - 1 {
        NextAdvances(s);
      }
    }
  }

  /** Abandoning goes back to the catalog with no quiz, but the clock keeps
      running, so every following second still counts. */
  lemma AbandonKeepsClockRunning(s: AppState)
    requires Valid(s) && QuestionShown(s)
    ensures var r := Step(s, Abandon);
      && r.tab == Explorer && r.quiz.None? && !r.completed
      && r.timerActive && Step(r, Second).timer == r.timer + 1
  {
  }

  /** Leaving the results tab for the catalog forgets the finished quiz. */
  lemma BackToQuizzesForgets(s: AppState)
    requires Valid(s) && s.tab == Results
    ensures var r := Step(s, BackToQuizzes);
      r.tab == Explorer && r.quiz.None? && !r.completed
  {
  }

  /** The clock only moves while it runs, one second at a time. */
  lemma SecondAdvancesRunningClock(s: AppState)
    ensures Step(s, Second).timer == if s.timerActive then s.timer + 1 else s.timer
  {
  }

  /** The three messages of the results tab (lines 497-501). */
  datatype Tier = Perfect | GoodWork | KeepLearning

  /** `score === n ? … : score >= n / 2 ? … : …`, over integers. */
  function TierOf(score: nat, n: nat): Tier {
    if score == n then Perfect else if 2 * score >= n then GoodWork else KeepLearning
  }

  function Rank(t: Tier): nat {
    match t
    case KeepLearning => 0
    case GoodWork => 1
    case Perfect => 2
  }

  /** A better score never earns a worse message, and the perfect message
      is the score of a quiz answered entirely with its keys. */
  lemma TierMonotone(a: nat, b: nat, n: nat)
    requires a <= b <= n
    ensures Rank(TierOf(a, n)) <= Rank(TierOf(b, n))
  {
  }

  lemma PerfectIffAllKeys(qs: seq<Question>, sel: Selections)
    ensures TierOf(Score(qs, sel), |qs|) == Perfect <==> forall i :: 0 <= i < |qs| ==> KeyMatches(sel, qs[i])
  {
  }

  /** Confetti comes with the perfect or the good-work message, and always
      with the perfect one. */
  lemma ConfettiTiers(score: nat, n: nat)
    requires score <= n
    ensures Confetti(score, n) ==> TierOf(score, n) != KeepLearning
    ensures TierOf(score, n) == Perfect ==> Confetti(score, n)
  {
  }

  /** One entry of the inline review (lines 522-555). `correctLine` is
      `None` when the line is not rendered and `Some(KeyAnswerText(q))`
      otherwise. */
  datatype ReviewRow = ReviewRow(number: nat, isCorrect: bool, answer: string, correctLine: Option<Option<string>>)

  function ReviewRowOf(q: Question, index: nat, sel: Selections): ReviewRow {
    var ok := KeyMatches(sel, q);
    ReviewRow(index + 1, ok, AnswerText(q, Lookup(sel, q.id)), if ok then None else Some(KeyAnswerText(q)))
  }

  function Review(qs: seq<Question>, sel: Selections): (rows: seq<ReviewRow>)
    ensures |rows| == |qs|
    ensures forall i :: 0 <= i < |qs| ==> rows[i] == ReviewRowOf(qs[i], i, sel)
  {
    seq(|qs|, i requires 0 <= i < |qs| => ReviewRowOf(qs[i], i, sel))
  }

  /** The review marks as right exactly as many questions as the score
      counts. */
  lemma {:induction false} ReviewCountsScore(qs: seq<Question>, sel: Selections)
    ensures Count(Review(qs, sel), (r: ReviewRow) => r.isCorrect) == Score(qs, sel)
    decreases |qs|
  {
    if |qs| > 0 {
      var rows := Review(qs, sel);
      CountSplit(rows, (r: ReviewRow) => r.isCorrect);
      CountSplit(qs, (q: Question) => KeyMatches(sel, q));
      var rest := Review(qs[1..], sel);
      var shifted := rows[1..];
      assert forall i :: 0 <= i < |rest| ==> shifted[i].isCorrect == rest[i].isCorrect;
      CountAcross(shifted, (r: ReviewRow) => r.isCorrect, rest, (r: ReviewRow) => r.isCorrect);
      ReviewCountsScore(qs[1..], sel);
    }
  }

  /** An unanswered question is reviewed as wrong, with the placeholder as
      the answer and the correct-answer line shown. */
  lemma UnansweredIsWrong(q: Question, index: nat, sel: Selections)
    requires q.id !in sel
    ensures var row := ReviewRowOf(q, index, sel);
      !row.isCorrect && row.answer == NoAnswer && row.correctLine.Some?
  {
  }

  /** The wizard's own copy of the difficulty badge classes (lines
      256-267). */
  function DifficultyColor(difficulty: string): string {
    match difficulty
    case "Débutant" => QuizUtils.Emerald
    case "Intermédiaire" => QuizUtils.Amber
    case "Avancé" => QuizUtils.Rose
    case _ => QuizUtils.Blue
  }

  /** It gives the same classes as the shared helper on every input. */
  lemma DifficultyColorAgrees(difficulty: string)
    ensures DifficultyColor(difficulty) == QuizUtils.DifficultyColor(difficulty)
  {
  }
}

=== FILE: quiz_card.dfy ===
/** A catalog card (src/components/quiz/QuizCard.jsx): what it shows of a
    quiz and the event its start button raises. */
module QuizCardView {
  import opened Wrappers
  import opened Text
  import opened QuizModel
  import Clock
  import QuizApp

  /** The clock line: `m:ss` from a truthy `timeLimit`, otherwise an
      estimate of thirty seconds per question. */
  function TimeText(q: Quiz): (r: string)
    ensures q.timeLimit != 0 ==> r == Clock.FormatTime(q.timeLimit)
  {
    var t := q.timeLimit;
    if t != 0 then
      assert PadStart(Digits(t % 60), 2, '0') == Clock.TwoDigits(t % 60) by {
        ValueOfDigits(t % 60);
        if t % 60 >= 10 {
          assert |Digits(t % 60)| == 2 by {
            assert Digits(t % 60) == Digits(t % 60 / 10) + [DigitChar(t % 60 % 10)];
          }
        }
      }
      Digits(t / 60) + ":" + PadStart(Digits(t % 60), 2, '0')
    else "~" + Digits(30 * |q.questions|) + " sec"
  }

  /** A card with a time limit shows exactly that many seconds. */
  lemma TimeLimitReadsBack(q: Quiz)
    requires q.timeLimit != 0
    ensures Clock.ParseClock(TimeText(q)) == Some(q.timeLimit)
  {
    Clock.ParseFormatTime(q.timeLimit);
  }

  /** A card without one shows "~", then thirty seconds per question, then
      " sec". */
  lemma EstimateReadsBack(q: Quiz)
    requires q.timeLimit == 0
    ensures var r := TimeText(q);
      |r| > 1 && r[0] == '~' && ParseIntPrefix(r[1..]) == Some(30 * |q.questions|)
  {
    var r := TimeText(q);
    assert r[1..] == Digits(30 * |q.questions|) + " sec";
    ParseIntPrefixDigits(30 * |q.questions|, " sec");
  }

  /** The professor line, rendered only for a quiz that has a professor. */
  function ProfessorLine(q: Quiz): (r: Option<string>)
    ensures r.Some? <==> q.professor.Some?
    ensures r.Some? ==> r.value == "Professeur : " + FullName(q.professor.value)
  {
    match q.professor
    case None => None
    case Some(p) => Some("Professeur : " + p.firstName + " " + p.lastName)
  }

  /** `onClick={() => startQuiz(quiz)}`. */
  function StartEvent(q: Quiz): QuizApp.Event {
    QuizApp.Start(q)
  }

  /** Pressing a card's button on the catalog starts that card's quiz. */
  lemma StartStartsThisQuiz(s: QuizApp.AppState, q: Quiz)
    requires s.tab == QuizApp.Explorer
    ensures QuizApp.Step(s, StartEvent(q)).quiz == Some(q)
  {
    QuizApp.StartBeginsAttempt(s, q);
  }
}

=== FILE: quiz_detail.dfy ===
/** A professor's view of one quiz (src/components/pages/quiz-detail.jsx):
    how the fetched questions are prepared for display, the one-time fetch,
    deleting a question, the subject palette and the points label. */
module QuizDetail {
  import opened Wrappers
  import opened Text
  import opened Seqs

  /** An option as the server sends it; `correct` is whether its flag is
      `=== true`. */
  datatype DetailOption = DetailOption(id: int, text: string, correct: bool)

  /** A fetched question; `options` is `None` when the field is missing, and
      `points` is 0 when missing, both being falsy. */
  datatype FetchedQuestion = FetchedQuestion(id: int, text: string, options: Option<seq<DetailOption>>, points: int)

  /** A question as the page keeps it: the fetched fields, the computed
      `correctOption` and a copy of the options. */
  datatype ShownQuestion = ShownQuestion(question: FetchedQuestion, correctOption: int, originalOptions: seq<DetailOption>)

  datatype RawQuiz = RawQuiz(title: string, category: string, questions: Option<seq<FetchedQuestion>>)

  datatype DetailQuiz = DetailQuiz(title: string, category: string, questions: seq<ShownQuestion>)

  /** `k || 0` for a number `k`: only 0 is falsy, so -1 passes through. */
  function OrZero(k: int): (r: int)
    ensures r == k
  {
    if k != 0 then k else 0
  }

  /** `question.options?.findIndex(opt => opt.correct === true) || 0`. */
  function CorrectIndex(options: Option<seq<DetailOption>>): int {
    match options
    case None => OrZero(0)
    case Some(os) => OrZero(FindIndex(os, (o: DetailOption) => o.correct))
  }

  /** The index is the first flagged option; with options but no flag it is
      -1, not 0, since the fallback never fires on -1. The `|| 0` fallback
      fires only without options; index 0 also arises when the first option
      is flagged. */
  lemma CorrectIndexIsFirstFlag(options: Option<seq<DetailOption>>)
    ensures options.None? ==> CorrectIndex(options) == 0
    ensures options.Some? ==>
      var os := options.value; var k := CorrectIndex(options);
      && -1 <= k < |os|
      && (k == -1 <==> forall i :: 0 <= i < |os| ==> !os[i].correct)
      && (k >= 0 ==> os[k].correct && forall j :: 0 <= j < k ==> !os[j].correct)
  {
  }

  /** One question prepared for display; `None` when it has no options, for
      copying a missing array throws and the whole load fails. */
  function Prepare(q: FetchedQuestion): (r: Option<ShownQuestion>)
    ensures r.Some? <==> q.options.Some?
    ensures r.Some? ==> r.value.question == q && r.value.originalOptions == q.options.value
                        && r.value.correctOption == CorrectIndex(q.options)
  {
    match q.options
    case None => None
    case Some(os) => Some(ShownQuestion(q, CorrectIndex(q.options), os))
  }

  /** `data.questions?.map(...) || []`, where any question without options
      makes the map throw. */
  function PrepareAll(qs: seq<FetchedQuestion>): (r: Option<seq<ShownQuestion>>)
    ensures r.Some? <==> forall i :: 0 <= i < |qs| ==> qs[i].options.Some?
    ensures r.Some? ==> |r.value| == |qs| && forall i :: 0 <= i < |qs| ==> Some(r.value[i]) == Prepare(qs[i])
    decreases |qs|
  {
    if |qs| == 0 then Some([])
    else
      assert forall i :: 0 <= i < |qs| - 1 ==> qs[1..][i] == qs[i + 1];
      match (Prepare(qs[0]), PrepareAll(qs[1..]))
      case (Some(s), Some(rest)) => Some([s] + rest)
      case (_, _) => None
  }

  function Process(data: RawQuiz): (r: Option<DetailQuiz>)
    ensures data.questions.None? ==> r == Some(DetailQuiz(data.title, data.category, []))
  {
    match data.questions
    case None => Some(DetailQuiz(data.title, data.category, []))
    case Some(qs) =>
      match PrepareAll(qs)
      case Some(shown) => Some(DetailQuiz(data.title, data.category, shown))
      case None => None
  }

  /** The prepared questions follow the fetched ones one for one and in
      order; a missing list becomes the empty one. */
  lemma ProcessKeepsQuestions(data: RawQuiz)
    requires data.questions.Some? ==> forall i :: 0 <= i < |data.questions.value| ==> data.questions.value[i].options.Some?
    ensures var r := Process(data);
      && r.Some? && r.value.title == data.title
      && (data.questions.Some? ==>
            |r.value.questions| == |data.questions.value|
            && forall i :: 0 <= i < |r.value.questions| ==>
                 r.value.questions[i].question == data.questions.value[i]
                 && r.value.questions[i].originalOptions == data.questions.value[i].options.value)
  {
    if data.questions.Some? {
      var qs := data.questions.value;
      var shown := PrepareAll(qs).value;
      forall i | 0 <= i < |shown|
        ensures shown[i].question == qs[i] && shown[i].originalOptions == qs[i].options.value
      {
        assert Some(shown[i]) == Prepare(qs[i]);
      }
    }
  }

  // ---------------------------------------------------------------------
  // The page

  const LoadFailedMessage := "Impossible de charger le quiz. Veuillez réessayer plus tard."
  const DeleteFailedMessage := "Erreur lors de la suppression de la question."

  datatype Page = Page(quiz: Option<DetailQuiz>, loading: bool, error: Option<string>,
                       dialogOpen: bool, questionToDelete: Option<FetchedQuestion>, hasFetched: bool)

  function InitialPage(): Page {
    Page(None, true, None, false, None, false)
  }

  /** Whether the effect starts a fetch. `ready` is `isLoaded && user &&
      quizId`. */
  predicate StartsFetch(p: Page, ready: bool) {
    !p.hasFetched && ready
  }

  /** `fetchQuiz` run to its end with the server's answer (`None` for a
      failed request). It marks the page fetched whatever happens. */
  function Fetch(p: Page, ready: bool, response: Option<RawQuiz>): (r: Page)
    ensures !StartsFetch(p, ready) ==> r == p
    ensures StartsFetch(p, ready) ==> r.hasFetched && !r.loading
    ensures p.hasFetched ==> r.hasFetched
  {
    if !StartsFetch(p, ready) then p
    else
      var processed := if response.Some? then Process(response.value) else None;
      match processed
      case Some(q) => p.(quiz := Some(q), error := None, loading := false, hasFetched := true)
      case None => p.(error := Some(LoadFailedMessage), loading := false, hasFetched := true)
  }

  /** The number of fetches a run of effect firings starts. */
  function FetchCount(p: Page, firings: seq<(bool, Option<RawQuiz>)>): nat
    decreases |firings|
  {
    if |firings| == 0 then 0
    else
      var (ready, response) := firings[0];
      (if StartsFetch(p, ready) then 1 else 0) + FetchCount(Fetch(p, ready, response), firings[1..])
  }

  /** However often the effect fires, the quiz is fetched at most once, and
      not at all once the page is marked fetched. */
  lemma {:induction false} FetchesAtMostOnce(p: Page, firings: seq<(bool, Option<RawQuiz>)>)
    ensures FetchCount(p, firings) <= 1
    ensures p.hasFetched ==> FetchCount(p, firings) == 0
    decreases |firings|
  {
    if |firings| > 0 {
      var (ready, response) := firings[0];
      FetchesAtMostOnce(Fetch(p, ready, response), firings[1..]);
    }
  }

  /** The trash button opens the dialog for that question. */
  function ConfirmDelete(p: Page, q: FetchedQuestion): (r: Page)
    ensures r.dialogOpen && r.questionToDelete == Some(q)
  {
    p.(questionToDelete := Some(q), dialogOpen := true)
  }

  /** `handleDeleteQuestion` with the server's verdict `ok`. With no
      question chosen or no user it does nothing. Once the server agrees,
      a page without a quiz fails on reading its questions. */
  function DeleteQuestion(p: Page, userPresent: bool, ok: bool): (r: Page)
    ensures p.questionToDelete.None? || !userPresent ==> r == p
  {
    if p.questionToDelete.None? || !userPresent then p
    else if ok && p.quiz.Some? then
      var id := p.questionToDelete.value.id;
      var q := p.quiz.value;
      p.(quiz := Some(q.(questions := Filter(q.questions, (s: ShownQuestion) => s.question.id != id))),
         dialogOpen := false, questionToDelete := None, loading := false)
    else p.(error := Some(DeleteFailedMessage), loading := false)
  }

  /** A successful delete drops exactly the questions with the deleted id,
      keeps the others in order, and closes the dialog; a failed one keeps
      every question and reports the error. */
  lemma DeleteRemovesThatQuestion(p: Page, userPresent: bool, ok: bool)
    requires p.questionToDelete.Some? && userPresent && p.quiz.Some?
    ensures var r := DeleteQuestion(p, userPresent, ok); var id := p.questionToDelete.value.id;
      var before := p.quiz.value.questions;
      && (ok ==>
            && r.quiz.Some?
            && IsSubsequence(r.quiz.value.questions, before)
            && (forall i :: 0 <= i < |r.quiz.value.questions| ==> r.quiz.value.questions[i].question.id != id)
            && (forall i :: 0 <= i < |before| && before[i].question.id != id ==> before[i] in r.quiz.value.questions)
            && !r.dialogOpen && r.questionToDelete.None?)
      && (!ok ==> r.quiz == p.quiz && r.error == Some(DeleteFailedMessage))
  {
    FilterIsSubsequence(p.quiz.value.questions, (s: ShownQuestion) => s.question.id != p.questionToDelete.value.id);
  }

  // ---------------------------------------------------------------------
  // Display helpers

  const Gray := "from-gray-500 to-slate-600"

  /** The gradient of each known subject. */
  function SubjectColors(subject: string): Option<string> {
    if subject == "Programmation" then Some("from-emerald-500 to-teal-600")
    else if subject == "Framework" then Some("from-violet-500 to-purple-600")
    else if subject == "Frontend" then Some("from-rose-500 to-pink-600")
    else if subject == "Backend" then Some("from-blue-500 to-cyan-600")
    else if subject == "DevOps" then Some("from-amber-500 to-yellow-600")
    else if subject == "Database" then Some("from-indigo-500 to-blue-600")
    else if subject == "Math" then Some("from-green-500 to-emerald-600")
    else None
  }

  function Subjects(): seq<string> {
    ["Programmation", "Framework", "Frontend", "Backend", "DevOps", "Database", "Math"]
  }

  /** `getSubjectColor`: the subject's gradient, gray for any other. */
  function SubjectColor(subject: string): (r: string)
    ensures r != ""
    ensures subject !in Subjects() <==> r == Gray
  {
    match SubjectColors(subject)
    case Some(c) => c
    case None => Gray
  }

  /** The seven subjects have seven different gradients. */
  lemma SubjectColorsDistinct()
    ensures forall i, j :: 0 <= i < j < |Subjects()| ==> SubjectColor(Subjects()[i]) != SubjectColor(Subjects()[j])
  {
  }

  /** `{question.points || 1} {(question.points || 1) > 1 ? "points" : "point"}`. */
  function PointsLabel(points: int): string {
    var p := if points != 0 then points else 1;
    IntToString(p) + " " + (if p > 1 then "points" else "point")
  }

  /** A missing or zero value counts as one point. */
  lemma PointsLabelDefault()
    ensures PointsLabel(0) == "1 point"
  {
    assert Digits(1) == "1";
  }

  /** A positive value reads back from the label, which is plural exactly
      above one. */
  lemma PointsLabelReads(points: nat)
    requires points > 0
    ensures var text := PointsLabel(points);
      ParseIntPrefix(text) == Some(points as int)
      && (text[|text| - 1] == 's' <==> points > 1)
  {
    var rest := if points > 1 then " points" else " point";
    assert IntToString(points) == Digits(points);
    assert PointsLabel(points) == Digits(points) + rest;
    ParseIntPrefixDigits(points, rest);
  }
}

=== FILE: quiz_list.dfy ===
/** A professor's list of quizzes (src/components/pages/quiz-list.jsx): the
    guarded fetch, the refetch on window focus at most every thirty seconds,
    deleting a quiz, the card colour and the empty state. */
module QuizList {
  import opened Wrappers
  import opened Text
  import opened Seqs
  import QuizDetail

  /** The fields of a listed quiz the page reads; a missing string is "". */
  datatype ListQuiz = ListQuiz(id: int, title: string, color: string, category: string, subject: string)

  /** The page's state, with the two refs `lastFetchTimeRef` (in ms) and
      `fetchInProgressRef`. */
  datatype ListPage = ListPage(quizzes: seq<ListQuiz>, loading: bool, error: Option<string>,
                               dialogOpen: bool, quizToDelete: Option<ListQuiz>,
                               inProgress: bool, lastFetch: int)

  function InitialPage(): ListPage {
    ListPage([], true, None, false, None, false, 0)
  }

  const RefetchInterval := 30000
  const LoadFailedMessage := "Impossible de charger les quiz. Veuillez réessayer plus tard."
  const DeleteFailedPrefix := "Erreur lors de la suppression du quiz: "

  /** `fetchQuizzes` up to the request: nothing while a fetch is in
      progress; otherwise the flag is raised and, with a user, the request is
      sent; without one the `finally` lowers it again at once. The boolean
      says whether a request went out. */
  function BeginFetch(p: ListPage, userPresent: bool): (ListPage, bool) {
    if p.inProgress then (p, false)
    else if !userPresent then (p.(loading := false, inProgress := false), false)
    else (p.(loading := true, inProgress := true), true)
  }

  /** The end of the fetch: the answer (`None` for a failure) at time `now`.
      The time is recorded only after a successful response. */
  function FinishFetch(p: ListPage, response: Option<seq<ListQuiz>>, now: int): (r: ListPage)
    ensures !r.loading && !r.inProgress
  {
    match response
    case Some(data) => p.(quizzes := data, error := None, lastFetch := now, loading := false, inProgress := false)
    case None => p.(error := Some(LoadFailedMessage), loading := false, inProgress := false)
  }

  /** A fetch never overlaps another: a request goes out only when none is
      in progress and there is a user, and it leaves one in progress. */
  lemma BeginFetchGuards(p: ListPage, userPresent: bool)
    ensures p.inProgress ==> BeginFetch(p, userPresent) == (p, false)
    ensures var (r, sent) := BeginFetch(p, userPresent);
      && (sent <==> !p.inProgress && userPresent)
      && (sent ==> r.inProgress && r.loading && r.quizzes == p.quizzes && r.lastFetch == p.lastFetch)
      && (!sent ==> r.lastFetch == p.lastFetch && r.quizzes == p.quizzes)
  {
  }

  /** The time of the last fetch moves only on success; the list changes
      only on success, to exactly what the server sent. */
  lemma FinishFetchRecords(p: ListPage, response: Option<seq<ListQuiz>>, now: int)
    ensures var r := FinishFetch(p, response, now);
      && (r.lastFetch != p.lastFetch ==> response.Some?)
      && (response.Some? ==> r.lastFetch == now && r.quizzes == response.value && r.error.None?)
      && (response.None? ==> r.quizzes == p.quizzes && r.error == Some(LoadFailedMessage))
  {
  }

  /** `handleFocus`: with a user, while mounted, more than thirty seconds
      after the last successful fetch and with no fetch in progress. */
  predicate FocusRefetches(p: ListPage, userPresent: bool, mounted: bool, now: int) {
    userPresent && mounted && now - p.lastFetch > RefetchInterval && !p.inProgress
  }

  function Focus(p: ListPage, userPresent: bool, mounted: bool, now: int): (ListPage, bool) {
    if FocusRefetches(p, userPresent, mounted, now) then BeginFetch(p, userPresent) else (p, false)
  }

  /** Focusing the window refetches exactly when the throttle allows; in
      particular never within thirty seconds of a successful fetch, and
      never during one. */
  lemma FocusThrottled(p: ListPage, data: seq<ListQuiz>, t: int, userPresent: bool, mounted: bool, now: int)
    ensures Focus(p, userPresent, mounted, now).1 <==> FocusRefetches(p, userPresent, mounted, now)
    ensures now - t <= RefetchInterval ==> !Focus(FinishFetch(p, Some(data), t), userPresent, mounted, now).1
    ensures p.inProgress ==> Focus(p, userPresent, mounted, now) == (p, false)
  {
  }

  /** The trash button opens the dialog for that quiz. */
  function ConfirmDelete(p: ListPage, q: ListQuiz): (r: ListPage)
    ensures r.dialogOpen && r.quizToDelete == Some(q)
  {
    p.(quizToDelete := Some(q), dialogOpen := true)
  }

  /** The server's answer to the delete: done, or failed with a message. */
  datatype DeleteOutcome = Deleted | DeleteFailed(message: string)

  /** `handleDeleteQuiz`. With no quiz chosen or no user it does nothing. */
  function DeleteQuiz(p: ListPage, userPresent: bool, outcome: DeleteOutcome): (r: ListPage)
    ensures p.quizToDelete.None? || !userPresent ==> r == p
  {
    if p.quizToDelete.None? || !userPresent then p
    else match outcome
      case Deleted =>
        var id := p.quizToDelete.value.id;
        p.(quizzes := Filter(p.quizzes, (q: ListQuiz) => q.id != id),
           dialogOpen := false, quizToDelete := None, loading := false)
      case DeleteFailed(m) => p.(error := Some(DeleteFailedPrefix + m), loading := false)
  }

  /** A successful delete removes only the quiz with that id, keeping the
      others in order; a failed one keeps the list and shows the reason. */
  lemma DeleteRemovesThatQuiz(p: ListPage, outcome: DeleteOutcome)
    requires p.quizToDelete.Some?
    ensures var r := DeleteQuiz(p, true, outcome); var id := p.quizToDelete.value.id;
      && (outcome.Deleted? ==>
            && IsSubsequence(r.quizzes, p.quizzes)
            && (forall i :: 0 <= i < |r.quizzes| ==> r.quizzes[i].id != id)
            && (forall i :: 0 <= i < |p.quizzes| && p.quizzes[i].id != id ==> p.quizzes[i] in r.quizzes)
            && !r.dialogOpen && r.quizToDelete.None?)
      && (outcome.DeleteFailed? ==>
            r.quizzes == p.quizzes && r.error == Some(DeleteFailedPrefix + outcome.message))
  {
    FilterIsSubsequence(p.quizzes, (q: ListQuiz) => q.id != p.quizToDelete.value.id);
  }

  /** With distinct ids, a successful delete shortens the list by one when
      the quiz is listed. */
  lemma DeleteShortensByOne(p: ListPage)
    requires p.quizToDelete.Some?
    requires NoDuplicates(Map(p.quizzes, (q: ListQuiz) => q.id))
    requires exists i :: 0 <= i < |p.quizzes| && p.quizzes[i].id == p.quizToDelete.value.id
    ensures |DeleteQuiz(p, true, Deleted).quizzes| == |p.quizzes| - 1
  {
    var id := p.quizToDelete.value.id;
    var k :| 0 <= k < |p.quizzes| && p.quizzes[k].id == id;
    var ids := Map(p.quizzes, (q: ListQuiz) => q.id);
    assert forall i :: 0 <= i < |p.quizzes| ==> ids[i] == p.quizzes[i].id;
    CountAt(p.quizzes, (q: ListQuiz) => q.id == id, k);
    CountComplement(p.quizzes, (q: ListQuiz) => q.id == id, (q: ListQuiz) => q.id != id);
  }

  /** The list's own copy of the subject gradients. */
  function SubjectGradient(subject: string): Option<string> {
    match subject
    case "Programmation" => Some("from-emerald-500 to-teal-600")
    case "Framework" => Some("from-violet-500 to-purple-600")
    case "Frontend" => Some("from-rose-500 to-pink-600")
    case "Backend" => Some("from-blue-500 to-cyan-600")
    case "DevOps" => Some("from-amber-500 to-yellow-600")
    case "Database" => Some("from-indigo-500 to-blue-600")
    case "Math" => Some("from-green-500 to-emerald-600")
    case _ => None
  }

  /** `getQuizColor`: the quiz's own colour when it has one, else the
      gradient of its category, or of its subject when it has no category,
      else gray. */
  function QuizColor(q: ListQuiz): (r: string)
    ensures r != ""
    ensures q.color != "" ==> r == q.color
  {
    if q.color != "" then q.color
    else SubjectGradient(OrElse(q.category, q.subject)).GetOr(QuizDetail.Gray)
  }

  /** Without its own colour a quiz gets the colour the detail page gives
      its category, or its subject when the category is empty. */
  lemma QuizColorFallsBackToSubject(q: ListQuiz)
    requires q.color == ""
    ensures QuizColor(q) == QuizDetail.SubjectColor(if q.category != "" then q.category else q.subject)
  {
  }

  /** The empty state: not loading, no error and no quiz. */
  predicate ShowsEmptyState(p: ListPage) {
    !p.loading && p.error.None? && |p.quizzes| == 0
  }

  /** The spinner shown before any quiz is listed. */
  predicate ShowsSpinner(p: ListPage) {
    p.loading && |p.quizzes| == 0
  }

  /** The empty state and the spinner never show together; a successful
      fetch of no quiz shows the empty state, a failed one never does. */
  lemma EmptyStateShows(p: ListPage, response: Option<seq<ListQuiz>>, now: int)
    ensures !(ShowsEmptyState(p) && ShowsSpinner(p))
    ensures response == Some([]) ==> ShowsEmptyState(FinishFetch(p, response, now))
    ensures response.None? ==> !ShowsEmptyState(FinishFetch(p, response, now))
    ensures response.Some? && response.value != [] ==> !ShowsEmptyState(FinishFetch(p, response, now))
  {
  }
}

=== FILE: quiz_model.dfy ===
/** The records the quiz components exchange: a quiz with its questions, a
    question with its answer options, and the answers a student has picked
    so far (`selectedOptions`, an object from question id to option id). */
module QuizModel {
  import opened Wrappers

  /** An answer option. `correct` is the server's flag (`option.correct ===
      true`); an option without the flag, as in the built-in sample quizzes,
      carries `false`. */
  datatype Choice = Choice(id: int, text: string, correct: bool)

  /** A question: its options and the id of the option that answers it. */
  datatype Question = Question(id: int, text: string, options: seq<Choice>, correctOptionId: int)

  datatype Professor = Professor(firstName: string, lastName: string)

  /** A quiz as the catalog shows it. `timeLimit` is a number of seconds, 0
      when the quiz has none (both are falsy for the card). */
  datatype Quiz = Quiz(
    id: int,
    title: string,
    description: string,
    category: string,
    difficulty: string,
    color: string,
    timeLimit: nat,
    professor: Option<Professor>,
    questions: seq<Question>)

  /** `selectedOptions`: question id to the id of the option picked for it. */
  type Selections = map<int, int>

  /** `selectedOptions[questionId]`: `None` stands for `undefined`. */
  function Lookup(sel: Selections, questionId: int): (r: Option<int>)
    ensures r.Some? <==> questionId in sel
    ensures r.Some? ==> r.value == sel[questionId]
  {
    if questionId in sel then Some(sel[questionId]) else None
  }

  /** `${firstName} ${lastName}`, the professor's name as the catalog shows
      and filters it. */
  function FullName(p: Professor): string {
    p.firstName + " " + p.lastName
  }

  /** Some question of `qs` has the id `id`. */
  predicate HasQuestionId(qs: seq<Question>, id: int) {
    exists i :: 0 <= i < |qs| && qs[i].id == id
  }

  /** Some option of `q` has the id `id`. */
  predicate HasOptionId(q: Question, id: int) {
    exists i :: 0 <= i < |q.options| && q.options[i].id == id
  }

  predicate UniqueOptionIds(q: Question) {
    forall i, j :: 0 <= i < |q.options| && 0 <= j < |q.options| && q.options[i].id == q.options[j].id ==> i == j
  }
}

=== FILE: quiz_tab.dfy ===
/** The question card of an attempt (src/components/quiz/QuizTab.jsx, and the
    same markup inline in src/components/quiz-app.jsx:388-455): the counter,
    the progress bar, the Next button's label and gating, and "Abandonner". */
module QuizTabView {
  import opened Wrappers
  import opened Text
  import opened QuizModel
  import QuizApp

  /** The Next button's caption. */
  function NextLabel(current: nat, n: nat): (r: string)
    ensures r == "Question Suivante" <==> (current as int) < n - 1
    ensures r == "Question Suivante" || r == "Terminer le Quiz"
  {
    if (current as int) < n - 1 then "Question Suivante" else "Terminer le Quiz"
  }

  /** "Question {current + 1} sur {n}". */
  function Counter(current: nat, n: nat): string {
    "Question " + Digits(current + 1) + " sur " + Digits(n)
  }

  lemma CounterShape(current: nat, n: nat)
    ensures Counter(current, n) == "Question " + (Digits(current + 1) + (" sur " + Digits(n)))
  {
  }

  lemma PrefixAndRest(a: string, t: string)
    ensures (a + t)[..|a|] == a && (a + t)[|a|..] == t
  {
  }

  /** The counter names the question shown, numbered from one. */
  lemma CounterReadsBack(current: nat, n: nat)
    ensures var c := Counter(current, n);
      |c| > 9 && c[..9] == "Question " && ParseIntPrefix(c[9..]) == Some(current + 1)
  {
    var t := Digits(current + 1) + (" sur " + Digits(n));
    CounterShape(current, n);
    PrefixAndRest("Question ", t);
    ParseIntPrefixDigits(current + 1, " sur " + Digits(n));
  }

  /** The progress value `(current + 1) / n * 100`, kept as the fraction
      `numerator / denominator`. */
  datatype Fraction = Fraction(numerator: nat, denominator: nat)

  function Progress(current: nat, n: nat): (p: Fraction)
    ensures p.denominator == n
    ensures p.numerator == 100 * (current + 1)
  {
    Fraction(100 * (current + 1), n)
  }

  /** For a question of the quiz the bar is strictly between empty and full,
      full exactly on the last question, and it grows with each question. */
  lemma ProgressBounds(current: nat, n: nat)
    requires current < n
    ensures var p := Progress(current, n);
      0 < p.numerator <= 100 * p.denominator
      && (p.numerator == 100 * p.denominator <==> current == n - 1)
  {
  }

  lemma ProgressGrows(current: nat, n: nat)
    requires current + 1 < n
    ensures Progress(current, n).numerator < Progress(current + 1, n).numerator
  {
  }

  /** The controls of the card as the state shows them. */
  datatype View = View(counter: string, progress: Fraction, nextLabel: string, nextDisabled: bool)

  function ViewOf(s: QuizApp.AppState): View
    requires QuizApp.QuestionShown(s)
  {
    var n := |QuizApp.Questions(s)|;
    View(Counter(s.current, n), Progress(s.current, n), NextLabel(s.current, n),
         QuizApp.NextDisabled(s.selections, QuizApp.CurrentQuestion(s).id))
  }

  /** The button is disabled exactly when pressing it would do nothing, and
      it says "Terminer le Quiz" exactly when pressing it completes the
      attempt. */
  lemma NextButtonMatchesStep(s: QuizApp.AppState)
    requires QuizApp.Valid(s) && QuizApp.QuestionShown(s)
    ensures ViewOf(s).nextDisabled <==> QuizApp.Step(s, QuizApp.Next) == s
    ensures !ViewOf(s).nextDisabled ==>
      (ViewOf(s).nextLabel == "Terminer le Quiz" <==> QuizApp.Step(s, QuizApp.Next).completed)
  {
    if !ViewOf(s).nextDisabled {
      if (s.current as int) < |QuizApp.Questions(s)| - 1 {
        QuizApp.NextAdvances(s);
      } else {
        QuizApp.NextFinishes(s);
      }
    }
  }

  /** "Abandonner" raises the reset. */
  function AbandonEvent(): QuizApp.Event {
    QuizApp.Abandon
  }

  lemma AbandonResets(s: QuizApp.AppState)
    requires QuizApp.Valid(s) && QuizApp.QuestionShown(s)
    ensures QuizApp.Step(s, AbandonEvent()) == QuizApp.Settle(QuizApp.ResetQuiz(s))
    ensures QuizApp.Step(s, AbandonEvent()).tab == QuizApp.Explorer
  {
  }
}

=== FILE: quiz_utils.dfy ===
/** The shared presentation helpers (src/utils/quiz-utils.js): the badge
    classes of a difficulty level and the base colour of a gradient such as
    "from-purple-500". */
module QuizUtils {
  import opened Wrappers
  import opened Text

  const Emerald: string := "bg-emerald-100 text-emerald-800 dark:bg-emerald-900/30 dark:text-emerald-300"
  const Amber: string := "bg-amber-100 text-amber-800 dark:bg-amber-900/30 dark:text-amber-300"
  const Rose: string := "bg-rose-100 text-rose-800 dark:bg-rose-900/30 dark:text-rose-300"
  const Blue: string := "bg-blue-100 text-blue-800 dark:bg-blue-900/30 dark:text-blue-300"

  /** `getDifficultyColor`: one class string per known level, blue for
      anything else. */
  function DifficultyColor(difficulty: string): (r: string)
    ensures r == Emerald <==> difficulty == "Débutant"
    ensures r == Amber <==> difficulty == "Intermédiaire"
    ensures r == Rose <==> difficulty == "Avancé"
    ensures r == Blue <==> difficulty !in {"Débutant", "Intermédiaire", "Avancé"}
  {
    if difficulty == "Débutant" then Emerald
    else if difficulty == "Intermédiaire" then Amber
    else if difficulty == "Avancé" then Rose
    else Blue
  }

  const DefaultColor: string := "purple"

  /** `extractColorBase(colorScheme)`: the second "-"-separated piece, or
      "purple" when the scheme is absent, empty or has no "-". `None` stands
      for `undefined` or `null`. */
  function ExtractColorBase(colorScheme: Option<string>): (r: string)
    ensures '-' !in r
    ensures colorScheme.None? || colorScheme.value == "" || '-' !in colorScheme.value ==> r == DefaultColor
  {
    if colorScheme.None? || colorScheme.value == "" then DefaultColor
    else
      var parts := Split(colorScheme.value, '-');
      assert '-' !in colorScheme.value ==> |parts| == 1 by {
        if '-' !in colorScheme.value {
          SplitWithoutSep(colorScheme.value, '-');
        }
      }
      if |parts| <= 1 then DefaultColor else parts[1]
  }

  /** The piece between the first and the second "-" is what comes back:
      for a scheme assembled from "-"-free pieces, it is the second piece. */
  lemma {:induction false} ExtractColorBaseOfJoin(parts: seq<string>)
    requires |parts| >= 2
    requires forall i :: 0 <= i < |parts| ==> '-' !in parts[i]
    ensures ExtractColorBase(Some(Join(parts, '-'))) == parts[1]
  {
    SplitJoin(parts, '-');
    assert Join(parts, '-') != "" by {
      assert Join(parts, '-') == parts[0] + ['-'] + Join(parts[1..], '-');
    }
  }

  /** The result can be empty: "a--b" gives "". */
  lemma ExtractCanBeEmpty()
    ensures ExtractColorBase(Some("a--b")) == ""
  {
    ExtractColorBaseOfJoin(["a", "", "b"]);
    assert Join(["a", "", "b"], '-') == "a--b";
  }
}

/** The older copy of `getDifficultyColor` (src/components/quiz/quiz-utils.js). */
module QuizUtilsCopy {
  import QuizUtils

  function DifficultyColor(difficulty: string): string {
    match difficulty
    case "Débutant" => QuizUtils.Emerald
    case "Intermédiaire" => QuizUtils.Amber
    case "Avancé" => QuizUtils.Rose
    case _ => QuizUtils.Blue
  }

  /** The copy and the shared helper give the same classes for every
      level. */
  lemma CopyAgrees(difficulty: string)
    ensures DifficultyColor(difficulty) == QuizUtils.DifficultyColor(difficulty)
  {
  }
}

=== FILE: results.dfy ===
/** One reviewed question (src/components/quiz/ReviewOptionItem.jsx). It
    judges the answer by the selected option's `correct` flag. */
module ReviewOptionItemView {
  import opened Wrappers
  import opened QuizModel
  import opened Scoring

  /** What the item shows: the number, the verdict, "your answer", and the
      correct-answer line when the verdict is negative. */
  datatype ItemView = ItemView(number: nat, isCorrect: bool, answer: string, correctLine: Option<string>)

  function Render(q: Question, index: nat, selectedOptionId: Option<int>): (v: ItemView)
    ensures v.number == index + 1
    ensures v.isCorrect <==> SelectedChoice(q, selectedOptionId).Some? && SelectedChoice(q, selectedOptionId).value.correct
    ensures v.correctLine.Some? <==> !v.isCorrect
    ensures selectedOptionId.None? ==> !v.isCorrect && v.answer == NoAnswer
    ensures v.answer == AnswerText(q, selectedOptionId)
    ensures !v.isCorrect ==> v.correctLine == Some(FlagAnswerText(q))
  {
    var ok := FlagCorrect(q, selectedOptionId);
    ItemView(index + 1, ok, AnswerText(q, selectedOptionId), if ok then None else Some(FlagAnswerText(q)))
  }
}

/** The review list (src/components/quiz/ReviewOptionList.jsx): a heading,
    then one item per question in order. */
module ReviewOptionListView {
  import opened Wrappers
  import opened Seqs
  import opened QuizModel
  import opened Scoring
  import ReviewOptionItemView

  /** The props of one `ReviewOptionItem`, with its React key. */
  datatype Entry = Entry(key: int, question: Question, index: nat, selectedOptionId: Option<int>)

  datatype Block = Heading | Item(entry: Entry)

  function EntryOf(qs: seq<Question>, sel: Selections, i: nat): Entry
    requires i < |qs|
  {
    Entry(qs[i].id, qs[i], i, Lookup(sel, qs[i].id))
  }

  function Entries(qs: seq<Question>, sel: Selections): (r: seq<Entry>)
    ensures |r| == |qs|
    ensures forall i :: 0 <= i < |qs| ==> r[i] == EntryOf(qs, sel, i)
  {
    seq(|qs|, i requires 0 <= i < |qs| => EntryOf(qs, sel, i))
  }

  /** What the list renders, top to bottom. */
  function Blocks(qs: seq<Question>, sel: Selections): seq<Block> {
    [Heading] + Map(Entries(qs, sel), (e: Entry) => Item(e))
  }

  /** The heading comes once, first; then every question has its item in
      order, keyed by its id, numbered by its position, with its own
      selection. */
  lemma BlocksLayout(qs: seq<Question>, sel: Selections)
    ensures var b := Blocks(qs, sel);
      && |b| == |qs| + 1
      && b[0] == Heading
      && (forall i :: 1 <= i < |b| ==> b[i].Item?)
      && (forall i :: 0 <= i < |qs| ==>
            b[i + 1].entry.question == qs[i] && b[i + 1].entry.key == qs[i].id
            && b[i + 1].entry.index == i && b[i + 1].entry.selectedOptionId == Lookup(sel, qs[i].id))
  {
    var items := Map(Entries(qs, sel), (e: Entry) => Item(e));
    var b := [Heading] + items;
    forall i | 0 <= i < |qs|
      ensures b[i + 1] == Item(EntryOf(qs, sel, i))
    {
      assert b[i + 1] == items[i];
    }
  }

  function Rendered(qs: seq<Question>, sel: Selections): (r: seq<ReviewOptionItemView.ItemView>)
    ensures |r| == |qs|
  {
    Map(Entries(qs, sel), (e: Entry) => ReviewOptionItemView.Render(e.question, e.index, e.selectedOptionId))
  }

  /** The number of items shown as right is the flag score, and on a quiz
      whose flags follow its keys it is the wizard's score. */
  lemma RenderedCountsFlagScore(qs: seq<Question>, sel: Selections)
    ensures Count(Rendered(qs, sel), (v: ReviewOptionItemView.ItemView) => v.isCorrect) == FlagScore(qs, sel)
    ensures (forall i :: 0 <= i < |qs| ==> FlagsFollowKey(qs[i])) ==>
      Count(Rendered(qs, sel), (v: ReviewOptionItemView.ItemView) => v.isCorrect) == Score(qs, sel)
  {
    var r := Rendered(qs, sel);
    forall i | 0 <= i < |r|
      ensures r[i].isCorrect == FlagCorrect(qs[i], Lookup(sel, qs[i].id))
    {
      assert Entries(qs, sel)[i] == EntryOf(qs, sel, i);
    }
    CountAcross(r, (v: ReviewOptionItemView.ItemView) => v.isCorrect,
                qs, (q: Question) => FlagCorrect(q, Lookup(sel, q.id)));
    if forall i :: 0 <= i < |qs| ==> FlagsFollowKey(qs[i]) {
      ScoresAgree(qs, sel);
    }
  }
}

/** The results card (src/components/quiz/ResultsTab.jsx): the score over the
    number of questions, the tier message, the elapsed time, the review and
    the way back to the catalog. */
module ResultsTabView {
  import opened Wrappers
  import opened Text
  import opened QuizModel
  import QuizApp
  import Clock
  import ReviewOptionListView

  /** "{score}/{n}". */
  function ScoreText(score: nat, n: nat): string {
    Digits(score) + "/" + Digits(n)
  }

  /** The score text splits back into the score and the number of
      questions. */
  lemma ScoreTextReadsBack(score: nat, n: nat)
    ensures var parts := Split(ScoreText(score, n), '/');
      |parts| == 2 && ParseNat(parts[0]) == Some(score) && ParseNat(parts[1]) == Some(n)
  {
    DigitsExclude(Digits(score), '/');
    DigitsExclude(Digits(n), '/');
    SplitAtSep(Digits(score), Digits(n), '/');
    SplitWithoutSep(Digits(n), '/');
    assert ScoreText(score, n) == Digits(score) + ['/'] + Digits(n);
    ParseNatDigits(score);
    ParseNatDigits(n);
  }

  datatype View = View(scoreText: string, tier: QuizApp.Tier, time: string, review: seq<ReviewOptionListView.Block>)

  /** The card for a chosen quiz: the review gets the quiz's questions and
      the selections unchanged. */
  function ViewOf(q: Quiz, score: nat, timer: nat, sel: Selections): (v: View)
    ensures v.review == ReviewOptionListView.Blocks(q.questions, sel)
    ensures v.scoreText == ScoreText(score, |q.questions|)
    ensures v.tier == QuizApp.Perfect <==> score == |q.questions|
    ensures v.tier == QuizApp.GoodWork <==> score != |q.questions| && 2 * score >= |q.questions|
    ensures v.tier == QuizApp.KeepLearning <==> 2 * score < |q.questions|
    ensures Clock.ParseClock(v.time) == Some(timer)
  {
    Clock.ParseFormatTime(timer);
    View(ScoreText(score, |q.questions|), QuizApp.TierOf(score, |q.questions|), Clock.FormatTime(timer),
         ReviewOptionListView.Blocks(q.questions, sel))
  }

  /** "Retour aux Quiz" raises the reset. */
  function BackEvent(): QuizApp.Event {
    QuizApp.BackToQuizzes
  }

  /** From the results of a completed attempt, the button returns to the
      catalog and forgets the quiz. */
  lemma BackReturnsToCatalog(s: QuizApp.AppState)
    requires QuizApp.Valid(s) && s.tab == QuizApp.Results
    ensures var r := QuizApp.Step(s, BackEvent());
      r.tab == QuizApp.Explorer && r.quiz.None? && !r.completed
  {
    QuizApp.BackToQuizzesForgets(s);
  }
}

=== FILE: routing.dfy ===
/** The landing page's redirect of a signed-in visitor (src/app/page.js). */
module LandingPage {
  import opened Wrappers
  import opened Users

  /** Where the effect navigates, if anywhere: the home page for either
      role, back to "/" (the landing page itself) for any other. */
  function Redirect(auth: Auth): (r: Option<string>)
    ensures r.Some? <==> auth.SignedIn?
  {
    match auth
    case SignedIn(u) =>
      var role := RoleOr(u, "");
      if role == Student then Some("/accueil")
      else if role == Professor then Some("/accueil")
      else Some("/")
    case _ => None
  }

  lemma RedirectByRole(u: User)
    ensures Redirect(SignedIn(u)) == Some("/accueil") <==> RoleField(u) == Some(Student) || RoleField(u) == Some(Professor)
    ensures Redirect(SignedIn(u)) == Some("/") <==> !(RoleField(u) == Some(Student) || RoleField(u) == Some(Professor))
  {
  }
}

/** The post-sign-in dashboard (src/app/dashboard/page.js). Whatever its
    state, the page renders nothing but a spinner, so only its redirect
    decision is modelled. */
module DashboardPage {
  import opened Wrappers
  import opened Users

  datatype Dashboard = Dashboard(isRedirecting: bool)

  /** One firing of the effect, its timer included: without a signed-in
      user or once redirecting, nothing; otherwise the page marks itself
      redirecting and navigates for either role, and stays for any other. */
  function Effect(s: Dashboard, auth: Auth): (Dashboard, Option<string>) {
    if !auth.SignedIn? || s.isRedirecting then (s, None)
    else
      var role := RoleOr(auth.user, "");
      (Dashboard(true), if role == Student || role == Professor then Some("/accueil") else None)
  }

  predicate Decides(s: Dashboard, auth: Auth) {
    auth.SignedIn? && !s.isRedirecting
  }

  /** The number of redirect decisions a run of firings makes. */
  function Decisions(s: Dashboard, firings: seq<Auth>): nat
    decreases |firings|
  {
    if |firings| == 0 then 0
    else (if Decides(s, firings[0]) then 1 else 0) + Decisions(Effect(s, firings[0]).0, firings[1..])
  }

  /** At most one decision is ever made, and none once redirecting. */
  lemma {:induction false} DecidesAtMostOnce(s: Dashboard, firings: seq<Auth>)
    ensures Decisions(s, firings) <= 1
    ensures s.isRedirecting ==> Decisions(s, firings) == 0
    decreases |firings|
  {
    if |firings| > 0 {
      DecidesAtMostOnce(Effect(s, firings[0]).0, firings[1..]);
    }
  }

  /** The decision: "/accueil" for the two roles, no navigation otherwise. */
  lemma DecisionByRole(u: User)
    ensures var (r, target) := Effect(Dashboard(false), SignedIn(u));
      r.isRedirecting
      && (target == Some("/accueil") <==> RoleField(u) == Some(Student) || RoleField(u) == Some(Professor))
      && (target.None? <==> !(RoleField(u) == Some(Student) || RoleField(u) == Some(Professor)))
  {
  }
}

/** The quiz-creation route (src/app/create-quiz/page.js): professors only. */
module CreateQuizPage {
  import opened Wrappers
  import opened Users

  datatype Gate = Gate(isProfessor: bool)

  /** The effect: once loaded, a signed-out visitor goes to sign in, and a
      signed-in one is marked professor or sent to "/unauthorized". */
  function Effect(s: Gate, auth: Auth): (Gate, Option<string>) {
    match auth
    case Loading => (s, None)
    case SignedOut => (s, Some("/sign-in"))
    case SignedIn(u) =>
      var isProf := RoleOr(u, "") == Professor;
      (Gate(isProf), if isProf then None else Some("/unauthorized"))
  }

  datatype View = Spinner | Form | SignInFallback

  function ViewOf(s: Gate, auth: Auth): View {
    if !IsLoaded(auth) then Spinner
    else if auth.SignedIn? && s.isProfessor then Form
    else SignInFallback
  }

  /** After the effect the form shows exactly for a signed-in professor;
      anyone else is sent away, and nothing shows but a spinner before
      loading ends. */
  lemma FormOnlyForProfessors(s: Gate, auth: Auth)
    ensures var (r, target) := Effect(s, auth);
      && (ViewOf(r, auth) == Form <==> auth.SignedIn? && RoleField(auth.user) == Some(Professor))
      && (auth.SignedOut? ==> target == Some("/sign-in"))
      && (auth.SignedIn? ==> (target == Some("/unauthorized") <==> RoleField(auth.user) != Some(Professor)))
      && (auth.SignedIn? ==> (target.None? <==> RoleField(auth.user) == Some(Professor)))
    ensures auth.Loading? ==> ViewOf(s, auth) == Spinner
  {
  }
}

/** The signed-in home page (src/app/accueil/page.js). */
module AccueilPage {
  import opened Wrappers
  import opened Users
  import Navbar

  /** `userRole`: `None` until the effect has read it. */
  datatype Home = Home(userRole: Option<string>)

  /** The effect: a signed-out visitor goes to "/"; a signed-in one gets
      the metadata role, "student" by default. */
  function Effect(s: Home, auth: Auth): (Home, Option<string>) {
    match auth
    case Loading => (s, None)
    case SignedOut => (s, Some("/"))
    case SignedIn(u) => (Home(Some(RoleOr(u, Student))), None)
  }

  predicate ShowsSpinner(s: Home, auth: Auth) {
    !IsLoaded(auth) || s.userRole.None? || s.userRole == Some("")
  }

  predicate IsStudent(s: Home) {
    s.userRole == Some(Student)
  }

  /** The two action buttons' targets. */
  function PrimaryTarget(s: Home): string {
    if IsStudent(s) then "/quiz" else "/create-quiz"
  }

  function SecondaryTarget(s: Home): string {
    if IsStudent(s) then "/stats" else "/quizzes"
  }

  /** A signed-out visitor is sent to "/" and keeps the spinner; once
      loaded with a user the page shows its content, as a student exactly
      when the stored role is "student", missing or empty. */
  lemma EffectShowsContent(s: Home, u: User)
    ensures Effect(s, SignedOut) == (s, Some("/"))
    ensures Effect(s, Loading) == (s, None) && ShowsSpinner(s, Loading)
    ensures var (r, target) := Effect(s, SignedIn(u));
      && target.None? && !ShowsSpinner(r, SignedIn(u))
      && (IsStudent(r) <==> RoleField(u).None? || RoleField(u) == Some("") || RoleField(u) == Some(Student))
  {
  }

  /** The buttons lead students to the quiz app and their statistics, and
      everyone else to the quiz creator and their quizzes. */
  lemma ButtonsByRole(s: Home)
    ensures IsStudent(s) ==> PrimaryTarget(s) == "/quiz" && SecondaryTarget(s) == "/stats"
    ensures !IsStudent(s) ==> PrimaryTarget(s) == "/create-quiz" && SecondaryTarget(s) == "/quizzes"
  {
  }

  /** A user without a role is a student here but not in the navbar, which
      offers them the authoring links instead. */
  lemma RoleDefaultsDisagree(u: User, nav: Navbar.NavState)
    requires RoleField(u).None?
    ensures IsStudent(Effect(Home(None), SignedIn(u)).0)
    ensures !Navbar.IsStudent(Navbar.RoleEffect(nav, SignedIn(u)).userRole)
    ensures "/create-quiz" in Navbar.Links(SignedIn(u), Navbar.RoleEffect(nav, SignedIn(u)).userRole)
  {
    Navbar.LinksByRole(SignedIn(u), Navbar.RoleEffect(nav, SignedIn(u)).userRole);
  }
}

/** The quiz app's route (src/app/quiz/page.js) and the statistics route
    (src/app/stats/page.js) share one sign-in gate. */
module SignInGate {
  import opened Wrappers
  import opened Users

  /** What a gated route renders: a spinner, its content (with the user it
      is handed), or the fallback whose button leads to sign in. */
  datatype View = Spinner | Content(user: User) | SignInFallback

  /** The effect: once loaded and signed out, off to sign in. */
  function Redirect(auth: Auth): (r: Option<string>)
    ensures r.Some? <==> auth.SignedOut?
    ensures r.Some? ==> r.value == "/sign-in"
  {
    if auth.SignedOut? then Some("/sign-in") else None
  }

  function ViewOf(auth: Auth): View {
    match auth
    case Loading => Spinner
    case SignedIn(u) => Content(u)
    case SignedOut => SignInFallback
  }

  const FallbackTarget := "/sign-in"

  /** The content renders exactly for a signed-in user, handed that user;
      a visitor who sees the fallback is also being redirected to sign in,
      where the fallback's button leads too. */
  lemma GateCases(auth: Auth)
    ensures ViewOf(auth).Content? <==> auth.SignedIn?
    ensures ViewOf(auth).Content? ==> ViewOf(auth).user == auth.user
    ensures ViewOf(auth) == Spinner <==> !IsLoaded(auth)
    ensures ViewOf(auth) == SignInFallback ==> Redirect(auth) == Some(FallbackTarget)
  {
  }
}

/** The role-selection page (src/app/onboarding/role/page.js). */
module RoleOnboarding {
  import opened Wrappers
  import opened Users

  datatype Form = Form(role: string, isSubmitting: bool, error: Option<string>)

  function InitialForm(): Form {
    Form(Student, false, None)
  }

  const SaveFailed := "Failed to save role. Please try again."

  /** The effect: a stored, non-empty role replaces the default. */
  function Effect(f: Form, auth: Auth): (r: Form)
    ensures auth.SignedIn? && RoleField(auth.user).Some? && RoleField(auth.user).value != "" ==>
      r.role == RoleField(auth.user).value
    ensures !(auth.SignedIn? && RoleField(auth.user).Some? && RoleField(auth.user).value != "") ==> r == f
  {
    match auth
    case SignedIn(u) => if RoleField(u).Some? && RoleField(u).value != "" then f.(role := RoleField(u).value) else f
    case _ => f
  }

  /** The select. */
  function Choose(f: Form, role: string): Form {
    f.(role := role)
  }

  /** The metadata sent: the user's own with only `role` set. */
  function UpdatedMetadata(u: User, role: string): (m: map<string, string>)
    ensures "role" in m && m["role"] == role
  {
    u.metadata["role" := role]
  }

  /** Every other metadata entry is kept unchanged and none is added. */
  lemma UpdateKeepsOtherKeys(u: User, role: string)
    ensures var m := UpdatedMetadata(u, role);
      && m.Keys == u.metadata.Keys + {"role"}
      && forall k :: k in u.metadata && k != "role" ==> m[k] == u.metadata[k]
  {
  }

  /** While the update is awaited the button is disabled. */
  function BeginSubmit(f: Form): (r: Form)
    ensures r.isSubmitting && r.error.None? && r.role == f.role
  {
    f.(isSubmitting := true, error := None)
  }

  predicate SubmitDisabled(f: Form) {
    f.isSubmitting
  }

  /** The end of `handleSubmit`: on success to "/quiz", on failure (or
      with no user to update) the error and no navigation; either way the
      button is enabled again. */
  function FinishSubmit(f: Form, auth: Auth, ok: bool): (Form, Option<string>) {
    if auth.SignedIn? && ok then (f.(isSubmitting := false), Some("/quiz"))
    else (f.(isSubmitting := false, error := Some(SaveFailed)), None)
  }

  lemma SubmitOutcome(f: Form, auth: Auth, ok: bool)
    ensures SubmitDisabled(BeginSubmit(f))
    ensures var (r, target) := FinishSubmit(BeginSubmit(f), auth, ok);
      && !SubmitDisabled(r) && r.role == f.role
      && (target.Some? <==> auth.SignedIn? && ok)
      && (target.Some? ==> target.value == "/quiz" && r.error.None?)
      && (target.None? ==> r.error == Some(SaveFailed))
  {
  }
}

=== FILE: scoring.dfy ===
/** The two ways the front end decides that an answer is right.

    The quiz wizard compares the selection with the question's
    `correctOptionId` (src/components/quiz-app.jsx:223 and 523). The split-out
    review item instead looks up the selected option and trusts its `correct`
    flag (src/components/quiz/ReviewOptionItem.jsx:11-12). The two agree on
    every question whose flags follow its key. */
module Scoring {
  import opened Wrappers
  import opened Seqs
  import opened QuizModel
  import Text

  /** `selectedOptions[q.id] === q.correctOptionId`; an unanswered question
      (`undefined`) never matches. */
  predicate KeyMatches(sel: Selections, q: Question) {
    q.id in sel && sel[q.id] == q.correctOptionId
  }

  /** The score computed when the last question is submitted: how many
      questions were answered with their key. */
  function Score(qs: seq<Question>, sel: Selections): (n: nat)
    ensures n <= |qs|
    ensures n == |qs| <==> forall i :: 0 <= i < |qs| ==> KeyMatches(sel, qs[i])
    ensures n == 0 <==> forall i :: 0 <= i < |qs| ==> !KeyMatches(sel, qs[i])
  {
    FilterKeepsAll(qs, q => KeyMatches(sel, q));
    FilterKeepsNone(qs, q => KeyMatches(sel, q));
    Count(qs, q => KeyMatches(sel, q))
  }

  /** The option a selection names: the first option carrying that id. */
  function SelectedChoice(q: Question, selection: Option<int>): (r: Option<Choice>)
    ensures r.Some? <==> selection.Some? && HasOptionId(q, selection.value)
    ensures r.Some? ==> r.value in q.options && r.value.id == selection.value
    ensures forall i :: 0 <= i < |q.options| && selection == Some(q.options[i].id) ==>
                        (forall j :: 0 <= j < i ==> q.options[j].id != q.options[i].id) ==> r == Some(q.options[i])
  {
    if selection.None? then None else Find(q.options, (o: Choice) => o.id == selection.value)
  }

  /** `selectedOption?.correct === true`: right when the selected option
      exists and is flagged. */
  predicate FlagCorrect(q: Question, selection: Option<int>) {
    var c := SelectedChoice(q, selection);
    c.Some? && c.value.correct
  }

  /** How many review items are shown as right, each judged by its flag. */
  function FlagScore(qs: seq<Question>, sel: Selections): nat {
    Count(qs, (q: Question) => FlagCorrect(q, Lookup(sel, q.id)))
  }

  /** A question whose flags follow its key: the key names one of its
      options, and an option is flagged exactly when it has the key's id. */
  predicate FlagsFollowKey(q: Question) {
    && HasOptionId(q, q.correctOptionId)
    && forall i :: 0 <= i < |q.options| ==> (q.options[i].correct <==> q.options[i].id == q.correctOptionId)
  }

  /** On such a question the review item and the wizard judge every
      selection alike. */
  lemma FlagAgreesWithKey(q: Question, sel: Selections)
    requires FlagsFollowKey(q)
    ensures FlagCorrect(q, Lookup(sel, q.id)) <==> KeyMatches(sel, q)
  {
    var selection := Lookup(sel, q.id);
    if selection.Some? {
      var c := SelectedChoice(q, selection);
      if selection.value == q.correctOptionId {
        assert c.Some?;
      }
      if c.Some? {
        var i :| 0 <= i < |q.options| && q.options[i] == c.value;
      }
    }
  }

  /** On a quiz whose every question has its flags following its key, the
      number of green review items is the wizard's score. */
  lemma ScoresAgree(qs: seq<Question>, sel: Selections)
    requires forall i :: 0 <= i < |qs| ==> FlagsFollowKey(qs[i])
    ensures FlagScore(qs, sel) == Score(qs, sel)
  {
    forall i | 0 <= i < |qs|
      ensures FlagCorrect(qs[i], Lookup(sel, qs[i].id)) == KeyMatches(sel, qs[i])
    {
      FlagAgreesWithKey(qs[i], sel);
    }
    FilterCongruent(qs, (q: Question) => FlagCorrect(q, Lookup(sel, q.id)), (q: Question) => KeyMatches(sel, q));
  }

  /** A question without any flag, like those of the built-in sample quizzes,
      is judged wrong by the review item whatever was selected, even when the
      selection is the key. */
  lemma UnflaggedNeverCorrect(q: Question, selection: Option<int>)
    requires forall i :: 0 <= i < |q.options| ==> !q.options[i].correct
    ensures !FlagCorrect(q, selection)
  {
    var c := SelectedChoice(q, selection);
    if c.Some? {
      var i :| 0 <= i < |q.options| && q.options[i] == c.value;
    }
  }

  /** The two rules do disagree in general: an unflagged question answered
      with its key. */
  lemma RulesDisagreeWithoutFlags()
    ensures var q := Question(1, "q", [Choice(1, "a", false), Choice(2, "b", false)], 1);
            KeyMatches(map[1 := 1], q) && !FlagCorrect(q, Lookup(map[1 := 1], q.id))
  {
    var q := Question(1, "q", [Choice(1, "a", false), Choice(2, "b", false)], 1);
    UnflaggedNeverCorrect(q, Some(1));
  }

  const NoAnswer: string := "Aucune réponse"

  /** `selectedOption?.text || "Aucune réponse"`, the "your answer" line of
      both reviews: the selected option's text, or the placeholder when
      nothing (or an option with empty text) was selected. */
  function AnswerText(q: Question, selection: Option<int>): (r: string)
    ensures SelectedChoice(q, selection).None? ==> r == NoAnswer
    ensures SelectedChoice(q, selection).Some? && SelectedChoice(q, selection).value.text != ""
            ==> r == SelectedChoice(q, selection).value.text
    ensures SelectedChoice(q, selection).Some? && SelectedChoice(q, selection).value.text == ""
            ==> r == NoAnswer
    ensures r == NoAnswer || exists i :: 0 <= i < |q.options| && q.options[i].text == r
  {
    var c := SelectedChoice(q, selection);
    if c.Some? then
      assert exists i :: 0 <= i < |q.options| && q.options[i] == c.value;
      Text.OrElse(c.value.text, NoAnswer)
    else NoAnswer
  }

  /** The wizard's "correct answer" line: the text of the option with the
      key's id. `None` where the wizard would fail with a type error because
      no option has that id. */
  function KeyAnswerText(q: Question): (r: Option<string>)
    ensures r.Some? <==> HasOptionId(q, q.correctOptionId)
    ensures forall i :: 0 <= i < |q.options| && q.options[i].id == q.correctOptionId ==>
                        (forall j :: 0 <= j < i ==> q.options[j].id != q.correctOptionId) ==> r == Some(q.options[i].text)
  {
    var c := Find(q.options, (o: Choice) => o.id == q.correctOptionId);
    if c.Some? then Some(c.value.text) else None
  }

  /** The review item's "correct answer" line: the text of the first flagged
      option, or nothing (`undefined` renders empty) when none is flagged. */
  function FlagAnswerText(q: Question): (r: string)
    ensures (forall i :: 0 <= i < |q.options| ==> !q.options[i].correct) ==> r == ""
    ensures forall i :: 0 <= i < |q.options| && q.options[i].correct ==>
                        (forall j :: 0 <= j < i ==> !q.options[j].correct) ==> r == q.options[i].text
  {
    var c := Find(q.options, (o: Choice) => o.correct);
    if c.Some? then c.value.text else ""
  }

  /** Where the flags follow the key, both reviews name the same correct
      answer. */
  lemma AnswerTextsAgree(q: Question)
    requires FlagsFollowKey(q)
    ensures KeyAnswerText(q) == Some(FlagAnswerText(q))
  {
    FindCongruent(q.options, (o: Choice) => o.correct, (o: Choice) => o.id == q.correctOptionId);
  }
}

=== FILE: seqs.dfy ===
/** The array methods the components use, as functions on sequences:
    `findIndex`, `find`, `filter`, `[...new Set(xs)]`, and the
    order-preserving subsequence relation that relates a filter to its
    input. */
module Seqs {
  import opened Wrappers

  /** `xs.findIndex(p)`: the first index whose element satisfies `p`, or -1. */
  function FindIndex<T>(xs: seq<T>, p: T -> bool): (r: int)
    ensures -1 <= r < |xs|
    ensures r >= 0 ==> p(xs[r])
    ensures forall j :: 0 <= j < |xs| && (r == -1 || j < r) ==> !p(xs[j])
    decreases |xs|
  {
    if |xs| == 0 then -1
    else if p(xs[0]) then 0
    else
      var k := FindIndex(xs[1..], p);
      if k == -1 then -1 else k + 1
  }

  /** `xs.find(p)`: the first element satisfying `p`, if any. */
  function Find<T>(xs: seq<T>, p: T -> bool): (r: Option<T>)
    ensures r.Some? <==> exists i :: 0 <= i < |xs| && p(xs[i])
    ensures r.Some? ==> exists i :: 0 <= i < |xs| && xs[i] == r.value && p(xs[i]) &&
                                    (forall j :: 0 <= j < i ==> !p(xs[j]))
  {
    var k := FindIndex(xs, p);
    if k == -1 then None else Some(xs[k])
  }

  /** Two tests that agree on every element find the same element. */
  lemma FindCongruent<T>(xs: seq<T>, p: T -> bool, q: T -> bool)
    requires forall i :: 0 <= i < |xs| ==> p(xs[i]) == q(xs[i])
    ensures Find(xs, p) == Find(xs, q)
  {
    var a, b := FindIndex(xs, p), FindIndex(xs, q);
    assert a >= 0 ==> q(xs[a]);
    assert b >= 0 ==> p(xs[b]);
  }

  /** `xs.filter(p)`. */
  function Filter<T>(xs: seq<T>, p: T -> bool): (r: seq<T>)
    ensures |r| <= |xs|
    ensures forall i :: 0 <= i < |r| ==> p(r[i]) && r[i] in xs
    ensures forall i :: 0 <= i < |xs| && p(xs[i]) ==> xs[i] in r
    decreases |xs|
  {
    if |xs| == 0 then []
    else if p(xs[0]) then [xs[0]] + Filter(xs[1..], p)
    else Filter(xs[1..], p)
  }

  /** `a` is `b` with some elements left out and the rest kept in order. */
  predicate IsSubsequence<T(==)>(a: seq<T>, b: seq<T>)
    decreases |b|
  {
    if |a| == 0 then true
    else if |b| == 0 then false
    else if a[0] == b[0] then IsSubsequence(a[1..], b[1..])
    else IsSubsequence(a, b[1..])
  }

  /** What `filter` keeps is a subsequence of its input. */
  lemma {:induction false} FilterIsSubsequence<T>(xs: seq<T>, p: T -> bool)
    ensures IsSubsequence(Filter(xs, p), xs)
    decreases |xs|
  {
    if |xs| > 0 {
      FilterIsSubsequence(xs[1..], p);
      var rest := Filter(xs[1..], p);
      if p(xs[0]) {
        assert ([xs[0]] + rest)[1..] == rest;
      } else if |rest| > 0 {
        assert p(rest[0]);
      }
    }
  }

  /** A filter keeps everything exactly when every element passes. */
  lemma {:induction false} FilterKeepsAll<T>(xs: seq<T>, p: T -> bool)
    ensures Filter(xs, p) == xs <==> forall i :: 0 <= i < |xs| ==> p(xs[i])
    ensures |Filter(xs, p)| == |xs| <==> Filter(xs, p) == xs
    decreases |xs|
  {
    if |xs| > 0 {
      FilterKeepsAll(xs[1..], p);
      if p(xs[0]) {
        assert [xs[0]] + xs[1..] == xs;
        forall i | 1 <= i < |xs| ensures xs[i] == xs[1..][i - 1] {}
      } else {
        assert |Filter(xs, p)| <= |xs[1..]| < |xs|;
      }
    }
  }

  /** A filter keeps nothing exactly when no element passes. */
  lemma {:induction false} FilterKeepsNone<T>(xs: seq<T>, p: T -> bool)
    ensures |Filter(xs, p)| == 0 <==> forall i :: 0 <= i < |xs| ==> !p(xs[i])
    decreases |xs|
  {
    if |xs| > 0 {
      FilterKeepsNone(xs[1..], p);
      forall i | 1 <= i < |xs| ensures xs[i] == xs[1..][i - 1] {}
    }
  }

  /** Two tests that agree on every element filter alike. */
  lemma {:induction false} FilterCongruent<T>(xs: seq<T>, p: T -> bool, q: T -> bool)
    requires forall i :: 0 <= i < |xs| ==> p(xs[i]) == q(xs[i])
    ensures Filter(xs, p) == Filter(xs, q)
    decreases |xs|
  {
    if |xs| > 0 {
      forall i | 0 <= i < |xs[1..]| ensures p(xs[1..][i]) == q(xs[1..][i]) {
        assert xs[1..][i] == xs[i + 1];
      }
      FilterCongruent(xs[1..], p, q);
    }
  }

  /** The number of elements satisfying `p` (`xs.filter(p).length`). */
  function Count<T>(xs: seq<T>, p: T -> bool): nat {
    |Filter(xs, p)|
  }

  /** Counting over a sequence is counting over its head and its tail. */
  lemma CountSplit<T>(xs: seq<T>, p: T -> bool)
    requires |xs| > 0
    ensures Count(xs, p) == (if p(xs[0]) then 1 else 0) + Count(xs[1..], p)
  {
  }

  /** `xs.map(f)`. */
  function Map<T, U>(xs: seq<T>, f: T -> U): (r: seq<U>)
    ensures |r| == |xs|
    ensures forall i :: 0 <= i < |xs| ==> r[i] == f(xs[i])
  {
    seq(|xs|, i requires 0 <= i < |xs| => f(xs[i]))
  }

  /** Counting the images that pass `p` is counting the elements whose image
      passes. */
  lemma {:induction false} CountMap<T, U>(xs: seq<T>, f: T -> U, p: U -> bool)
    ensures Count(Map(xs, f), p) == Count(xs, x => p(f(x)))
    decreases |xs|
  {
    if |xs| > 0 {
      CountMap(xs[1..], f, p);
      assert Map(xs, f)[1..] == Map(xs[1..], f);
      CountSplit(Map(xs, f), p);
      CountSplit(xs, x => p(f(x)));
    }
  }

  /** Two sequences that agree element-wise on their tests count alike. */
  lemma {:induction false} CountAcross<T, U>(a: seq<T>, p: T -> bool, b: seq<U>, q: U -> bool)
    requires |a| == |b|
    requires forall i :: 0 <= i < |a| ==> p(a[i]) == q(b[i])
    ensures Count(a, p) == Count(b, q)
    decreases |a|
  {
    if |a| > 0 {
      CountSplit(a, p);
      CountSplit(b, q);
      CountAcross(a[1..], p, b[1..], q);
    }
  }

  /** Filtering by `p` and then by `q` is filtering once by a test `pq`
      that asks for both. */
  lemma {:induction false} FilterFilter<T>(xs: seq<T>, p: T -> bool, q: T -> bool, pq: T -> bool)
    requires forall i :: 0 <= i < |xs| ==> pq(xs[i]) == (p(xs[i]) && q(xs[i]))
    ensures Filter(Filter(xs, p), q) == Filter(xs, pq)
    decreases |xs|
  {
    if |xs| > 0 {
      forall i | 0 <= i < |xs[1..]| ensures pq(xs[1..][i]) == (p(xs[1..][i]) && q(xs[1..][i])) {
        assert xs[1..][i] == xs[i + 1];
      }
      FilterFilter(xs[1..], p, q, pq);
      if p(xs[0]) {
        assert ([xs[0]] + Filter(xs[1..], p))[1..] == Filter(xs[1..], p);
      }
    }
  }

  /** A sequence whose test holds at position `k` only counts one or none. */
  lemma {:induction false} CountAt<T>(xs: seq<T>, p: T -> bool, k: int)
    requires forall i :: 0 <= i < |xs| ==> (p(xs[i]) <==> i == k)
    ensures Count(xs, p) == if 0 <= k < |xs| then 1 else 0
    decreases |xs|
  {
    if |xs| > 0 {
      CountSplit(xs, p);
      forall i | 0 <= i < |xs[1..]| ensures p(xs[1..][i]) <==> i == k - 1 {
        assert xs[1..][i] == xs[i + 1];
      }
      CountAt(xs[1..], p, k - 1);
    }
  }

  /** The elements passing a test and those passing its negation add up to
      all of them. */
  lemma {:induction false} CountComplement<T>(xs: seq<T>, p: T -> bool, q: T -> bool)
    requires forall i :: 0 <= i < |xs| ==> q(xs[i]) == !p(xs[i])
    ensures Count(xs, p) + Count(xs, q) == |xs|
    decreases |xs|
  {
    if |xs| > 0 {
      CountSplit(xs, p);
      CountSplit(xs, q);
      forall i | 0 <= i < |xs[1..]| ensures q(xs[1..][i]) == !p(xs[1..][i]) {
        assert xs[1..][i] == xs[i + 1];
      }
      CountComplement(xs[1..], p, q);
    }
  }

  predicate NoDuplicates<T(==)>(xs: seq<T>) {
    forall i, j :: 0 <= i < |xs| && 0 <= j < |xs| && xs[i] == xs[j] ==> i == j
  }

  /** `[...new Set(xs)]` seen after the elements of `seen` were already
      inserted: the first occurrence of each new value, in order. */
  function DedupFrom<T(==)>(xs: seq<T>, seen: set<T>): (r: seq<T>)
    ensures NoDuplicates(r)
    ensures forall i :: 0 <= i < |r| ==> r[i] in xs && r[i] !in seen
    ensures forall i :: 0 <= i < |xs| && xs[i] !in seen ==> xs[i] in r
    decreases |xs|
  {
    if |xs| == 0 then []
    else if xs[0] in seen then DedupFrom(xs[1..], seen)
    else [xs[0]] + DedupFrom(xs[1..], seen + {xs[0]})
  }

  /** `[...new Set(xs)]`: every value of `xs` once, no value twice. */
  function Dedup<T(==)>(xs: seq<T>): (r: seq<T>)
    ensures NoDuplicates(r)
    ensures forall i :: 0 <= i < |r| ==> r[i] in xs
    ensures forall i :: 0 <= i < |xs| ==> xs[i] in r
  {
    DedupFrom(xs, {})
  }

  /** The distinct values come in the order of their first occurrence. */
  lemma {:induction false} DedupFromIsSubsequence<T>(xs: seq<T>, seen: set<T>)
    ensures IsSubsequence(DedupFrom(xs, seen), xs)
    decreases |xs|
  {
    if |xs| > 0 {
      if xs[0] in seen {
        DedupFromIsSubsequence(xs[1..], seen);
        var rest := DedupFrom(xs[1..], seen);
        if |rest| > 0 {
          assert rest[0] !in seen;
        }
      } else {
        DedupFromIsSubsequence(xs[1..], seen + {xs[0]});
        var rest := DedupFrom(xs[1..], seen + {xs[0]});
        assert ([xs[0]] + rest)[1..] == rest;
      }
    }
  }

  /** `xs.filter((_, i) => i !== index)`: the sequence without the element
      at `index`, the rest in order. */
  function Without<T>(xs: seq<T>, index: nat): (r: seq<T>)
    ensures index < |xs| ==> |r| == |xs| - 1
    ensures index >= |xs| ==> r == xs
    ensures forall i :: 0 <= i < |r| ==> r[i] == if i < index then xs[i] else xs[i + 1]
  {
    if index < |xs| then xs[..index] + xs[index + 1..] else xs
  }

  /** A property holds of every element exactly when it holds of the first
      and of every element of the rest. */
  lemma AllCons<T>(xs: seq<T>, p: T -> bool)
    requires |xs| > 0
    ensures (forall i :: 0 <= i < |xs| ==> p(xs[i])) <==>
            p(xs[0]) && forall i :: 0 <= i < |xs[1..]| ==> p(xs[1..][i])
  {
    assert forall i :: 1 <= i < |xs| ==> xs[1..][i - 1] == xs[i];
  }
}

=== FILE: text.dfy ===
/** The string operations of JavaScript that the front end relies on:
    `String(n)`, `Number.parseInt(v, 10)`, `trim`, `split("-")`, `includes`,
    `startsWith`, `padStart`, `charAt(0)`, `toUpperCase` (for ASCII letters
    only) and the `s || fallback` idiom. Strings are `seq<char>`. */
module Text {
  import opened Wrappers

  predicate IsDigit(c: char) {
    '0' <= c <= '9'
  }

  predicate AllDigits(s: string) {
    forall i :: 0 <= i < |s| ==> IsDigit(s[i])
  }

  function DigitValue(c: char): (d: nat)
    requires IsDigit(c)
    ensures d < 10
  {
    (c as int) - ('0' as int)
  }

  function DigitChar(d: nat): (c: char)
    requires d < 10
    ensures IsDigit(c) && DigitValue(c) == d
  {
    (('0' as int) + d) as char
  }

  /** `String(n)` for a non-negative integer: decimal, no leading zero. */
  function Digits(n: nat): (s: string)
    ensures 1 <= |s|
    ensures AllDigits(s)
    ensures s[0] == '0' <==> n == 0
    decreases n
  {
    if n < 10 then [DigitChar(n)] else Digits(n / 10) + [DigitChar(n % 10)]
  }

  /** A string of digits holds no other character. */
  lemma DigitsExclude(s: string, c: char)
    requires AllDigits(s) && !IsDigit(c)
    ensures c !in s
  {
    assert forall i :: 0 <= i < |s| ==> s[i] != c;
  }

  /** The number a string of decimal digits denotes. */
  function ValueOf(s: string): nat
    requires AllDigits(s)
    decreases |s|
  {
    if |s| == 0 then 0 else 10 * ValueOf(s[..|s| - 1]) + DigitValue(s[|s| - 1])
  }

  /** Reading back what `Digits` wrote gives the number again. */
  lemma {:induction false} ValueOfDigits(n: nat)
    ensures ValueOf(Digits(n)) == n
    decreases n
  {
    if n >= 10 {
      var s := Digits(n);
      assert s[..|s| - 1] == Digits(n / 10);
      ValueOfDigits(n / 10);
    }
  }

  /** A whole string read as a decimal natural number; `None` unless it is a
      non-empty run of digits. */
  function ParseNat(s: string): (r: Option<nat>)
    ensures r.Some? <==> 1 <= |s| && AllDigits(s)
  {
    if 1 <= |s| && AllDigits(s) then Some(ValueOf(s)) else None
  }

  lemma ParseNatDigits(n: nat)
    ensures ParseNat(Digits(n)) == Some(n)
  {
    ValueOfDigits(n);
  }

  /** `String(i)` for any integer. */
  function IntToString(i: int): (s: string)
    ensures 1 <= |s|
  {
    if i < 0 then "-" + Digits(-i) else Digits(i)
  }

  /** The white space `trim` and `parseInt` skip: tab, vertical tab, form
      feed, the byte-order mark, every space separator of Unicode category
      Zs, and the four line terminators. */
  predicate IsSpace(c: char) {
    || c == '\t' || c == '\U{000B}' || c == '\U{000C}' || c == '\U{FEFF}'
    || c == ' ' || c == '\U{00A0}' || c == '\U{1680}' || ('\U{2000}' <= c <= '\U{200A}')
    || c == '\U{202F}' || c == '\U{205F}' || c == '\U{3000}'
    || c == '\n' || c == '\r' || c == '\U{2028}' || c == '\U{2029}'
  }

  /** `trimStart`: drops the leading white space, and only that. */
  function TrimStart(s: string): (r: string)
    ensures |r| <= |s| && r == s[|s| - |r|..]
    ensures forall i :: 0 <= i < |s| - |r| ==> IsSpace(s[i])
    ensures |r| > 0 ==> !IsSpace(r[0])
    decreases |s|
  {
    if |s| > 0 && IsSpace(s[0]) then TrimStart(s[1..]) else s
  }

  /** `trimEnd`: drops the trailing white space, and only that. */
  function TrimEnd(s: string): (r: string)
    ensures |r| <= |s| && r == s[..|r|]
    ensures forall i :: |r| <= i < |s| ==> IsSpace(s[i])
    ensures |r| > 0 ==> !IsSpace(r[|r| - 1])
    decreases |s|
  {
    if |s| > 0 && IsSpace(s[|s| - 1]) then TrimEnd(s[..|s| - 1]) else s
  }

  /** Trimming the end keeps a non-empty result's first character. */
  lemma TrimEndKeepsFirst(t: string)
    ensures |TrimEnd(t)| > 0 ==> |t| > 0 && TrimEnd(t)[0] == t[0]
  {
    var r := TrimEnd(t);
    if |r| > 0 {
      assert r[0] == t[..|r|][0];
    }
  }

  /** `trim`. */
  function Trim(s: string): (r: string)
    ensures |r| > 0 ==> !IsSpace(r[0]) && !IsSpace(r[|r| - 1])
  {
    var t := TrimStart(s);
    TrimEndKeepsFirst(t);
    TrimEnd(t)
  }

  /** `!s.trim()`: the string is empty once trimmed. */
  predicate IsBlank(s: string) {
    Trim(s) == ""
  }

  /** A string is blank exactly when every character in it is white space. */
  lemma BlankIffAllSpace(s: string)
    ensures IsBlank(s) <==> forall i :: 0 <= i < |s| ==> IsSpace(s[i])
  {
  }

  /** Trimming twice is trimming once. */
  lemma TrimIdempotent(s: string)
    ensures Trim(Trim(s)) == Trim(s)
  {
    var r := Trim(s);
    if |r| > 0 {
      assert TrimStart(r) == r;
      assert TrimEnd(r) == r;
    }
  }

  /** `s || fallback` for a string `s`: the empty string is falsy. */
  function OrElse(s: string, fallback: string): (r: string)
    ensures r == s || r == fallback
    ensures r == fallback <==> s == "" || s == fallback
  {
    if s != "" then s else fallback
  }

  /** `charAt(0)`: the first character as a string, or "" for "". */
  function FirstChar(s: string): (r: string)
    ensures |r| == if |s| == 0 then 0 else 1
    ensures |r| == 1 ==> r[0] == s[0]
  {
    if |s| == 0 then "" else s[..1]
  }

  /** `toUpperCase` on one character, for the ASCII letters; every other
      character is left as it is. */
  function UpperChar(c: char): (u: char)
    ensures 'a' <= c <= 'z' ==> 'A' <= u <= 'Z'
    ensures !('a' <= c <= 'z') ==> u == c
  {
    if 'a' <= c <= 'z' then ((c as int) - 32) as char else c
  }

  function Upper(s: string): (r: string)
    ensures |r| == |s|
    ensures forall i :: 0 <= i < |s| ==> r[i] == UpperChar(s[i])
  {
    seq(|s|, i requires 0 <= i < |s| => UpperChar(s[i]))
  }

  /** `padStart(width, fill)`. */
  function PadStart(s: string, width: nat, fill: char): (r: string)
    ensures |r| == if |s| >= width then |s| else width
    ensures r[|r| - |s|..] == s
    ensures forall i :: 0 <= i < |r| - |s| ==> r[i] == fill
  {
    if |s| >= width then s else seq(width - |s|, _ => fill) + s
  }

  /** `s.startsWith(prefix)`. */
  predicate StartsWith(s: string, prefix: string) {
    |prefix| <= |s| && s[..|prefix|] == prefix
  }

  /** `hay.includes(needle)`: the needle occurs at some position. */
  predicate Contains(hay: string, needle: string) {
    exists k :: 0 <= k <= |hay| - |needle| && OccursAt(hay, needle, k)
  }

  predicate OccursAt(hay: string, needle: string, k: int) {
    0 <= k <= |hay| - |needle| && hay[k..k + |needle|] == needle
  }

  /** The longest prefix made of digits. */
  function LeadingDigits(s: string): (r: string)
    ensures |r| <= |s| && r == s[..|r|]
    ensures AllDigits(r)
    ensures |r| < |s| ==> !IsDigit(s[|r|])
    decreases |s|
  {
    if |s| > 0 && IsDigit(s[0]) then [s[0]] + LeadingDigits(s[1..]) else ""
  }

  /** `Number.parseInt(s, 10)`: leading white space, an optional sign, then
      the longest run of digits; `None` (NaN) when there is no digit there.
      Whatever follows the digits is ignored. */
  function ParseIntPrefix(s: string): (r: Option<int>)
  {
    ParseSignedDigits(TrimStart(s))
  }

  /** An optional sign, then the longest run of digits. */
  function ParseSignedDigits(t: string): Option<int>
  {
    if |t| > 0 && (t[0] == '+' || t[0] == '-') then
      var ds := LeadingDigits(t[1..]);
      if |ds| == 0 then None
      else if t[0] == '-' then Some(-(ValueOf(ds) as int))
      else Some(ValueOf(ds))
    else
      var ds := LeadingDigits(t);
      if |ds| == 0 then None else Some(ValueOf(ds))
  }

  /** `parseInt` reads back a decimal numeral, whatever non-digit text
      follows it. */
  lemma ParseIntPrefixDigits(n: nat, rest: string)
    requires |rest| == 0 || !IsDigit(rest[0])
    ensures ParseIntPrefix(Digits(n) + rest) == Some(n)
  {
    var d := Digits(n);
    var s := d + rest;
    assert s[0] == d[0];
    ParseIntPrefixOfDigit(s);
    LeadingDigitsOfNumeral(d, rest);
    ValueOfDigits(n);
  }

  /** Leading white space does not change what `parseInt` reads. */
  lemma ParseIntPrefixSkipsSpace(c: char, s: string)
    requires IsSpace(c)
    ensures ParseIntPrefix([c] + s) == ParseIntPrefix(s)
  {
    assert ([c] + s)[1..] == s;
  }

  /** A string that starts with a digit parses as its leading digits. */
  lemma ParseIntPrefixOfDigit(s: string)
    requires |s| > 0 && '0' <= s[0] <= '9'
    ensures ParseIntPrefix(s) == Some(ValueOf(LeadingDigits(s)))
  {
    TrimStartOfNonSpace(s);
    var ds := LeadingDigits(s);
    assert ds == [s[0]] + LeadingDigits(s[1..]);
  }

  lemma TrimStartOfNonSpace(s: string)
    requires |s| > 0 && !IsSpace(s[0])
    ensures TrimStart(s) == s
  {
  }

  lemma {:induction false} LeadingDigitsOfNumeral(d: string, rest: string)
    requires AllDigits(d)
    requires |rest| == 0 || !IsDigit(rest[0])
    ensures LeadingDigits(d + rest) == d
    decreases |d|
  {
    if |d| > 0 {
      assert (d + rest)[1..] == d[1..] + rest;
      LeadingDigitsOfNumeral(d[1..], rest);
    } else {
      assert d + rest == rest;
    }
  }

  /** `s.split(sep)`: the pieces between separators, in order, empty pieces
      included. */
  function Split(s: string, sep: char): (parts: seq<string>)
    ensures |parts| >= 1
    ensures forall i :: 0 <= i < |parts| ==> sep !in parts[i]
    decreases |s|
  {
    if |s| == 0 then [""]
    else
      var rest := Split(s[1..], sep);
      if s[0] == sep then [""] + rest else [[s[0]] + rest[0]] + rest[1..]
  }

  /** `parts.join(sep)`. */
  function Join(parts: seq<string>, sep: char): string
    requires |parts| >= 1
    decreases |parts|
  {
    if |parts| == 1 then parts[0] else parts[0] + [sep] + Join(parts[1..], sep)
  }

  /** Joining the pieces of a split gives the string back. */
  lemma {:induction false} JoinSplit(s: string, sep: char)
    ensures Join(Split(s, sep), sep) == s
    decreases |s|
  {
    if |s| > 0 {
      var rest := Split(s[1..], sep);
      JoinSplit(s[1..], sep);
      if s[0] == sep {
        assert Split(s, sep) == [""] + rest;
        assert ([""] + rest)[1..] == rest;
      } else {
        var parts := Split(s, sep);
        assert parts == [[s[0]] + rest[0]] + rest[1..];
        if |rest| == 1 {
          assert Join(parts, sep) == [s[0]] + rest[0];
        } else {
          assert parts[1..] == rest[1..];
          assert Join(rest, sep) == rest[0] + [sep] + Join(rest[1..], sep);
        }
      }
    }
  }

  lemma {:induction false} SplitWithoutSep(a: string, sep: char)
    requires sep !in a
    ensures Split(a, sep) == [a]
    decreases |a|
  {
    if |a| > 0 {
      SplitWithoutSep(a[1..], sep);
      assert [a[0]] + a[1..] == a;
    }
  }

  lemma {:induction false} SplitAtSep(a: string, b: string, sep: char)
    requires sep !in a
    ensures Split(a + [sep] + b, sep) == [a] + Split(b, sep)
    decreases |a|
  {
    var s := a + [sep] + b;
    if |a| == 0 {
      assert s[0] == sep && s[1..] == b;
    } else {
      assert s[0] == a[0] && s[1..] == a[1..] + [sep] + b;
      SplitAtSep(a[1..], b, sep);
      assert [a[0]] + a[1..] == a;
    }
  }

  /** Splitting a join of separator-free pieces gives the pieces back. */
  lemma {:induction false} SplitJoin(parts: seq<string>, sep: char)
    requires |parts| >= 1
    requires forall i :: 0 <= i < |parts| ==> sep !in parts[i]
    ensures Split(Join(parts, sep), sep) == parts
    decreases |parts|
  {
    if |parts| == 1 {
      SplitWithoutSep(parts[0], sep);
    } else {
      SplitJoin(parts[1..], sep);
      SplitAtSep(parts[0], Join(parts[1..], sep), sep);
      assert [parts[0]] + parts[1..] == parts;
    }
  }
}

=== FILE: users.dfy ===
/** The signed-in user as the pages read it from the identity provider, and
    the role kept in the user's editable metadata. */
module Users {
  import opened Wrappers
  import opened Text

  /** The fields the pages read. A missing name is ""; `metadata` is the
      user's `unsafeMetadata`, whose `role` entry holds the chosen role. */
  datatype User = User(id: string, firstName: string, lastName: string, fullName: string,
                       emails: seq<string>, metadata: map<string, string>)

  /** What `useUser` reports: still loading, signed out, or signed in with
      the user. Once loaded, a user is present exactly when signed in. */
  datatype Auth = Loading | SignedOut | SignedIn(user: User)

  predicate IsLoaded(a: Auth) {
    !a.Loading?
  }

  /** `user.unsafeMetadata?.role`, if set. */
  function RoleField(u: User): Option<string> {
    if "role" in u.metadata then Some(u.metadata["role"]) else None
  }

  /** `user.unsafeMetadata?.role || fallback`: a missing or empty role gives
      the fallback. */
  function RoleOr(u: User, fallback: string): (r: string)
    ensures RoleField(u).Some? && RoleField(u).value != "" ==> r == RoleField(u).value
    ensures RoleField(u).None? || RoleField(u) == Some("") ==> r == fallback
  {
    OrElse(RoleField(u).GetOr(""), fallback)
  }

  const Student := "student"
  const Professor := "professeur"

  /** `((firstName || "").charAt(0) + (lastName || "").charAt(0)).toUpperCase() || "U"`,
      and "U" without a user. */
  function Initials(user: Option<User>): (r: string)
    ensures 1 <= |r| <= 2
  {
    match user
    case None => "U"
    case Some(u) => OrElse(Upper(FirstChar(u.firstName) + FirstChar(u.lastName)), "U")
  }

  /** "U" without a user or without both names; otherwise one upper-cased
      letter per name present, the first name's first. */
  lemma InitialsSpec(user: Option<User>)
    ensures user.None? ==> Initials(user) == "U"
    ensures user.Some? ==>
      var u := user.value; var r := Initials(user);
      && (u.firstName == "" && u.lastName == "" ==> r == "U")
      && (u.firstName != "" || u.lastName != "" ==>
            |r| == (if u.firstName != "" then 1 else 0) + (if u.lastName != "" then 1 else 0)
            && (u.firstName != "" ==> r[0] == UpperChar(u.firstName[0]))
            && (u.lastName != "" ==> r[|r| - 1] == UpperChar(u.lastName[0])))
  {
  }
}

=== FILE: wrappers.dfy ===
/** The optional value used wherever the front end works with `undefined`
    or `null`: an absent property, a lookup that finds nothing. */
module Wrappers {

  datatype Option<+T> = None | Some(value: T) {

    /** The value, or `default` when absent (JavaScript's `x ?? default`). */
    function GetOr(default: T): T {
      match this
      case Some(v) => v
      case None => default
    }
  }
}
